=== FILE: README.md ===
# magic-arxiv-writer — a Dafny model of its client-side logic

magic-arxiv-writer is a browser editor for writing arXiv papers with an AI assistant. The
user types an instruction into a chat panel. The client sends it, with a context window of
earlier messages and the current document, to a streaming completion service. It reads the
reply as server-sent `data:` lines and streams the accumulated text into the editor. Along the
way it records per-request timings and the execution nodes the service reports. A side panel
searches arXiv, normalises and sorts the results, scores them in tiers, formats author lines,
relative dates and BibTeX entries, and inserts citations into the document. A slash-command
menu, a template picker and a root-only sign-in dialog complete the client.

This project models that logic in Dafny and proves what it promises:

- **The streaming loop.** `CompletionStream`: a `CompletionSession` class holds the buffer, the
  node list, the two write-once milestones and the callback log. `CompletionService` holds the
  hook's state.
- **The two chat components.**
  - `ChatPanelComponent` runs the service and replays its callbacks over the panel state.
  - `ChatSectionComponent` runs the loop inline and writes straight into its history and
    metrics.
  - Both share `Conversation`: the context window, the turn grouping and the fresh metrics
    entry.
- **Pure displays and calculations.**
  - `ChatTimerDisplay`: the reply timer.
  - `TextStats`: the word and character counts and the reading time.
  - `MainContent`: document statistics and the citation update sequence.
  - `AcademicTemplates`: the template picker.
- **The references side.**
  - `ReferencesPanelComponent`: the panel itself, as a class.
  - `LegacyReferences`: the older panel.
  - `PaperCard`, `ScoreBadge`, `PanelFooter`, `PaperActions`: the card pieces.
  - `Papers`: the shared paper record.
- **Small state machines.** `SlashCommand`: the `SlashMenu` class. `Auth`: the cookie parser
  and the `AuthModal` class.
- **Helpers.** `Strings`, `Seqs`, `Wrappers`: the JavaScript string and array operations the
  code relies on (`trim`, `split`, `includes`, `filter`, a stable `sort`, `new Set`), with
  their properties.

Inputs the code takes from the environment are parameters:
- **Network replies.** A `Response` with a transcript of decoded reads; a `SearchResponse`; a
  `LoginReply`.
- **Clock readings.** Carried by each read, or passed as `startAt`, `endAt`, `now` and `year`.
- **`JSON.parse`.** The function `parse`.
- **The locale string order.** `titleLe`.
- **Date parsing.** `time`.

Callbacks become logs, modelled two ways:
- Callbacks into the host page (`onContent`, `onMetrics`, `onComplete`, `onError`,
  `onUpdateMarkdown`, `onClose`, `onLoginSuccess`, cookie writes) become emitted sequences.
- React state setters become field assignments.

Where the system's written description and the code differ, the model follows the code:
- **No buffering across chunks.** Each chunk is decoded and split into lines on its own
  (src/components/AIService/index.tsx:98-99). A line or a multi-byte character split across
  two chunks is not reassembled: the model keeps this per-chunk line filter.
- **No clamping of the final generating time.** It is `total − (firstByte || 0) −
  (process || 0)` with no clamping at zero (src/components/AIService/index.tsx:167).
  `ChatSection.tsx` likewise subtracts the stored send and process times without clamping.
  Only the timer display clamps, with `Math.max(…, 0)`.

## Model

| member | source | states |
|---|---|---|
| CompletionStream.DataLinesSpec | src/components/AIService/index.tsx:99 | the lines the loop handles are exactly the lines of the chunk whose trimmed form starts with `data:`, in order |
| CompletionStream.DataLines | src/components/AIService/index.tsx:99 | every line handed on is a line of the chunk that passes the `data:` test, and there are no more of them than lines |
| CompletionStream.Payload | src/components/AIService/index.tsx:102 | a leading `data: ` (with the space) is removed when present, and the line is otherwise left as it is |
| CompletionStream.SentinelPayload | src/components/AIService/index.tsx:102-106 | a line is the end-of-stream marker exactly when its payload equals `[DONE]` |
| CompletionStream.SentinelSpelling | src/components/AIService/index.tsx:102-106 | at the end-marker test, `data: [DONE]` and a bare `[DONE]` both count as the marker, while `data:[DONE]` (no space) does not and goes to the parser |
| CompletionStream.DataLineSentinels | src/components/AIService/index.tsx:99-106 | a bare `[DONE]` line never survives the `data:` filter, so among the lines the loop sees, the end marker is exactly `data: [DONE]` |
| CompletionStream.UntilSentinelSpec | src/components/AIService/index.tsx:101-106 | the lines processed are the longest sentinel-free prefix, and the line after it, if any, is the sentinel |
| CompletionStream.UntilSentinel | src/components/AIService/index.tsx:101-106 | the loop never handles more lines than the chunk holds (the prefix and stop facts are on `UntilSentinelSpec`) |
| CompletionStream.Entry | src/components/AIService/index.tsx:114-121 | a node entry copies the metadata fields, and its status is `completed` exactly when `execution_time` is present and positive |
| CompletionStream.FindNodeSpec | src/components/AIService/index.tsx:113 | `findIndex` returns the first entry with the id, and -1 exactly when no entry has it |
| CompletionStream.FindNode | src/components/AIService/index.tsx:113 | the index is -1 or a position of the list, and a position found holds an entry with the id |
| CompletionStream.UpsertSpec | src/components/AIService/index.tsx:123-127 | the upsert grows the list by at most one (by one exactly for a new id); other ids keep value and position; unique ids stay unique, with the new entry the only one for its id |
| CompletionStream.Upsert | src/components/AIService/index.tsx:123-127 | the new entry is in the list afterwards, which keeps its length or grows by one |
| CompletionStream.NodesLastWins | src/components/AIService/index.tsx:110-127 | after any run of lines the ids are unique and earlier entries keep their positions; each id's one entry is built from its newest metadata, and ids not mentioned keep their old entries |
| CompletionStream.TextAppend | src/components/AIService/index.tsx:145 | the buffer over two runs of lines is the first run's text followed by the second's, so text only ever grows by appending |
| CompletionStream.ProcessTimeAfter | src/components/AIService/index.tsx:141-143 | `processTime` once set never changes; unset, it becomes set exactly when some text has arrived |
| CompletionStream.ContentTextsGrow | src/components/AIService/index.tsx:149-151 | each `onContent` argument is a prefix of the final buffer and of every later argument |
| CompletionStream.ContentTextsFromLog | src/components/AIService/index.tsx:149-151 | every text handed on is the argument of an `onContent` call in the log |
| CompletionStream.FirstReadArrives | src/components/AIService/index.tsx:89-97 | a body whose reads do not fail delivered at least its first read |
| CompletionStream.LinesStep | src/components/AIService/index.tsx:101-152 | handling one more line appends its text to the buffer, applies its metadata to the nodes, moves `processTime` as for the joined text and appends that line's callbacks: the loop state of the longer prefix |
| CompletionStream.ProcessTimeStep | src/components/AIService/index.tsx:141-143 | setting `processTime` delta by delta agrees with setting it once for the joined text |
| CompletionStream.CleanTextIs | src/components/AIService/index.tsx:101-106 | the text read front to back up to the first `[DONE]` is the text of the sentinel-free prefix |
| CompletionStream.FoldProcessFirst | src/components/AIService/index.tsx:141-143 | `processTime` folded over per-read texts holds the offset of the first read with text, and nothing when no read has text |
| CompletionStream.ProcessAfterIsFold | src/components/AIService/index.tsx:89-157 | `processTime` after `j` reads is that fold over the reads' texts and offsets |
| CompletionStream.ProcessAfterFirstText | src/components/AIService/index.tsx:141-143 | `processTime` after `j` reads is set exactly when one of them carried text, to the first such read's time less the start and the first-byte time |
| CompletionStream.FirstTextRead | src/components/AIService/index.tsx:140-143 | the first read with text: no later than `j`, and carrying text when it is before `j` |
| CompletionStream.FirstTextReadBefore | src/components/AIService/index.tsx:140-143 | every read before it carries no text |
| CompletionStream.EmittedStep | src/components/AIService/index.tsx:89-157 | one more successful read fires exactly its `ReadCallbacks` (its lines' callbacks from the text, nodes and process time of the reads before it) and moves the process time to that of one more read |
| CompletionStream.LineCallbacksCoherent | src/components/AIService/index.tsx:129-151 | one line's callbacks keep an open log coherent with the buffer grown by the line's text |
| CompletionStream.CallbacksCoherent | src/components/AIService/index.tsx:101-156 | a run of lines keeps an open log coherent: the newest `onContent` is the whole text so far, one exists exactly when text arrived |
| CompletionStream.SessionCoherent | src/components/AIService/index.tsx:89-157 | the callbacks the loop fires are coherent with the session's whole text |
| CompletionStream.SessionTextsShape | src/components/AIService/index.tsx:145-151 | the editor texts of a session grow one from the next, each a prefix of the text; there are none exactly when no text arrived, and otherwise the last is the whole text |
| CompletionStream.SessionCallbackTexts | src/components/AIService/index.tsx:149-189 | the closing callbacks add no `onContent`: a session's editor texts are exactly those the read loop fired |
| CompletionStream.SessionOutcome | src/components/AIService/index.tsx:159-189 | the loop's values closed by `onError` or by the final metrics and `onComplete` are exactly `SessionCallbacks`; the log ends once, `onComplete` exactly when no read failed, and its newest `onContent` is the text |
| CompletionStream.SessionCallbacksShape | src/components/AIService/index.tsx:89-189 | every session on an accepted body ends with exactly one terminal callback, `onComplete` exactly when no read failed; its `onContent` texts grow to the whole text |
| CompletionStream.FinalMetrics | src/components/AIService/index.tsx:163-171 | the final report carries both milestones, the total and the nodes, and its generating time is what the total leaves after send and process (unset as 0) |
| CompletionStream.FirstByte | src/components/AIService/index.tsx:90-95 | the first-byte time is set exactly when the first read arrived, to its clock reading less the start |
| CompletionStream.Mark | src/components/AIService/index.tsx:93-95 | marking a read sets the first-byte time if unset, to the read's time less the start, and otherwise keeps it |
| CompletionStream.ContentTextsAppend | src/components/AIService/index.tsx:149-151 | the `onContent` texts of two logs joined are the first's followed by the second's |
| CompletionStream.LastContentTexts | src/components/AIService/index.tsx:149-151 | the newest `onContent` argument is the last editor text, and there is none exactly when no `onContent` was fired |
| CompletionStream.CompletionSession.constructor | src/components/AIService/index.tsx:57-61 | a session starts with no milestones, an empty buffer, no nodes, `done` false and no callbacks |
| CompletionStream.CompletionSession.MarkRead | src/components/AIService/index.tsx:90-95 | the first read fixes `firstByteTime` at the time since the start, and later reads leave it alone |
| CompletionStream.CompletionSession.RecordMeta | src/components/AIService/index.tsx:112-136 | the entry is upserted and one progress snapshot with both milestones and a copy of the node list is reported |
| CompletionStream.CompletionSession.AppendContent | src/components/AIService/index.tsx:140-152 | a non-empty delta is appended to the buffer; the first one fixes `processTime`; `onContent` gets the whole buffer |
| CompletionStream.CompletionSession.ProcessLine | src/components/AIService/index.tsx:101-155 | the sentinel sets `done` and changes nothing else; any other line adds its metadata and its text, at most one callback each, and a line that fails to parse changes nothing |
| CompletionStream.CompletionSession.ProcessLines | src/components/AIService/index.tsx:101-156 | the chunk's lines up to the first sentinel extend the buffer by their text, the nodes by their metadata and fix `processTime` if their text is the first; `done` is set exactly when a sentinel was met; the log grows by exactly `Callbacks` of those lines: per line an `onMetrics` progress snapshot when it has metadata, then `onContent` of the grown buffer when its delta is not empty |
| CompletionStream.CompletionSession.ProcessUntilSentinel | src/components/AIService/index.tsx:101-106 | the loop stops at the index of the first sentinel (or the end); buffer, nodes, `processTime` and the log are exactly those of the lines before it (`Callbacks` of that prefix appended to the log) |
| CompletionStream.CompletionSession.ProcessNext | src/components/AIService/index.tsx:108-155 | one pass of the line loop extends the handled prefix by one line: buffer, nodes, `processTime` and the appended callbacks become those of the longer prefix |
| CompletionStream.CompletionSession.ReadChunk | src/components/AIService/index.tsx:90-99 | one read fixes the first-byte time if unset; afterwards buffer and nodes reflect all lines seen so far, cut at `[DONE]`, `processTime` is set by this read's first text if it was unset, and the log grows by exactly this read's callbacks; the loop stops exactly when the read is `done` or holds the sentinel |
| CompletionStream.CompletionSession.ReadAll | src/components/AIService/index.tsx:89-157 | the read loop ends with the text and nodes of every data line up to the stopping read, cut at the sentinel; it fails exactly when that read threw; `firstByteTime` is the first read's time since the start, `processTime` the offset of the first read carrying text, and the log is exactly `Emitted`, the callbacks of every read handled, in order |
| CompletionStream.CompletionSession.Complete | src/components/AIService/index.tsx:159-176 | the final metrics carry the first-byte time, the total, the nodes and `generatingTime = total − send − process` with `isStreaming` false; `onComplete(buffer)` follows |
| CompletionStream.CompletionSession.Fail | src/components/AIService/index.tsx:178-189 | `onError` is appended as the one terminal callback |
| CompletionStream.RunSession | src/components/AIService/index.tsx:89-189 | one accepted body fires exactly `SessionCallbacks`: the loop's callbacks, then `onError` when a read threw, else the final metrics (first-byte, process, total from the start, nodes) and `onComplete(text)`; exactly one terminal callback, last; the newest `onContent` is the whole arrival-order text |
| CompletionStream.CompletionService.constructor | src/components/AIService/index.tsx:34-39 | the hook starts not generating, connected, with no content and no error |
| CompletionStream.CompletionService.GenerateCompletion | src/components/AIService/index.tsx:41-193 | exactly one of `onComplete`/`onError` fires, last; `onComplete` exactly when the response is ok and no read fails, with the final report; otherwise disconnected with the error; an accepted body fires exactly `SessionCallbacks`, a rejected request only `onError`; `isGenerating` is cleared either way |
| CompletionStream.CompletionService.ConsumeBody | src/components/AIService/index.tsx:85-189 | streaming a body fires exactly `SessionCallbacks` and leaves the content as the session text, which is the newest `onContent` argument; `onContent` arguments grow; completion or a read error ends the log, a read error leaving the hook disconnected |
| Conversation.FreshMetrics | src/components/ChatPanel/index.tsx:59-70 | the new entry has zero timings, the start time, streaming on and no nodes |
| Conversation.LastAssistantSpec | src/components/ChatPanel/index.tsx:75 | the newest assistant message is absent exactly when there is none, and otherwise no assistant message follows it |
| Conversation.LastAssistant | src/components/ChatPanel/index.tsx:75 | a message found is an assistant message of the history |
| Conversation.LastAssistantIsLatest | src/components/ChatPanel/index.tsx:75 | a message found is the last assistant message: it sits at some position and none follows it |
| Conversation.ContextWindowSpec | src/components/ChatPanel/index.tsx:72-81 | the window starts with the user messages of the history: exactly `Filter(history, IsUser)`, an order-preserving subsequence holding each user message as often as the history does; then the newest assistant message exactly when one exists, then the document message, then the instruction |
| Conversation.ContextWindow | src/components/ChatPanel/index.tsx:72-81 | the window has at most two messages more than the history, and ends with the document message and then the instruction, both from the user |
| Conversation.ContextWindowUsers | src/components/ChatPanel/index.tsx:72-81 | the window opens with the user messages of the history in order, each as often as the history holds it |
| Conversation.UserPositionsSpec | src/components/ChatSection.tsx:225-226 | the positions the grouping visits are exactly those of the user messages, increasing |
| Conversation.TurnsSpec | src/components/ChatSection.tsx:224-235 | one turn per user message, in order; a turn has an assistant message exactly when one immediately follows; other assistant messages belong to no turn |
| Conversation.GroupTurns | src/components/ChatPanel/index.tsx:134-146 | the index loop with its `i++` skip builds exactly the turns `TurnsSpec` describes |
| Conversation.SetContent | src/components/ChatSection.tsx:191-195 | rewriting the placeholder keeps the length and every other entry, and changes only that entry's content |
| ChatPanelComponent.MergeMetrics | src/components/ChatPanel/index.tsx:106-115 | the `onMetrics` fields replace the entry's; the start time is kept, and the final fields only arrive with the final report |
| ChatPanelComponent.Preview | src/components/ChatPanel/index.tsx:97 | the preview is at most 50 characters and no longer than the text |
| ChatPanelComponent.PreviewSpec | src/components/ChatPanel/index.tsx:97 | the preview is trimmed and is a contiguous piece of the last min(50, length) characters, with only white space around it in that tail |
| ChatPanelComponent.ProgressSummaryParts | src/components/ChatPanel/index.tsx:98 | the progress message opens with the status text, its badge holds decimal digits that read back as the word count, and the quoted preview stands just before the closing text |
| ChatPanelComponent.FinalSummaryParts | src/components/ChatPanel/index.tsx:118 | the final message holds between its fixed opening and closing text decimal digits that read back as the word count |
| ChatPanelComponent.StepSpec | src/components/ChatPanel/index.tsx:91-128 | `onContent` rewrites only the placeholder and sends the text to the editor; `onMetrics` writes only the request's entry; `onComplete` leaves the final summary in the placeholder; `onError` drops exactly the last message |
| ChatPanelComponent.ReplayOpenHistory | src/components/ChatPanel/index.tsx:91-105 | before the terminal callback the history keeps the earlier messages and ends with the rewritten placeholder, and `wordCount` is the newest count |
| ChatPanelComponent.ReplayMetrics | src/components/ChatPanel/index.tsx:106-115 | any replay writes no metrics entry but the request's, keeps its start time, and passes the editor every `onContent` text in order |
| ChatPanelComponent.ReplayClosed | src/components/ChatPanel/index.tsx:116-128 | after `onComplete` the placeholder holds the summary of the newest word count; after `onError` the history is the earlier messages plus the user message |
| ChatPanelComponent.ReplayFinal | src/components/ChatPanel/index.tsx:106-124 | the final metrics before `onComplete` are the last write to the entry |
| ChatPanelComponent.SubmitOutcome | src/components/ChatPanel/index.tsx:52-128 | after a request only the new metrics entry is written, and its start time is the panel's `tFetchStart`; the editor got every `onContent` text; the history ends with the final summary or loses the placeholder; after final metrics the entry has stopped streaming with their total, milestones, generating time and nodes |
| ChatPanelComponent.LastWordCountIs | src/components/ChatPanel/index.tsx:96 | when the newest `onContent` argument is the text, the `wordCount` the panel keeps is that text's word count |
| ChatPanelComponent.SessionView | src/components/ChatPanel/index.tsx:91-124 | seen from the panel, a session's editor updates are the session texts, none exactly when no text came, the last one the whole text, and the word count the whole text's |
| ChatPanelComponent.SubmitBody | src/components/ChatPanel/index.tsx:88-129 | replaying an accepted body over the panel: the editor gets exactly the session texts; success leaves `FinalSummary` of the text's word count, an entry that stopped streaming with total from the service's start, send time from the first read, process time from the first text, generating time the rest, and the session's nodes |
| ChatPanelComponent.ChatPanel.Begin | src/components/ChatPanel/index.tsx:52-85 | the user message and the placeholder are appended (their indices returned), the input cleared, and a fresh entry started at the panel's clock reading appended |
| ChatPanelComponent.ChatPanel.Settle | src/components/ChatPanel/index.tsx:88-129 | the service's callbacks replayed over the panel leave the state `Submitted` describes |
| ChatPanelComponent.ChatPanel.constructor | src/components/ChatPanel/index.tsx:28 | the panel starts empty, with its own idle service |
| ChatPanelComponent.ChatPanel.HandleSubmit | src/components/ChatPanel/index.tsx:47-132 | a blank input or a running generation is ignored. Otherwise the context window is sent and `Submitted` holds: the user message and one new metrics entry (started at the panel's clock reading) are added; the editor gets exactly the session's `onContent` texts, the last one the whole text; success leaves `FinalSummary` of the text's word count and the entry's final timings (total from the service's own start, send from the first read, process from the first text); failure leaves the history plus the user message |
| ChatSectionComponent.WithProgress | src/components/ChatSection.tsx:129-189 | the loop's writes set the send time, process time and nodes of the entry and keep all its other fields |
| ChatSectionComponent.Finalise | src/components/ChatSection.tsx:203-215 | the final write sets the total and turns streaming off; the three phases then add up to the total, with send, process and nodes kept |
| ChatSectionComponent.ReadStream | src/components/ChatSection.tsx:121-202 | the inline loop fails exactly when a read throws, accumulates the arrival-order text and the upserted nodes; the send time is the first read's time since the start, the process time the offset of the first read carrying text (set exactly when text arrived); the editor updates are exactly the session's `onContent` texts, each a prefix of the text, the last one the text itself |
| ChatSectionComponent.ChatSection.constructor | src/components/ChatSection.tsx:25-38 | the component starts with no history, an empty input, not generating and no metrics; its chunks are read through the same data-line filter as the service (line 142) |
| ChatSectionComponent.ChatSection.HandleSubmit | src/components/ChatSection.tsx:60-220 | a blank instruction changes nothing (there is no `isGenerating` guard). Otherwise the user message, an empty placeholder and a fresh entry are added and the window is sent. A non-ok reply returns with the entry still streaming and no editor update. A body leaves its text in the placeholder, the editor updates exactly the session's texts, and the entry's send time, process time and nodes those of the session; a finished stream's final entry has phases summing to the total. `isGenerating` is cleared |
| ChatSectionComponent.ChatSection.Stream | src/components/ChatSection.tsx:126-202 | the setters the loop calls leave the session text in the placeholder, the first-byte send time, the first-text process time and the nodes in the request's entry only, and append exactly the session's texts to the editor updates, each a prefix of the text |
| ChatSectionComponent.ChatSection.Begin | src/components/ChatSection.tsx:62-98 | the user message and an empty placeholder are appended (their indices returned), the input cleared, generation flagged and a fresh entry started at `tFetchStart` appended |
| ChatSectionComponent.ChatSection.Record | src/components/ChatSection.tsx:129-196 | the setters' combined effect: the placeholder holds the buffer, the request's entry the milestones and nodes, every other entry is kept, and the editor updates are extended by the texts |
| ChatSectionComponent.ChatSection.Turns | src/components/ChatSection.tsx:222-235 | the component renders the turns `TurnsSpec` describes |
| ChatTimerDisplay.AtLeastZero | src/components/ChatPanel/ChatTimer.tsx:32 | `Math.max(x, 0)` is non-negative, at least `x`, and either `x` or 0 |
| ChatTimerDisplay.DisplayedSend | src/components/ChatPanel/ChatTimer.tsx:25-26 | the stored send time once positive, else the non-negative elapsed time (the same as src/components/ChatTimer.tsx lines 33-35) |
| ChatTimerDisplay.DisplayedProcess | src/components/ChatPanel/ChatTimer.tsx:28-33 | the stored process time once positive; while only the send time is known, the elapsed time since it (clamped at 0); 0 while neither milestone is known; never negative |
| ChatTimerDisplay.DisplayedGenerating | src/components/ChatPanel/ChatTimer.tsx:35-40 | the stored generating time once positive; while send and process are known, the elapsed time less both (clamped at 0); 0 until both are known; never negative |
| ChatTimerDisplay.DisplayedTotal | src/components/ChatPanel/ChatTimer.tsx:42 | the elapsed time while streaming, the stored total afterwards (ChatTimer.tsx line 51 likewise) |
| ChatTimerDisplay.SettledFiguresIgnoreClock | src/components/ChatTimer.tsx:33-51 | once a stored figure is positive (for the total, once streaming is over) the displayed value does not depend on the clock |
| ChatTimerDisplay.FiguresNeverDecrease | src/components/ChatTimer.tsx:33-51 | every displayed figure is non-decreasing in the clock reading |
| ChatTimerDisplay.RecordingDoesNotJump | src/components/ChatTimer.tsx:34-49 | storing a milestone with the value the live figure shows at that instant leaves the display unchanged |
| TextStats.StripTags | src/components/RichTextEditor/utils/wordCounter.ts:3 | stripping never lengthens the text |
| TextStats.StripTagsKeeps | src/components/RichTextEditor/utils/wordCounter.ts:3 | stripping only removes characters |
| TextStats.StripTagsLeavesNoTag | src/components/RichTextEditor/utils/wordCounter.ts:3 | no `<…>` span is left after stripping; a surviving `<` has no `>` after it |
| TextStats.StripTagsOfNoTag | src/components/RichTextEditor/utils/wordCounter.ts:3 | text without a tag passes through unchanged |
| TextStats.StripTagsIdempotent | src/components/RichTextEditor/utils/wordCounter.ts:3 | stripping twice equals stripping once, and text without `<` is left as it is |
| TextStats.PlainText | src/components/RichTextEditor/utils/wordCounter.ts:3 | the stripped, trimmed text is no longer than the HTML |
| TextStats.UpdateCounts | src/components/RichTextEditor/utils/wordCounter.ts:2-11 | the character count is the plain text's length (at most the input's); no words for empty text, else the pieces of the whitespace split |
| TextStats.UpdateCountsSpec | src/components/RichTextEditor/utils/wordCounter.ts:4-5 | the word count is the number of words of the tag-free text, at least one for non-blank text; without `<` the character count is the trimmed length |
| TextStats.ReadingMinutes | src/components/ReferencesPanel/PaperStats.tsx:16 | the minutes are the least whole number covering the words at 200 a minute |
| TextStats.ReadingMinutesSpec | src/components/ReferencesPanel/PaperStats.tsx:13-18 | zero minutes exactly for zero words, one minute for 1..200 words, and more words never take less time |
| TextStats.ReadingTime | src/components/ReferencesPanel/PaperStats.tsx:13-18 | no minutes exactly for a text without words; otherwise the least whole number of minutes covering the words at 200 a minute |
| TextStats.ReadingTimeOfTrim | src/components/ReferencesPanel/PaperStats.tsx:9-11 | leading and trailing white space change neither the word count nor the reading time |
| Strings.WordCountIsRuns | src/components/ReferencesPanel/PaperStats.tsx:10 | `split(/\s+/)` with empty pieces dropped counts exactly the maximal runs of non-space characters |
| Strings.WordCountOfTrim | src/components/MainContent/index.tsx:37 | the word count of a trimmed text is that of the text |
| Seqs.FilterExact | src/components/ChatPanel/index.tsx:72-75 | `filter` keeps order (its result is a subsequence of the input) and keeps each element the predicate accepts exactly as often as the input has it, and no other |
| Seqs.FilterUnique | src/components/ChatPanel/index.tsx:72-75 | a subsequence with exactly those counts is the `filter` result, so the two facts pin the result down |
| Seqs.SubsequenceCount | src/components/ChatPanel/index.tsx:72-75 | a subsequence holds no element more often than the sequence it is taken from |
| Seqs.FilterLength | src/components/ReferencesPanel/PanelFooter.tsx:16-17 | `filter(...).length` is the number of positions whose element passes the predicate |
| Seqs.SubsequencePrefix | src/components/ReferencesPanel/PanelFooter.tsx:29-31 | `slice(0, k)` of a subsequence is still a subsequence |
| Strings.RemoveAll | src/components/ReferencesPanel/PaperActions.tsx:13 | `replace(/\./g, '')`: no `.` is left, the length drops by the number of dots, the rest keeps its order (a subsequence) and every other character its count |
| Strings.RemoveAllIsFilter | src/components/ReferencesPanel/PaperActions.tsx:13 | removing every `c` is exactly filtering out `c` (`Seqs.Filter`) |
| MainContent.Stats | src/components/MainContent/index.tsx:37-39 | the characters are the length, the lines one more than the line breaks, the words the runs of non-space characters |
| MainContent.Surname | src/components/MainContent/index.tsx:43 | the surname is never empty and holds no space |
| MainContent.SurnameSpec | src/components/MainContent/index.tsx:43 | the surname is what follows the last space of the trimmed first author, or `Unknown` when that is empty |
| MainContent.CitationLinkParts | src/components/MainContent/index.tsx:45-46 | the citation opens with `[` and the surname, and ends with the link to the entry anchor `#ref-` plus the id without its first `.` |
| MainContent.ReferenceEntryParts | src/components/MainContent/index.tsx:59 | the entry is a list item (it starts with `-`) ending in a blank line |
| MainContent.ReferenceEntryMentionsId | src/components/MainContent/index.tsx:59-61 | the entry mentions the paper id, so a document ending in it no longer misses the paper |
| MainContent.WithCitationParts | src/components/MainContent/index.tsx:49-50 | the first update keeps the document as it is, adds two characters, and ends with the citation link |
| MainContent.CiteUpdates | src/components/MainContent/index.tsx:41-64 | as written: the first update is the document plus the citation; a missing references header makes the next update that document plus the header section; an id not yet mentioned makes the last update that document plus the paper's reference entry (and, when the id is already there, the last update is the first plus at most the header) |
| MainContent.CiteUpdatesLosesHeader | src/components/MainContent/index.tsx:54-63 | on an empty document the second update has the references header and the final update does not |
| MainContent.CiteUpdatesFixed | src/components/MainContent/index.tsx:41-64 | as intended: the same updates in number and order, with the entry placed after the section |
| MainContent.CiteUpdatesFixedKeepsHeader | src/components/MainContent/index.tsx:50-63 | the final document has a references header, starts with the document and citation, and ends with the entry exactly when the id was new |
| MainContent.LastFixedUpdate | src/components/MainContent/index.tsx:54-63 | the fixed sequence ends with the document with its section, then the entry if one is due |
| MainContent.SectionThenEntry | src/components/MainContent/index.tsx:54-63 | a document with a header appended keeps it after the entry follows |
| MainContent.UseTemplate | src/components/MainContent/index.tsx:66-69 | using a template sets the document to exactly its structure and shows the chat panel |
| AcademicTemplates.CategoriesOf | src/components/AcademicTemplates.tsx:244 | one category per template, in order |
| AcademicTemplates.CategoriesSpec | src/components/AcademicTemplates.tsx:244 | `all`, then each template category once, in order of first appearance, and nothing else |
| AcademicTemplates.Shown | src/components/AcademicTemplates.tsx:246-248 | `all` shows every template |
| AcademicTemplates.ShownSpec | src/components/AcademicTemplates.tsx:246-248 | any other category shows exactly its templates: an order-preserving subsequence of the list holding each template of the category as often as the list does and no other, which determines it (`Seqs.FilterUnique`); never an empty page for a listed category |
| AcademicTemplates.ToggleDetails | src/components/AcademicTemplates.tsx:292-294 | clicking opens the clicked template unless it was open, and then closes it |
| AcademicTemplates.ToggleDetailsTwice | src/components/AcademicTemplates.tsx:292-294 | clicking the same template twice restores the state when at most it was open |
| AcademicTemplates.Preview | src/components/AcademicTemplates.tsx:307 | the preview is the first 300 characters (or all, if shorter) followed by `...` |
| Papers.Scores | src/components/ReferencesPanel/PanelFooter.tsx:11 | one score per paper, a missing score as 0 |
| Papers.MaxMinSpec | src/components/ReferencesPanel/PanelFooter.tsx:13-14 | the maximum and minimum are scores of the list and bound every score |
| Papers.SumBetween | src/components/ReferencesPanel/PanelFooter.tsx:12 | the sum lies between the count times the minimum and the count times the maximum |
| Papers.AverageBetween | src/components/ReferencesPanel/PanelFooter.tsx:12-14 | the average of a non-empty list lies between its minimum and maximum |
| Papers.Mean | src/components/ReferencesPanel/PanelFooter.tsx:12-14 | the mean times the count is the sum, and it lies between the minimum and the maximum |
| Papers.AuthorPieces | src/components/ReferencesPanel/PaperCard.tsx:32 | one piece per `,`-separated part |
| Papers.AuthorPiecesSpec | src/components/ReferencesPanel/PaperCard.tsx:32 | the pieces are one more than the commas, each trimmed and comma-free |
| Papers.AuthorPiecesOfJoin | src/components/ReferencesPanel/PaperCard.tsx:32 | trimmed comma-free names joined by `, ` split back into exactly those names |
| Papers.FormatAuthorListShows | src/components/ReferencesPanel/PaperCard.tsx:31-37 | up to three authors are all shown; beyond that the first three followed by ` et al.`, each readable back by splitting on commas |
| Papers.AbsUrl | src/components/ReferencesPanel/PaperActions.tsx:37-39 | the abstract link is the arXiv abstract prefix followed by the id |
| Papers.PdfUrl | src/components/ReferencesPanel/PaperActions.tsx:33-35 | the PDF link is the arXiv PDF prefix, the id and `.pdf` |
| Papers.LinksInjective | src/components/ReferencesPanel/PaperActions.tsx:33-39 | different ids give different links |
| Papers.ShortAbstract | src/components/ReferencesPanel/PaperCard.tsx:115-121 | an abstract of at most 200 characters is shown whole, a longer one as its first 200 and `...` |
| Papers.ShortAbstractBounded | src/components/ReferencesPanel.tsx:210-213 | the preview is at most 203 characters, at most 3 longer than the abstract, and starts like it |
| PaperCard.AuthorCount | src/components/ReferencesPanel/PaperCard.tsx:109 | the author count is one more than the number of commas |
| PaperCard.FormatAuthorsOfJoin | src/components/ReferencesPanel/PaperCard.tsx:31-37 | the card's author line and count of a `, `-joined list are those of the names |
| PaperCard.FormatAuthors | src/components/ReferencesPanel/PaperCard.tsx:31-37 | more than three comma-separated names end the author line in ` et al.` |
| PaperCard.CeilDiv | src/components/ReferencesPanel/PaperCard.tsx:52 | `Math.ceil(a / b)` is the least multiple count covering `a` |
| PaperCard.DiffDays | src/components/ReferencesPanel/PaperCard.tsx:51-52 | the whole days, rounded up, covering the distance between the two dates in either direction |
| PaperCard.RelativeTime | src/components/ReferencesPanel/PaperCard.tsx:48-59 | 1 day is yesterday; under 7 days counts days (0 included); under 30 weeks, under 365 months, then years, each rounded up |
| PaperCard.RelativeTimeMonotone | src/components/ReferencesPanel/PaperCard.tsx:54-58 | an older paper never shows a smaller number in the same unit |
| PaperCard.AgoText | src/components/ReferencesPanel/PaperCard.tsx:54-58 | one day reads `Yesterday`; every other bucket starts with its count in decimal digits and ends in ` ago` |
| PaperCard.ExtractCategory | src/components/ReferencesPanel/PaperCard.tsx:61-80 | an id of four digits, a dot and five digits maps through the table on the two digits after the dot; any other id or key gives `cs.AI` |
| PaperCard.ExtractCategoryExamples | src/components/ReferencesPanel/PaperCard.tsx:61-80 | `1706.03762` gives `cs.CV`; `2005.14165` and an old-style id give `cs.AI` |
| PaperCard.ShownAbstract | src/components/ReferencesPanel/PaperCard.tsx:115-121 | an expanded abstract is shown in full, a collapsed one as the short preview |
| PaperCard.CutOnlyWithReadMore | src/components/ReferencesPanel/PaperCard.tsx:115-130 | whenever less than the whole abstract is shown, the read-more button is there, and a long collapsed abstract is cut |
| PaperCard.DoiLink | src/components/ReferencesPanel/PaperCard.tsx:133-145 | the DOI link exists exactly for a non-empty DOI |
| ScoreBadge.TierOf | src/components/ReferencesPanel/ScoreBadge.tsx:8-14 | a score's tier rank is the number of the thresholds 0.6, 0.7, 0.8, 0.9 it reaches |
| ScoreBadge.ScoreColor | src/components/ReferencesPanel/PaperCard.tsx:23-29 | the colour class is that of the score's tier (the badge's copy at ScoreBadge.tsx lines 8-14 is the same) |
| ScoreBadge.ScoreLabel | src/components/ReferencesPanel/ScoreBadge.tsx:16-22 | the label is that of the score's tier |
| ScoreBadge.TierNamesDistinct | src/components/ReferencesPanel/ScoreBadge.tsx:8-22 | each tier has its own colour and its own label |
| ScoreBadge.ColorAndLabelAgree | src/components/ReferencesPanel/ScoreBadge.tsx:8-22 | two scores share a colour exactly when they share a label, exactly when they share a tier |
| ScoreBadge.TierMonotone | src/components/ReferencesPanel/ScoreBadge.tsx:8-22 | a higher score never falls in a lower tier |
| PanelFooter.GetScoreStats | src/components/ReferencesPanel/PanelFooter.tsx:10-26 | the average is the sum of the scores over their count (average × count = sum); min ≤ average ≤ max; both extremes are scores and bound every paper's score |
| PanelFooter.MeanOfScores | src/components/ReferencesPanel/PanelFooter.tsx:12-14 | the mean score times the number of papers is the sum of the scores |
| PanelFooter.ExcellentCount | src/components/ReferencesPanel/PanelFooter.tsx:11-16 | filtering the scores for ≥ 0.9 keeps one score per paper scoring at least 0.9 (missing as 0) |
| PanelFooter.GoodCount | src/components/ReferencesPanel/PanelFooter.tsx:11-17 | filtering the scores for [0.7, 0.9) keeps one score per paper scoring in that range |
| PanelFooter.GoodOrExcellent | src/components/ReferencesPanel/PanelFooter.tsx:16-17 | the two ranges split the papers scoring at least 0.7 with no overlap |
| PanelFooter.ScoreCountsSpec | src/components/ReferencesPanel/PanelFooter.tsx:16-17 | `excellentCount` is exactly the number of papers scoring ≥ 0.9 and `goodCount` exactly the number scoring in [0.7, 0.9); no paper is in both, so together they count the papers scoring ≥ 0.7 and never exceed the number of papers |
| PanelFooter.BestMatchesSpec | src/components/ReferencesPanel/PanelFooter.tsx:28-39 | the papers cited are a prefix of the list's best matches (score ≥ 0.8), in list order, of length min(3, their number): all of them when fewer than three; the button shows exactly when that number is non-zero |
| PanelFooter.BestMatchesInOrder | src/components/ReferencesPanel/PanelFooter.tsx:29-31 | the cited papers lead the filtered best matches and are a subsequence of the list |
| PaperActions.FirstAuthorWord | src/components/ReferencesPanel/PaperActions.tsx:11 | the key's author word holds no space |
| PaperActions.BibKey | src/components/ReferencesPanel/PaperActions.tsx:11-13 | the key is the author word, then the year, then exactly the id with every `.` removed (`Strings.RemoveAll`) |
| PaperActions.DoiField | src/components/ReferencesPanel/PaperActions.tsx:20 | the `doi` field is present exactly for a non-empty DOI |
| PaperActions.EntryLinesSpec | src/components/ReferencesPanel/PaperActions.tsx:15-22 | eight lines; the sixth is the DOI field or only its indent; the journal and url lines embed the id verbatim |
| PaperActions.BibTeXLines | src/components/ReferencesPanel/PaperActions.tsx:10-23 | without line breaks in the fields, the entry splits back into exactly its eight lines |
| PaperActions.GenerateBibTeX | src/components/ReferencesPanel/PaperActions.tsx:10-23 | whatever the fields hold, the entry opens with `@article{`, the key and a comma, and closes with `}` |
| PaperActions.EntryOnSeparateLines | src/components/ReferencesPanel/PaperActions.tsx:15-22 | one-line fields give one entry line each |
| PaperActions.KeyOnOneLine | src/components/ReferencesPanel/PaperActions.tsx:11-13 | the key holds no line break when the authors and id hold none |
| ReferencesPanelComponent.NormalisePaper | src/components/ReferencesPanel/index.tsx:92-100 | each given field is kept, each missing or empty one gets its default (`unknown-<index>`, `Untitled Paper`, …), and a missing or zero score becomes 1.0 − 0.05·index |
| ReferencesPanelComponent.Normalise | src/components/ReferencesPanel/index.tsx:91-104 | one paper per result, same length and order |
| ReferencesPanelComponent.NormaliseDefaults | src/components/ReferencesPanel/index.tsx:93-99 | results without an id get distinct ids; default scores fall strictly with the position |
| ReferencesPanelComponent.FallbackSpec | src/components/ReferencesPanel/index.tsx:112-118 | when some sample matches the query, ignoring case, the papers shown are exactly the matching samples, in the samples' order and each exactly as often as among the samples; when none matches, all samples are shown; the fallback is empty only when there are no samples |
| ReferencesPanelComponent.Fallback | src/components/ReferencesPanel/index.tsx:112-118 | the fallback never holds more papers than the samples, and only samples |
| ReferencesPanelComponent.FallbackNotice | src/components/ReferencesPanel/index.tsx:119 | the notice ends with the query in double quotes |
| ReferencesPanelComponent.SortedPapers | src/components/ReferencesPanel/index.tsx:126-137 | the sorted list is a permutation of the papers; in score mode scores never increase (missing as 0), in date mode dates never increase |
| ReferencesPanelComponent.SortedPapersSpec | src/components/ReferencesPanel/index.tsx:126-137 | score mode is non-increasing (missing as 0), date mode newest first, title mode in title order |
| ReferencesPanelComponent.ReferencesPanel.Displayed | src/components/ReferencesPanel/index.tsx:126-137 | the displayed list is a permutation of the panel's papers; by score the scores never increase, by date the dates never increase |
| ReferencesPanelComponent.PrecedesTotal | src/components/ReferencesPanel/index.tsx:126-137 | every comparator describes a total preorder |
| ReferencesPanelComponent.Toggled | src/components/ReferencesPanel/index.tsx:140-148 | the toggle flips exactly the one id's membership |
| ReferencesPanelComponent.ToggledTwice | src/components/ReferencesPanel/index.tsx:140-148 | toggling twice restores the set |
| ReferencesPanelComponent.AverageScore | src/components/ReferencesPanel/index.tsx:172 | 0 for an empty list; otherwise sum over count, between the minimum and maximum |
| ReferencesPanelComponent.RelatedQueryRuns | src/components/ReferencesPanel/index.tsx:192 | a related-papers query is never blank, so the search always runs |
| ReferencesPanelComponent.RelatedQuery | src/components/ReferencesPanel/index.tsx:192 | the query starts with `related to ` |
| ReferencesPanelComponent.RelatedQueryWords | src/components/ReferencesPanel/index.tsx:192 | after `related to ` the query splits on spaces back into the title's words, at most its first five |
| ReferencesPanelComponent.ReferencesPanel.constructor | src/components/ReferencesPanel/index.tsx:51-57 | no papers, not searching, sorted by score, no error, no query, nothing expanded |
| ReferencesPanelComponent.ReferencesPanel.SearchPapers | src/components/ReferencesPanel/index.tsx:60-123 | a blank query changes nothing; otherwise the query is remembered and the expanded set cleared; the papers become the normalised results, or the sample fallback with its notice; searching ends |
| ReferencesPanelComponent.ReferencesPanel.ToggleAbstract | src/components/ReferencesPanel/index.tsx:140-148 | the expanded set is toggled at the one id and nothing else changes |
| LegacyReferences.CategoriesSpec | src/components/ReferencesPanel.tsx:35 | a category is listed exactly when some reference carries it |
| LegacyReferences.Categories | src/components/ReferencesPanel.tsx:35 | every category some reference carries is in the flattened list |
| LegacyReferences.StringLeTotalPreorder | src/components/ReferencesPanel.tsx:36 | the default string order is total and transitive |
| LegacyReferences.AllCategoriesSpec | src/components/ReferencesPanel.tsx:34-36 | the category set is exactly the categories some reference carries, each once, strictly increasing |
| LegacyReferences.AllCategories | src/components/ReferencesPanel.tsx:34-36 | the category set has no duplicates and holds exactly the flattened categories |
| LegacyReferences.CategoryChipsSpec | src/components/ReferencesPanel.tsx:147-151 | the chips are the first six of the category set (all when fewer): each carried by some reference, distinct and increasing, and every carried category without a chip comes after every chip |
| LegacyReferences.CategoryChips | src/components/ReferencesPanel.tsx:151 | the chips are a prefix of the category set, at most six long |
| LegacyReferences.FilterByCategoriesSpec | src/components/ReferencesPanel.tsx:39-45 | no selection keeps every reference; otherwise exactly those sharing a selected category: an order-preserving subsequence with each such reference as often as the list has it |
| LegacyReferences.FilterByCategories | src/components/ReferencesPanel.tsx:39-45 | the filter only drops references, and keeps only references it shows (no selection, or a shared selected category) |
| LegacyReferences.SortReferences | src/components/ReferencesPanel.tsx:46-57 | the sorted list is a permutation of the filtered one; in relevance mode relevance never increases (missing as 0), in date mode publication dates never increase |
| LegacyReferences.PrecedesTotal | src/components/ReferencesPanel.tsx:46-57 | every comparator describes a total preorder |
| LegacyReferences.SortReferencesSpec | src/components/ReferencesPanel.tsx:46-57 | relevance (missing as 0) and date never increase, titles follow the title order |
| LegacyReferences.ToggleCategory | src/components/ReferencesPanel.tsx:155-159 | the clicked category is selected afterwards exactly when it was not before; others are unaffected |
| LegacyReferences.ToggleCategorySpec | src/components/ReferencesPanel.tsx:155-159 | the selection stays duplicate-free, and two clicks on an unselected category restore it |
| LegacyReferences.HandleSearch | src/components/ReferencesPanel.tsx:59-64 | the trimmed query is submitted exactly when it is not blank |
| LegacyReferences.HandleSearchIdempotent | src/components/ReferencesPanel.tsx:59-64 | resubmitting a submitted query submits it unchanged |
| LegacyReferences.HandleSearchBlank | src/components/ReferencesPanel.tsx:61 | a white-space query is never submitted |
| LegacyReferences.FormatAuthors | src/components/ReferencesPanel.tsx:66-71 | more than three authors end in ` et al.`; trimmed comma-free names read back by splitting on commas: all of them up to three, the first three otherwise |
| LegacyReferences.AbstractPreview | src/components/ReferencesPanel.tsx:210-213 | the preview is at most 203 characters, at most 3 longer than the abstract, and starts like it |
| LegacyReferences.FirstAuthorWord | src/components/ReferencesPanel.tsx:82 | the last space-separated word of the first author, or `Unknown` when there is none or it is empty |
| LegacyReferences.BibKey | src/components/ReferencesPanel.tsx:81-83 | the key is the lower-cased author word, then the year, then exactly the id with its first `.` removed |
| LegacyReferences.BibKeyMatchesCard | src/components/ReferencesPanel.tsx:81-83 | for one author and an id with at most one dot, the key is the card's key with the author word lower-cased |
| LegacyReferences.BibTeXLines | src/components/ReferencesPanel.tsx:85-91 | without line breaks in the fields, the entry splits back into exactly its seven lines |
| LegacyReferences.EntryLines | src/components/ReferencesPanel.tsx:85-91 | seven lines: the first opens the entry with the key, the five fields are indented by two spaces, the last is `}` |
| LegacyReferences.BibTeX | src/components/ReferencesPanel.tsx:79-91 | whatever the fields hold, the text opens with `@article{`, the key and a comma, and closes with `}` |
| LegacyReferences.KeyOnOneLine | src/components/ReferencesPanel.tsx:81-83 | the key holds no line break when the authors and id hold none |
| LegacyReferences.EntryOnSeparateLines | src/components/ReferencesPanel.tsx:85-91 | one-line fields give one entry line each |
| SlashCommand.FilterCommandsSpec | src/components/RichTextEditor/SlashCommand/index.tsx:13-16 | exactly the commands whose title or description contains the query, ignoring case, as an order-preserving subsequence with each kept command as often as the list has it; the empty query keeps all |
| SlashCommand.FilterCommands | src/components/RichTextEditor/SlashCommand/index.tsx:13-16 | only matching commands are listed, never more than the list holds |
| SlashCommand.ShippedMenuListsAll | src/components/RichTextEditor/SlashCommand.tsx:79-82 | with the query the menu keeps, all nine commands are listed |
| SlashCommand.JsRem | src/components/RichTextEditor/SlashCommand/index.tsx:22-25 | JavaScript `%` has the sign of the dividend and a magnitude under the divisor |
| SlashCommand.StepDown | src/components/RichTextEditor/SlashCommand/index.tsx:22 | ArrowDown moves to the next item and wraps from the last to the first; on an empty list it gives `NaN` |
| SlashCommand.StepUp | src/components/RichTextEditor/SlashCommand/index.tsx:25 | ArrowUp moves to the previous item and wraps from the first to the last; on an empty list it gives `NaN` |
| SlashCommand.StepsInverse | src/components/RichTextEditor/SlashCommand.tsx:88-91 | Up after Down, and Down after Up, are the identity on every index in range |
| SlashCommand.DownTimesAt | src/components/RichTextEditor/SlashCommand/index.tsx:22 | `k` presses of ArrowDown move `k` places round the list |
| SlashCommand.DownCycle | src/components/RichTextEditor/SlashCommand/index.tsx:22 | `n` presses come back to the start |
| SlashCommand.ExecuteCalls | src/components/RichTextEditor/SlashCommand/index.tsx:51-59 | executing deletes the slash, runs the command's action, then closes |
| SlashCommand.SlashMenu.constructor | src/components/RichTextEditor/SlashCommand/index.tsx:9-10 | the menu starts at index 0 with no calls made |
| SlashCommand.SlashMenu.HandleKey | src/components/RichTextEditor/SlashCommand/index.tsx:19-36 | the arrows step the index; Enter executes the selected command only when the index addresses one; Escape closes; other keys do nothing; the selection stays on an item while the menu renders |
| SlashCommand.SlashMenu.MouseEnter | src/components/RichTextEditor/SlashCommand/index.tsx:65-67 | hovering selects the hovered item and calls nothing |
| SlashCommand.SlashMenu.Click | src/components/RichTextEditor/SlashCommand.tsx:133-140 | clicking executes the clicked command, whatever is selected |
| SlashCommand.ShippedStepsStayInRange | src/components/RichTextEditor/SlashCommand.tsx:88-91 | on the shipped menu the arrows never give `NaN` and keep every index in range |
| Auth.GetCookie | src/components/Auth/index.tsx:38-47 | the loop over segments returns what the reference lookup over the `;`-split cookie text returns |
| Auth.FirstMatch | src/components/Auth/index.tsx:41-45 | the first segment that starts with `name=` once its leading spaces are stripped |
| Auth.LookupSpec | src/components/Auth/index.tsx:41-46 | the value is the rest of the first matching segment after `name=`, and null when none matches |
| Auth.LineStartsWith | src/components/Auth/index.tsx:39-44 | a cookie line starts with `name=` exactly when the cookie has that name, so `session_token2` never matches `session_token`; the value follows verbatim |
| Auth.LookupLines | src/components/Auth/index.tsx:40-46 | looking up a rendered cookie jar finds the value of the first cookie with the name |
| Auth.CookieValueOfJar | src/components/Auth/index.tsx:38-47 | `getCookie` on the browser's `name=value; …` text gives the first value for that name, and nothing for an empty jar |
| Auth.EmptyJarHasNoCookie | src/components/Auth/index.tsx:38-47 | the empty cookie text answers nothing for any name |
| Auth.CookieAssignmentReadBack | src/components/Auth/index.tsx:32-36 | the assignment `setCookie` writes reads back as the value it set |
| Auth.FailureMessage | src/components/Auth/index.tsx:101 | the server's message, or the default text when it is empty |
| Auth.NeedsCookieWrite | src/components/Auth/index.tsx:92 | the cookie is left alone exactly when it already holds this same non-empty token |
| Auth.RefusalMessage | src/components/Auth/index.tsx:83-105 | the network text for no usable reply, access denied for an accepted non-root user, else the failure message |
| Auth.SecondLoginWritesNothing | src/components/Auth/index.tsx:91-94 | after the token is written, a second login with the same token writes no cookie |
| Auth.AuthModal.constructor | src/components/Auth/index.tsx:54-63 | sign-in mode, blank forms, no error, not loading |
| Auth.AuthModal.CloseModal | src/components/Auth/index.tsx:111-117 | calls `onClose`, then back to sign-in with the error and both forms cleared |
| Auth.AuthModal.SwitchAuthMode | src/components/Auth/index.tsx:119-122 | the chosen mode with the error cleared and the forms kept |
| Auth.AuthModal.Refuse | src/components/Auth/index.tsx:86-87 | only the error changes |
| Auth.AuthModal.SignInRoot | src/components/Auth/index.tsx:90-98 | the session cookie is written unless it holds the token already; the user is handed on and the modal closes |
| Auth.AuthModal.HandleLogin | src/components/Auth/index.tsx:65-109 | only an ok, successful reply for a root user signs in; any other reply leaves its error and writes no cookie; loading is off at the end |

## Findings

| source | as written | input that shows it | evidently intended | confidence | as-written member | corrected member |
|---|---|---|---|---|---|---|
| src/components/MainContent/index.tsx:54-63 | the third `onUpdateMarkdown` call is `newContent + referenceEntry`, built from the document without the `## References` section the second call just added; the last call wins | citing a paper with id `1`, title `T`, no authors, published 2017-06-12, in year 2017 into an empty document: the second update contains `## References`, the third and final one does not | the reference entry appended after the references section, so the document keeps its header | not executed | MainContent.CiteUpdatesLosesHeader | MainContent.CiteUpdatesFixedKeepsHeader |

## Left out

- Network I/O (`fetch`, `getReader`, the search, login and completion endpoints) is not modelled: each reply is an input value. `TextDecoder` is left out because chunks arrive already decoded.
- `JSON.parse` and the shape of the completion events are the parameter `parse`, which gives a parsed event or nothing. A `choices[0].delta` access that throws is a `None` delta.
- `performance.now`, `Date` and `requestAnimationFrame` are not modelled: their readings are parameters. `new Date().toISOString()` is the parameter `now`. `getFullYear()` is the parameter `year`. `new Date(s).getTime()` is the parameter `time`.
- `toFixed`, `toLocaleString` and `toLocaleDateString` are left out: they only format displayed numbers and dates.
- `localeCompare` is an assumed total preorder `titleLe`.
- `toLowerCase` is modelled on ASCII letters only. JavaScript strings are UTF-16 code units, while Dafny characters are Unicode scalar values, so lengths of text outside the Basic Multilingual Plane differ.
- `setCookie`'s expiry date arithmetic and `toUTCString` are left out. The expiry text is a parameter, and the browser's cookie store is its `document.cookie` text.
- `Auth.AuthModal.HandleLogin`: a successful reply without a `user` object throws inside the `try`, which shows the network error. The model's replies always carry a user.
- Callbacks that throw are not modelled. In the source a throwing `onContent` inside the line `try` would be swallowed like a parse error.
- `ChatPanelComponent.MergeMetrics`: a `null` milestone spread into the entry is stored as 0. Every reader of the entry treats both alike (`> 0`, `||`, subtraction).
- The React machinery (hooks, effects, refs, focus and scrolling) and all JSX and CSS are left out. So are the mount-time search (src/components/ReferencesPanel/index.tsx:151-153) and the keyboard listener registration.
- The clipboard write, `window.open` and the `onCiteReference` callbacks are left out. The model stops at the text or URL they are given.
- `markdownConverter.ts`, the TipTap editor surface and its extensions, and the emoji prefix regex of the chat empty state are not part of this model.
- The static data are left out: the template bodies, the mock papers and `commandData.ts`. The menu's nine commands are kept because the menu's properties depend on them.
- The legacy panel's `formatDate` is locale formatting and is left out.
- `SlashCommand.SlashMenu.constructor`: the query is fixed at construction, because the source never changes `searchQuery`. So the reset-to-0 effect is the constructor's initial index.
- `CompletionStream.CompletionService.GenerateCompletion`: the `connecting` status set before the fetch is overwritten by `connected` before any await. The model records only the latter.
- `ChatSectionComponent.ChatSection.HandleSubmit`: an exception from the fetch or a read escapes the handler after `finally`. It is modelled as the `Threw` outcome, with no further state change.
- Asynchronous interleaving is not modelled: each handler call runs to completion before the next event. `ChatSectionComponent.ChatSection.HandleSubmit` has no `isGenerating` guard (src/components/ChatSection.tsx:60-70), so a second submit during a stream would interleave its setter calls with the first one's; likewise two overlapping `searchPapers` calls could finish in either order and the later writer wins. The model runs each call alone.
- `LegacyReferences.AllCategoriesSpec`: `.sort()` compares UTF-16 code units, while `StringLe` compares Unicode scalar values. The two orders differ only for characters outside the Basic Multilingual Plane.

=== FILE: auth.dfy ===
/**
 * The sign-in modal: reading and writing the session cookie, the outcome of a login reply,
 * and the resets when the modal closes or switches mode.
 */
module Auth {
  import opened Wrappers
  import opened Strings

  // ---------------------------------------------------------------------------------------
  // Cookies

  /** A segment with its leading space characters (only `' '`) removed. */
  function StripSpaces(c: string): string {
    if c != [] && c[0] == ' ' then StripSpaces(c[1..]) else c
  }

  /** The segment starts with `nameEQ` once stripped. */
  predicate SegmentMatches(segment: string, nameEQ: string) {
    StartsWith(StripSpaces(segment), nameEQ)
  }

  /** The text after `nameEQ` in the first segment that starts with it once stripped. */
  function Lookup(segments: seq<string>, nameEQ: string): Option<string> {
    if segments == [] then None
    else
      var c := StripSpaces(segments[0]);
      if SegmentMatches(segments[0], nameEQ) then Some(c[|nameEQ|..]) else Lookup(segments[1..], nameEQ)
  }

  /** What `getCookie(name)` returns for the cookie text `jar`. */
  function CookieValue(name: string, jar: string): Option<string> {
    Lookup(SplitOn(jar, ';'), name + "=")
  }

  /**
   * `getCookie`: the segments of the cookie text are tried in order; leading spaces are
   * stripped one at a time, and the first segment starting with `name=` gives the rest of it.
   */
  method GetCookie(name: string, jar: string) returns (r: Option<string>)
    ensures r == CookieValue(name, jar)
  {
    var nameEQ := name + "=";
    var ca := SplitOn(jar, ';');
    var i := 0;
    while i < |ca|
      invariant 0 <= i <= |ca|
      invariant Lookup(ca, nameEQ) == Lookup(ca[i..], nameEQ)
    {
      var c := ca[i];
      while |c| > 0 && c[0] == ' '
        invariant StripSpaces(c) == StripSpaces(ca[i])
      {
        c := c[1..];
      }
      assert ca[i..][0] == ca[i] && ca[i..][1..] == ca[i + 1..];
      if StartsWith(c, nameEQ) {
        return Some(c[|nameEQ|..]);
      }
      i := i + 1;
    }
    return None;
  }

  /** The index of the first segment that starts with `nameEQ` once stripped; `|segments|` if none. */
  function FirstMatch(segments: seq<string>, nameEQ: string): (m: nat)
    ensures m <= |segments|
    ensures m < |segments| ==> SegmentMatches(segments[m], nameEQ)
    ensures forall j :: 0 <= j < m ==> !SegmentMatches(segments[j], nameEQ)
  {
    if segments == [] then 0
    else if SegmentMatches(segments[0], nameEQ) then 0
    else
      var m := 1 + FirstMatch(segments[1..], nameEQ);
      assert forall j :: 1 <= j < m ==> segments[j] == segments[1..][j - 1];
      m
  }

  /**
   * The lookup answers with the rest of the first segment that starts with `nameEQ` once
   * stripped, and with nothing when no segment does.
   */
  lemma {:induction false} LookupSpec(segments: seq<string>, nameEQ: string)
    ensures var m := FirstMatch(segments, nameEQ);
      Lookup(segments, nameEQ) == if m < |segments| then Some(StripSpaces(segments[m])[|nameEQ|..]) else None
  {
    if segments != [] && !SegmentMatches(segments[0], nameEQ) {
      LookupSpec(segments[1..], nameEQ);
      var m := FirstMatch(segments[1..], nameEQ);
      if m < |segments[1..]| {
        assert segments[1..][m] == segments[m + 1];
      }
    }
  }

  /** A cookie as the browser reports it: `name=value`. */
  datatype Cookie = Cookie(name: string, value: string)

  /** A name `getCookie` can find: non-empty, no leading space, no `=` or `;`. */
  predicate GoodName(name: string) {
    name != [] && name[0] != ' ' && '=' !in name && ';' !in name
  }

  predicate GoodCookie(c: Cookie) {
    GoodName(c.name) && ';' !in c.value
  }

  function CookieLine(c: Cookie): string {
    c.name + "=" + c.value
  }

  /** `document.cookie` as the browser reads it back: the cookies joined by `; `. */
  function RenderJar(jar: seq<Cookie>): string {
    Join(seq(|jar|, i requires 0 <= i < |jar| => CookieLine(jar[i])), "; ")
  }

  /** The value of the first cookie of that name. */
  function FirstValue(jar: seq<Cookie>, name: string): Option<string> {
    if jar == [] then None else if jar[0].name == name then Some(jar[0].value) else FirstValue(jar[1..], name)
  }

  /** A cookie line starts with `name=` exactly when the cookie has that name. */
  lemma LineStartsWith(c: Cookie, name: string)
    requires GoodCookie(c) && GoodName(name)
    ensures StartsWith(CookieLine(c), name + "=") <==> c.name == name
    ensures c.name == name ==> CookieLine(c)[|name + "="|..] == c.value
  {
    var line := CookieLine(c);
    var eq := name + "=";
    if |c.name| > |name| {
      assert line[|name|] == c.name[|name|] && eq[|name|] == '=';
    } else if StartsWith(line, eq) {
      assert line[|c.name|] == '=' && line[..|c.name|] == c.name;
      assert eq[..|name|] == name;
    }
  }

  /** Segments that strip to the cookies' lines are looked up like the cookies themselves. */
  lemma {:induction false} LookupLines(segments: seq<string>, jar: seq<Cookie>, name: string)
    requires |segments| == |jar| && GoodName(name)
    requires forall i :: 0 <= i < |jar| ==> GoodCookie(jar[i]) && StripSpaces(segments[i]) == CookieLine(jar[i])
    ensures Lookup(segments, name + "=") == FirstValue(jar, name)
  {
    if jar != [] {
      LineStartsWith(jar[0], name);
      LookupLines(segments[1..], jar[1..], name);
    }
  }

  /**
   * Reading the cookie text the browser reports gives the value of the first cookie of that
   * name, and nothing when there is none: `session_token2` never answers for `session_token`.
   */
  lemma CookieValueOfJar(jar: seq<Cookie>, name: string)
    requires GoodName(name)
    requires forall i :: 0 <= i < |jar| ==> GoodCookie(jar[i])
    ensures CookieValue(name, RenderJar(jar)) == FirstValue(jar, name)
  {
    if jar == [] {
      EmptyJarHasNoCookie(name);
      return;
    }
    var lines := seq(|jar|, i requires 0 <= i < |jar| => CookieLine(jar[i]));
    forall i | 0 <= i < |lines| ensures ';' !in lines[i] {
      assert lines[i] == jar[i].name + "=" + jar[i].value;
    }
    assert "; " == [';', ' '];
    var spaced := SplitSpaced(lines, ';');
    forall i | 0 <= i < |jar| ensures StripSpaces(spaced[i]) == CookieLine(jar[i]) {
      if i > 0 {
        assert spaced[i] == " " + lines[i];
        assert (" " + lines[i])[1..] == lines[i];
      }
    }
    LookupLines(spaced, jar, name);
  }

  /** An empty cookie text (`document.cookie` with no cookies) answers nothing for any name. */
  lemma EmptyJarHasNoCookie(name: string)
    requires GoodName(name)
    ensures CookieValue(name, RenderJar([])) == None
  {
    var segments := SplitOn(RenderJar([]), ';');
    assert RenderJar([]) == [];
    assert segments == [[]];
    assert StripSpaces(segments[0]) == [];
    assert !SegmentMatches(segments[0], name + "=");
    assert segments[1..] == [];
    assert Lookup(segments[1..], name + "=") == None;
    assert CookieValue(name, RenderJar([])) == Lookup(segments, name + "=");
  }

  /** The text `setCookie` assigns to `document.cookie`; `expires` is the expiry as UTC text. */
  function CookieAssignment(name: string, value: string, expires: string): string {
    name + "=" + value + ";expires=" + expires + ";path=/"
  }

  /** What `setCookie` writes starts with the `name=value` pair `getCookie` reads back. */
  lemma CookieAssignmentReadBack(name: string, value: string, expires: string)
    requires GoodName(name) && ';' !in value
    ensures CookieValue(name, CookieAssignment(name, value, expires)) == Some(value)
  {
    var line := name + "=" + value;
    var rest := "expires=" + expires + ";path=/";
    assert CookieAssignment(name, value, expires) == line + [';'] + rest;
    assert ';' !in line;
    SplitOnAfter(line, ';', rest);
    LineStartsWith(Cookie(name, value), name);
  }

  // ---------------------------------------------------------------------------------------
  // Login

  datatype AuthMode = SignIn | Register

  datatype LoginForm = LoginForm(username: string, password: string)

  datatype RegisterForm = RegisterForm(username: string, email: string, password: string, confirmPassword: string)

  const EmptyLogin: LoginForm := LoginForm("", "")
  const EmptyRegister: RegisterForm := RegisterForm("", "", "", "")

  datatype User = User(userHash: string, username: string, email: string, userType: string,
                       createdAt: Option<string>, updatedAt: Option<string>)

  /** The login request's outcome: no usable reply, or the HTTP status flag and the JSON body. */
  datatype LoginReply =
    | NetworkFailure
    | Reply(ok: bool, success: bool, message: string, sessionToken: string, user: User)

  const SessionCookie: string := "session_token"
  const RootType: string := "root"
  const AccessDenied: string := "Access denied. Only root users are allowed to access this application."
  const LoginFailed: string := "Login failed. Please check your credentials and try again."
  const NetworkError: string := "Network error. Please check your connection and try again."

  /** `data.message || 'Login failed...'`: the server's message, or the default when it is empty. */
  function FailureMessage(message: string): (r: string)
    ensures r != []
    ensures message != [] ==> r == message
    ensures message == [] ==> r == LoginFailed
  {
    if message != [] then message else LoginFailed
  }

  /**
   * `!existingToken || existingToken !== token`: the cookie is left alone exactly when it
   * already holds this same, non-empty token.
   */
  function NeedsCookieWrite(existing: Option<string>, token: string): (w: bool)
    ensures !w <==> existing == Some(token) && token != []
  {
    existing.None? || existing.value == [] || existing.value != token
  }

  /** A reply that signs in: accepted by the server, for a root user. */
  predicate SignsIn(reply: LoginReply) {
    reply.Reply? && reply.ok && reply.success && reply.user.userType == RootType
  }

  /**
   * The error left by a reply that does not sign in: the network text when there is no usable
   * reply, access denied for an accepted non-root user, else the server's message or the default.
   */
  function RefusalMessage(reply: LoginReply): (r: string)
    requires !SignsIn(reply)
    ensures r != []
    ensures reply.NetworkFailure? ==> r == NetworkError
    ensures reply.Reply? && reply.ok && reply.success ==> r == AccessDenied
    ensures reply.Reply? && !(reply.ok && reply.success) ==> r == FailureMessage(reply.message)
  {
    match reply
    case NetworkFailure => NetworkError
    case Reply(ok, success, message, _, _) =>
      if ok && success then AccessDenied else FailureMessage(message)
  }

  /** Writing the token the reply carries makes a second identical login write nothing. */
  lemma SecondLoginWritesNothing(token: string, expires: string)
    requires token != [] && ';' !in token
    ensures !NeedsCookieWrite(CookieValue(SessionCookie, CookieAssignment(SessionCookie, token, expires)), token)
  {
    CookieAssignmentReadBack(SessionCookie, token, expires);
  }

  class AuthModal {
    var authMode: AuthMode
    var loginForm: LoginForm
    var registerForm: RegisterForm
    var authError: string
    var isLoading: bool
    /** The `setCookie(name, value)` calls made so far. */
    var cookieWrites: seq<Cookie>
    /** The users handed to `onLoginSuccess` so far. */
    var signedIn: seq<User>
    /** How many times `onClose` has been called. */
    var closeCalls: nat

    constructor ()
      ensures authMode == SignIn && loginForm == EmptyLogin && registerForm == EmptyRegister
      ensures authError == [] && !isLoading
      ensures cookieWrites == [] && signedIn == [] && closeCalls == 0
    {
      authMode, loginForm, registerForm := SignIn, EmptyLogin, EmptyRegister;
      authError, isLoading := [], false;
      cookieWrites, signedIn, closeCalls := [], [], 0;
    }

    /** `closeModal`: tell the owner, then back to a blank sign-in form. */
    method CloseModal()
      modifies this
      ensures closeCalls == old(closeCalls) + 1
      ensures authError == [] && authMode == SignIn && loginForm == EmptyLogin && registerForm == EmptyRegister
      ensures isLoading == old(isLoading) && cookieWrites == old(cookieWrites) && signedIn == old(signedIn)
    {
      closeCalls := closeCalls + 1;
      authError := [];
      authMode := SignIn;
      loginForm := EmptyLogin;
      registerForm := EmptyRegister;
    }

    /** `switchAuthMode`: the other tab, with the error cleared and the forms kept. */
    method SwitchAuthMode(mode: AuthMode)
      modifies this
      ensures authMode == mode && authError == []
      ensures loginForm == old(loginForm) && registerForm == old(registerForm) && isLoading == old(isLoading)
      ensures cookieWrites == old(cookieWrites) && signedIn == old(signedIn) && closeCalls == old(closeCalls)
    {
      authMode := mode;
      authError := [];
    }

    /** The error shown after a login that does not sign in; nothing else changes. */
    method Refuse(message: string)
      modifies this
      ensures authError == message
      ensures authMode == old(authMode) && loginForm == old(loginForm) && registerForm == old(registerForm)
      ensures cookieWrites == old(cookieWrites) && signedIn == old(signedIn) && closeCalls == old(closeCalls)
      ensures isLoading == old(isLoading)
    {
      authError := message;
    }

    /**
     * A root user's sign-in: the session cookie is written unless it already holds the token,
     * the user is handed on and the modal closes.
     */
    method SignInRoot(user: User, token: string, jar: string)
      modifies this
      ensures cookieWrites == old(cookieWrites) +
        (if NeedsCookieWrite(CookieValue(SessionCookie, jar), token) then [Cookie(SessionCookie, token)] else [])
      ensures signedIn == old(signedIn) + [user] && closeCalls == old(closeCalls) + 1
      ensures authError == [] && authMode == SignIn && loginForm == EmptyLogin && registerForm == EmptyRegister
      ensures isLoading == old(isLoading)
    {
      var existing := GetCookie(SessionCookie, jar);
      if NeedsCookieWrite(existing, token) {
        cookieWrites := cookieWrites + [Cookie(SessionCookie, token)];
      }
      signedIn := signedIn + [user];
      CloseModal();
    }

    /**
     * `handleLogin`, given the reply and the cookie text at the time. Only a successful reply
     * for a root user signs in; any other reply leaves an error and changes nothing else.
     * Loading is off at the end.
     */
    method HandleLogin(reply: LoginReply, jar: string) returns (sent: LoginForm)
      modifies this
      ensures sent == old(loginForm) && !isLoading
      ensures !SignsIn(reply) ==>
        && authError == RefusalMessage(reply)
        && cookieWrites == old(cookieWrites) && signedIn == old(signedIn) && closeCalls == old(closeCalls)
        && authMode == old(authMode) && loginForm == old(loginForm) && registerForm == old(registerForm)
      ensures SignsIn(reply) ==>
        && cookieWrites == old(cookieWrites) +
             (if NeedsCookieWrite(CookieValue(SessionCookie, jar), reply.sessionToken)
              then [Cookie(SessionCookie, reply.sessionToken)] else [])
        && signedIn == old(signedIn) + [reply.user]
        && closeCalls == old(closeCalls) + 1
        && authError == [] && authMode == SignIn && loginForm == EmptyLogin && registerForm == EmptyRegister
    {
      sent := loginForm;
      isLoading := true;
      authError := [];
      if SignsIn(reply) {
        SignInRoot(reply.user, reply.sessionToken, jar);
      } else {
        Refuse(RefusalMessage(reply));
      }
      isLoading := false;
    }
  }
}

=== FILE: chat_panel.dfy ===
/**
 * The chat panel (`ChatPanel`): its submit handler, which builds the context window, appends the
 * user message, a placeholder and a fresh metrics entry, runs the AI service, and applies the
 * service's callbacks to the history, the metrics and the editor.
 *
 * The callbacks the handler passes are pure updates of the panel's state (`Step`); the service
 * fires them in the order of its callback log, so the state after the request is that log
 * replayed over the state before it (`Replay`).
 */
module ChatPanelComponent {
  import opened Wrappers
  import opened Strings
  import opened Conversation
  import CompletionStream

  type Callback = CompletionStream.Callback

  /** `{...entry, ...metrics}`: the fields an `onMetrics` object carries replace the entry's. */
  function MergeMetrics(e: ChatMetrics, m: CompletionStream.MetricsUpdate): (r: ChatMetrics)
    ensures r.startTime == e.startTime && r.nodes == m.nodes
    ensures r.sendTime == CompletionStream.OrZero(m.sendTime)
    ensures r.processTime == CompletionStream.OrZero(m.processTime)
    ensures m.Progress? ==>
      r.generatingTime == e.generatingTime && r.totalTime == e.totalTime && r.isStreaming == e.isStreaming
    ensures m.Final? ==>
      r.generatingTime == m.generatingTime && r.totalTime == m.totalTime && !r.isStreaming
  {
    match m
    case Progress(s, p, n) =>
      e.(sendTime := CompletionStream.OrZero(s), processTime := CompletionStream.OrZero(p), nodes := n)
    case Final(s, p, g, t, n) =>
      e.(sendTime := CompletionStream.OrZero(s), processTime := CompletionStream.OrZero(p),
         generatingTime := g, totalTime := t, isStreaming := false, nodes := n)
  }

  const Placeholder: string := "Generating content for your document..."

  /** `updatedContent.slice(-50).trim()`: the last 50 characters, trimmed. */
  function Preview(text: string): (r: string)
    ensures |r| <= 50 && |r| <= |text|
  {
    Trim(if |text| <= 50 then text else text[|text| - 50..])
  }

  /**
   * The preview is the last 50 characters (all of a shorter text) with the white space at both
   * ends dropped: a piece of that tail with no white space at either end, and only white space
   * before and after it in the tail.
   */
  lemma PreviewSpec(text: string)
    ensures var n := if |text| <= 50 then |text| else 50; var tail := text[|text| - n..]; var r := Preview(text);
      && IsTrimmed(r)
      && exists a :: 0 <= a && a + |r| <= |tail| && r == tail[a..a + |r|]
                       && AllSpace(tail[..a]) && AllSpace(tail[a + |r|..])
  {
    var n := if |text| <= 50 then |text| else 50;
    var tail := text[|text| - n..];
    if |text| <= 50 {
      assert tail == text;
    }
    assert Preview(text) == Trim(tail);
    TrimIsPiece(tail);
  }

  const StatusOpen: string := "<div class=\"generation-status\">Generating content... <span class=\"word-count-badge\">"
  const StatusMiddle: string := " words</span></div><div class=\"content-preview\">\"..."
  const StatusClose: string := "\"</div>"
  const CompleteOpen: string := "<div class=\"generation-complete\">Generated "
  const CompleteClose: string := " words of content for your document.</div>"

  /** The progress summary shown while content streams in. */
  function ProgressSummary(words: nat, tail: string): string {
    StatusOpen + NatToString(words) + StatusMiddle + tail + StatusClose
  }

  /**
   * The progress summary can be taken apart again: the badge between the fixed opening and
   * `StatusMiddle` holds decimal digits that read back as `words`, and the quoted preview `tail`
   * stands just before the closing text.
   */
  lemma ProgressSummaryParts(words: nat, tail: string)
    ensures var r := ProgressSummary(words, tail);
      var k := |r| - |StatusClose| - |tail| - |StatusMiddle|;
      && |StatusOpen| < k
      && r[..|StatusOpen|] == StatusOpen
      && r[k..k + |StatusMiddle|] == StatusMiddle
      && r[k + |StatusMiddle|..|r| - |StatusClose|] == tail
      && r[|r| - |StatusClose|..] == StatusClose
    ensures var r := ProgressSummary(words, tail);
      var digits := r[|StatusOpen|..|r| - |StatusClose| - |tail| - |StatusMiddle|];
      && (forall i :: 0 <= i < |digits| ==> '0' <= digits[i] <= '9')
      && DigitsValue(digits) == words
  {
    var d := NatToString(words);
    NatToStringRoundTrip(words);
    Pieces(StatusOpen, d, StatusMiddle, tail, StatusClose);
  }

  /** The summary left in place of the placeholder once the request completes. */
  function FinalSummary(words: nat): string {
    CompleteOpen + NatToString(words) + CompleteClose
  }

  /**
   * The final summary can be taken apart again: between the fixed opening and closing text stand
   * decimal digits that read back as `words`.
   */
  lemma FinalSummaryParts(words: nat)
    ensures var r := FinalSummary(words);
      && |CompleteOpen| < |r| - |CompleteClose|
      && r[..|CompleteOpen|] == CompleteOpen && r[|r| - |CompleteClose|..] == CompleteClose
    ensures var r := FinalSummary(words);
      var digits := r[|CompleteOpen|..|r| - |CompleteClose|];
      && (forall i :: 0 <= i < |digits| ==> '0' <= digits[i] <= '9')
      && DigitsValue(digits) == words
  {
    var d := NatToString(words);
    NatToStringRoundTrip(words);
    var r := CompleteOpen + d + CompleteClose;
    assert r[|CompleteOpen|..|r| - |CompleteClose|] == d;
  }

  /** What the callbacks touch: the history, the metrics, the editor updates and `wordCount`. */
  datatype PanelState = PanelState(
    history: seq<Message>, metrics: seq<ChatMetrics>, updates: seq<string>, wordCount: nat)

  /** One callback, for the placeholder at `assistantIndex` and the entry at `metricsIndex`. */
  function Step(st: PanelState, cb: Callback, assistantIndex: nat, metricsIndex: nat): PanelState {
    match cb
    case OnContent(text) =>
      var words := WordCount(text);
      st.(history := SetContent(st.history, assistantIndex, ProgressSummary(words, Preview(text))),
          updates := st.updates + [text], wordCount := words)
    case OnMetrics(m) =>
      if metricsIndex < |st.metrics| then
        st.(metrics := st.metrics[metricsIndex := MergeMetrics(st.metrics[metricsIndex], m)])
      else st
    case OnComplete(_) =>
      st.(history := SetContent(st.history, assistantIndex, FinalSummary(st.wordCount)))
    case OnError(_) =>
      st.(history := if st.history == [] then [] else st.history[..|st.history| - 1])
  }

  /** Each callback changes only what its handler writes. */
  lemma StepSpec(st: PanelState, cb: Callback, ai: nat, mi: nat)
    ensures var r := Step(st, cb, ai, mi);
      && (cb.OnContent? ==>
            && |r.history| == |st.history| && r.metrics == st.metrics
            && (forall i :: 0 <= i < |r.history| && i != ai ==> r.history[i] == st.history[i])
            && (ai < |r.history| ==> r.history[ai].content == ProgressSummary(WordCount(cb.text), Preview(cb.text)))
            && r.wordCount == WordCount(cb.text) && r.updates == st.updates + [cb.text])
      && (cb.OnMetrics? ==>
            && r.history == st.history && r.updates == st.updates && r.wordCount == st.wordCount
            && |r.metrics| == |st.metrics|
            && (forall i :: 0 <= i < |r.metrics| && i != mi ==> r.metrics[i] == st.metrics[i])
            && (mi < |r.metrics| ==> r.metrics[mi] == MergeMetrics(st.metrics[mi], cb.metrics)))
      && (cb.OnComplete? ==>
            && |r.history| == |st.history| && r.metrics == st.metrics && r.updates == st.updates
            && (forall i :: 0 <= i < |r.history| && i != ai ==> r.history[i] == st.history[i])
            && (ai < |r.history| ==> r.history[ai].content == FinalSummary(st.wordCount)))
      && (cb.OnError? ==>
            && r.metrics == st.metrics && r.updates == st.updates
            && (st.history != [] ==> r.history + [st.history[|st.history| - 1]] == st.history))
  {
    if cb.OnError? && st.history != [] {
      var h := st.history;
      assert h[..|h| - 1] + [h[|h| - 1]] == h;
    }
  }

  /** The callbacks of `log`, fired in order. */
  function Replay(st: PanelState, log: seq<Callback>, ai: nat, mi: nat): PanelState {
    if log == [] then st else Step(Replay(st, log[..|log| - 1], ai, mi), log[|log| - 1], ai, mi)
  }

  /** The word count of the newest `onContent` text in `log`, 0 before any. */
  function LastWordCount(log: seq<Callback>): nat {
    if log == [] then 0
    else if log[|log| - 1].OnContent? then WordCount(log[|log| - 1].text)
    else LastWordCount(log[..|log| - 1])
  }

  /** The word count the panel keeps is that of the text the editor last received, 0 when none came. */
  lemma {:induction false} LastWordCountIs(log: seq<Callback>, text: string)
    requires CompletionStream.LastContentIs(log, text)
    ensures LastWordCount(log) == WordCount(text)
  {
    if log == [] {
      WordRunsOfWord(text);
    } else if !log[|log| - 1].OnContent? {
      LastWordCountIs(log[..|log| - 1], text);
    }
  }

  /**
   * While no terminal callback has fired, the history keeps the earlier messages and the user
   * message and still ends with the (rewritten) assistant placeholder, and `wordCount` is the
   * newest word count.
   */
  lemma {:induction false} ReplayOpenHistory(st: PanelState, log: seq<Callback>, prefix: seq<Message>, mi: nat)
    requires CompletionStream.NoTerminal(log)
    requires |st.history| == |prefix| + 1 && st.history[..|prefix|] == prefix && IsAssistant(st.history[|prefix|])
    requires st.wordCount == 0
    ensures var r := Replay(st, log, |prefix|, mi);
      && |r.history| == |prefix| + 1 && r.history[..|prefix|] == prefix && IsAssistant(r.history[|prefix|])
      && r.wordCount == LastWordCount(log)
  {
    if log != [] {
      var p := log[..|log| - 1];
      ReplayOpenHistory(st, p, prefix, mi);
      var q := Replay(st, p, |prefix|, mi);
      var cb := log[|log| - 1];
      assert !cb.IsTerminal();
      StepSpec(q, cb, |prefix|, mi);
      var r := Step(q, cb, |prefix|, mi);
      assert r.history[..|prefix|] == prefix by {
        forall i | 0 <= i < |prefix| ensures r.history[i] == prefix[i] {
          assert q.history[..|prefix|][i] == q.history[i];
        }
      }
    }
  }

  /**
   * Replaying any callbacks changes no metrics entry but `mi`, keeps its start time, and sends
   * the editor the `onContent` texts in order.
   */
  lemma {:induction false} ReplayMetrics(st: PanelState, log: seq<Callback>, ai: nat, mi: nat)
    requires mi < |st.metrics|
    ensures var r := Replay(st, log, ai, mi);
      && |r.metrics| == |st.metrics| && r.metrics[..mi] == st.metrics[..mi]
      && r.metrics[mi].startTime == st.metrics[mi].startTime
      && r.updates == st.updates + CompletionStream.ContentTexts(log)
  {
    if log != [] {
      var p := log[..|log| - 1];
      ReplayMetrics(st, p, ai, mi);
      var q := Replay(st, p, ai, mi);
      var cb := log[|log| - 1];
      StepSpec(q, cb, ai, mi);
      var r := Step(q, cb, ai, mi);
      if cb.OnMetrics? {
        assert r.metrics[..mi] == q.metrics[..mi];
      }
    }
  }

  /**
   * After the terminal callback: `onComplete` leaves the final summary, built from the newest
   * word count, in the placeholder; `onError` removes the placeholder, restoring the history
   * to what it was with the user message added.
   */
  lemma ReplayClosed(st: PanelState, log: seq<Callback>, prefix: seq<Message>, mi: nat)
    requires CompletionStream.EndsOnce(log)
    requires |st.history| == |prefix| + 1 && st.history[..|prefix|] == prefix && IsAssistant(st.history[|prefix|])
    requires mi < |st.metrics| && st.wordCount == 0
    ensures var r := Replay(st, log, |prefix|, mi);
      && |r.metrics| == |st.metrics| && r.metrics[..mi] == st.metrics[..mi]
      && r.metrics[mi].startTime == st.metrics[mi].startTime
      && r.updates == st.updates + CompletionStream.ContentTexts(log)
      && (log[|log| - 1].OnComplete? ==>
            r.history == prefix + [Message(Assistant, FinalSummary(LastWordCount(log)))])
      && (log[|log| - 1].OnError? ==> r.history == prefix)
  {
    var p := log[..|log| - 1];
    ReplayOpenHistory(st, p, prefix, mi);
    ReplayMetrics(st, p, |prefix|, mi);
    var q := Replay(st, p, |prefix|, mi);
    var cb := log[|log| - 1];
    StepSpec(q, cb, |prefix|, mi);
    var r := Step(q, cb, |prefix|, mi);
    assert q.history == prefix + [q.history[|prefix|]];
    if cb.OnComplete? {
      assert r.history == prefix + [Message(Assistant, FinalSummary(LastWordCount(log)))];
    }
  }

  /** The final `onMetrics` before `onComplete` is the last write to the request's entry. */
  lemma ReplayFinal(st: PanelState, log: seq<Callback>, ai: nat, mi: nat)
    requires |log| >= 2 && log[|log| - 2].OnMetrics? && log[|log| - 1].OnComplete?
    requires mi < |st.metrics|
    ensures var before := Replay(st, log[..|log| - 2], ai, mi);
      mi < |before.metrics| && |Replay(st, log, ai, mi).metrics| == |st.metrics| &&
      Replay(st, log, ai, mi).metrics[mi] == MergeMetrics(before.metrics[mi], log[|log| - 2].metrics)
  {
    var p := log[..|log| - 1];
    assert p[..|p| - 1] == log[..|log| - 2];
    ReplayMetrics(st, log[..|log| - 2], ai, mi);
    ReplayMetrics(st, log, ai, mi);
  }

  /**
   * The panel after a request whose callbacks are `log`: the new metrics entry is the only one
   * written, the editor got every `onContent` text, and the history ends with the final summary
   * after `onComplete` or loses its placeholder after `onError`; when the callback before
   * `onComplete` is the final metrics, the entry carries them and has stopped streaming.
   */
  lemma SubmitOutcome(previous: seq<Message>, user: Message, metrics: seq<ChatMetrics>,
                      updates: seq<string>, panelStart: real, log: seq<Callback>)
    requires CompletionStream.EndsOnce(log)
    ensures var st := PanelState(previous + [user, Message(Assistant, Placeholder)],
                                 metrics + [FreshMetrics(panelStart)], updates, 0);
      var r := Replay(st, log, |previous| + 1, |metrics|);
      && |r.metrics| == |metrics| + 1 && r.metrics[..|metrics|] == metrics
      && r.metrics[|metrics|].startTime == panelStart
      && r.updates == updates + CompletionStream.ContentTexts(log)
      && (log[|log| - 1].OnComplete? ==>
            r.history == previous + [user, Message(Assistant, FinalSummary(LastWordCount(log)))])
      && (log[|log| - 1].OnError? ==> r.history == previous + [user])
      && (|log| >= 2 && log[|log| - 1].OnComplete? && log[|log| - 2].OnMetrics? && log[|log| - 2].metrics.Final? ==>
            var m := log[|log| - 2].metrics;
            && !r.metrics[|metrics|].isStreaming && r.metrics[|metrics|].totalTime == m.totalTime
            && r.metrics[|metrics|].sendTime == CompletionStream.OrZero(m.sendTime)
            && r.metrics[|metrics|].processTime == CompletionStream.OrZero(m.processTime)
            && r.metrics[|metrics|].generatingTime == m.generatingTime
            && r.metrics[|metrics|].nodes == m.nodes)
  {
    var prefix := previous + [user];
    var st := PanelState(prefix + [Message(Assistant, Placeholder)], metrics + [FreshMetrics(panelStart)], updates, 0);
    assert prefix + [Message(Assistant, Placeholder)] == previous + [user, Message(Assistant, Placeholder)];
    assert prefix + [Message(Assistant, FinalSummary(LastWordCount(log)))]
        == previous + [user, Message(Assistant, FinalSummary(LastWordCount(log)))];
    assert st.history[..|prefix|] == prefix;
    assert st.metrics[..|metrics|] == metrics;
    ReplayClosed(st, log, prefix, |metrics|);
    if |log| >= 2 && log[|log| - 1].OnComplete? && log[|log| - 2].OnMetrics? {
      ReplayFinal(st, log, |prefix|, |metrics|);
    }
  }

  /**
   * What the panel takes from a session on an accepted body: the editor gets the session's
   * texts, the last of them the whole text when any came and none otherwise, and the final
   * summary counts the words of that whole text.
   */
  lemma SessionView(transcript: seq<CompletionStream.Read>, extract: string -> seq<string>,
                    parse: string -> Option<CompletionStream.StreamEvent>, fetchStart: real, endAt: real)
    requires CompletionStream.Terminates(transcript, extract)
    ensures var log := CompletionStream.SessionCallbacks(transcript, extract, parse, fetchStart, endAt);
      var text := CompletionStream.Text(CompletionStream.SessionLines(transcript, extract), parse);
      var texts := CompletionStream.ContentTexts(log);
      && texts == CompletionStream.SessionTexts(transcript, extract, parse, fetchStart)
      && (text == [] <==> texts == [])
      && (text != [] ==> texts[|texts| - 1] == text)
      && LastWordCount(log) == WordCount(text)
  {
    var log := CompletionStream.SessionCallbacks(transcript, extract, parse, fetchStart, endAt);
    var lines := CompletionStream.SessionLines(transcript, extract);
    var text := CompletionStream.Text(lines, parse);
    CompletionStream.SessionOutcome(transcript, extract, parse, fetchStart, endAt,
      CompletionStream.ReadFails(transcript, extract),
      CompletionStream.Emitted(transcript, CompletionStream.SessionReads(transcript, extract), extract, parse, fetchStart),
      text, CompletionStream.Nodes([], lines, parse), CompletionStream.FirstByte(transcript, fetchStart),
      CompletionStream.SessionProcess(transcript, extract, parse));
    CompletionStream.SessionCallbackTexts(transcript, extract, parse, fetchStart, endAt);
    CompletionStream.LastContentTexts(log, text);
    LastWordCountIs(log, text);
  }

  /**
   * The panel after a request on an accepted body, in terms of the body alone: the editor got
   * the session's texts, ending with the whole text when any came; after a successful body
   * the placeholder holds the final summary with the word count of the whole text, and the
   * request's entry carries the session's final metrics.
   */
  lemma SubmitBody(previous: seq<Message>, user: Message, metrics: seq<ChatMetrics>, updates: seq<string>,
                   panelStart: real, transcript: seq<CompletionStream.Read>, extract: string -> seq<string>,
                   parse: string -> Option<CompletionStream.StreamEvent>, fetchStart: real, endAt: real)
    requires CompletionStream.Terminates(transcript, extract)
    ensures var log := CompletionStream.SessionCallbacks(transcript, extract, parse, fetchStart, endAt);
      var r := Replay(PanelState(previous + [user, Message(Assistant, Placeholder)],
                                 metrics + [FreshMetrics(panelStart)], updates, 0),
                      log, |previous| + 1, |metrics|);
      var lines := CompletionStream.SessionLines(transcript, extract);
      var text := CompletionStream.Text(lines, parse);
      && r.updates == updates + CompletionStream.SessionTexts(transcript, extract, parse, fetchStart)
      && (text == [] ==> r.updates == updates)
      && (text != [] ==> r.updates != [] && r.updates[|r.updates| - 1] == text)
      && |r.metrics| == |metrics| + 1
      && (!CompletionStream.ReadFails(transcript, extract) ==>
            var m := r.metrics[|metrics|];
            && transcript[0].Chunk?
            && r.history == previous + [user, Message(Assistant, FinalSummary(WordCount(text)))]
            && !m.isStreaming
            && m.totalTime == endAt - fetchStart
            && m.sendTime == transcript[0].at - fetchStart
            && m.sendTime == CompletionStream.OrZero(CompletionStream.FirstByte(transcript, fetchStart))
            && m.processTime == CompletionStream.OrZero(CompletionStream.SessionProcess(transcript, extract, parse))
            && m.generatingTime == m.totalTime - m.sendTime - m.processTime
            && m.nodes == CompletionStream.Nodes([], lines, parse))
  {
    var log := CompletionStream.SessionCallbacks(transcript, extract, parse, fetchStart, endAt);
    var lines := CompletionStream.SessionLines(transcript, extract);
    var text := CompletionStream.Text(lines, parse);
    var failed := CompletionStream.ReadFails(transcript, extract);
    var send := CompletionStream.FirstByte(transcript, fetchStart);
    var process := CompletionStream.SessionProcess(transcript, extract, parse);
    var nodes := CompletionStream.Nodes([], lines, parse);
    CompletionStream.SessionOutcome(transcript, extract, parse, fetchStart, endAt, failed,
      CompletionStream.Emitted(transcript, CompletionStream.SessionReads(transcript, extract), extract, parse, fetchStart),
      text, nodes, send, process);
    SessionView(transcript, extract, parse, fetchStart, endAt);
    SubmitOutcome(previous, user, metrics, updates, panelStart, log);
    if !failed {
      CompletionStream.FirstReadArrives(transcript, extract);
      assert log[|log| - 2] == CompletionStream.OnMetrics(CompletionStream.FinalMetrics(send, process, endAt - fetchStart, nodes));
    }
  }

  /**
   * What a submit promises, from the history, metrics and editor updates before it (`previous`,
   * `earlier`, `shown`) to those after it, for the user message `user`, the panel's clock
   * reading `panelStart`, the service's response read from `fetchStart` to `endAt`, and the
   * callbacks `log` the service fired: the request's entry is the only metrics entry written;
   * the editor got the `onContent` texts (those of the session on an accepted body, ending with
   * its whole text when any came); a failed request leaves the user message alone; a
   * successful one leaves the final summary with the whole text's word count, and its entry
   * carries the session's final metrics.
   */
  predicate Submitted(previous: seq<Message>, user: Message, earlier: seq<ChatMetrics>, shown: seq<string>,
                      panelStart: real, response: CompletionStream.Response, extract: string -> seq<string>,
                      parse: string -> Option<CompletionStream.StreamEvent>, fetchStart: real, endAt: real,
                      log: seq<Callback>, history: seq<Message>, metrics: seq<ChatMetrics>, updates: seq<string>)
    requires response.Body? ==> CompletionStream.Terminates(response.transcript, extract)
  {
    var mi := |earlier|;
    && CompletionStream.EndsOnce(log)
    && |metrics| == mi + 1 && metrics[..mi] == earlier
    && metrics[mi].startTime == panelStart
    && updates == shown + CompletionStream.ContentTexts(log)
    && (!CompletionStream.Succeeds(response, extract) ==> history == previous + [user])
    && (!response.Body? ==> updates == shown)
    && (response.Body? ==>
          var transcript := response.transcript;
          var text := CompletionStream.Text(CompletionStream.SessionLines(transcript, extract), parse);
          && log == CompletionStream.SessionCallbacks(transcript, extract, parse, fetchStart, endAt)
          && updates == shown + CompletionStream.SessionTexts(transcript, extract, parse, fetchStart)
          && (text == [] ==> updates == shown)
          && (text != [] ==> updates != [] && updates[|updates| - 1] == text))
    && (CompletionStream.Succeeds(response, extract) ==>
          var transcript := response.transcript;
          var lines := CompletionStream.SessionLines(transcript, extract);
          var m := metrics[mi];
          && history == previous + [user, Message(Assistant, FinalSummary(WordCount(CompletionStream.Text(lines, parse))))]
          && !m.isStreaming
          && m.totalTime == endAt - fetchStart
          && transcript[0].Chunk? && m.sendTime == transcript[0].at - fetchStart
          && m.sendTime == CompletionStream.OrZero(CompletionStream.FirstByte(transcript, fetchStart))
          && m.processTime == CompletionStream.OrZero(CompletionStream.SessionProcess(transcript, extract, parse))
          && m.generatingTime == m.totalTime - m.sendTime - m.processTime
          && m.nodes == CompletionStream.Nodes([], lines, parse))
  }

  class ChatPanel {
    var chatHistory: seq<Message>
    var input: string
    var metricsHistory: seq<ChatMetrics>
    /** The `onUpdateMarkdown` calls made so far, in order. */
    var markdownUpdates: seq<string>
    /** The AI service hook the panel uses. */
    const service: CompletionStream.CompletionService

    constructor ()
      ensures chatHistory == [] && input == [] && metricsHistory == [] && markdownUpdates == []
      ensures fresh(service) && service.extract == CompletionStream.DataLines && !service.isGenerating
    {
      chatHistory, input, metricsHistory, markdownUpdates := [], [], [], [];
      service := new CompletionStream.CompletionService();
    }

    /**
     * `handleSubmit`: ignored for a blank input or while the service is generating; otherwise
     * sends the context window and replays the service's callbacks (returned as `log`).
     * `panelStart` is the panel's clock reading, stored as the entry's start time; `fetchStart`
     * and `endAt` are the service's readings before the fetch and after the loop.
     */
    method HandleSubmit(markdown: string, response: CompletionStream.Response,
                        parse: string -> Option<CompletionStream.StreamEvent>,
                        panelStart: real, fetchStart: real, endAt: real)
      returns (request: Option<seq<Message>>, log: seq<Callback>)
      requires response.Body? ==> CompletionStream.Terminates(response.transcript, service.extract)
      modifies this, service
      ensures Trim(old(input)) == [] || old(service.isGenerating) ==>
        request == None && log == [] && unchanged(this) && unchanged(service)
      ensures Trim(old(input)) != [] && !old(service.isGenerating) ==>
        && request == Some(ContextWindow(old(chatHistory), markdown, Trim(old(input))))
        && input == [] && !service.isGenerating
        && Submitted(old(chatHistory), Message(User, Trim(old(input))), old(metricsHistory), old(markdownUpdates),
                     panelStart, response, service.extract, parse, fetchStart, endAt,
                     log, chatHistory, metricsHistory, markdownUpdates)
    {
      var instruction := Trim(input);
      if instruction == [] || service.isGenerating {
        return None, [];
      }
      ghost var previous, earlier, shown := chatHistory, metricsHistory, markdownUpdates;
      request := Some(ContextWindow(chatHistory, markdown, instruction));
      var assistantIndex, metricsIndex := Begin(instruction, panelStart);
      log := service.GenerateCompletion(response, parse, fetchStart, endAt);
      Settle(log, response, parse, fetchStart, endAt, previous, Message(User, instruction), earlier, shown, panelStart);
    }

    /** The synchronous part of a submit: the user message, the placeholder and a fresh metrics entry. */
    method Begin(instruction: string, panelStart: real) returns (assistantIndex: nat, metricsIndex: nat)
      modifies this
      ensures assistantIndex == |old(chatHistory)| + 1 && metricsIndex == |old(metricsHistory)|
      ensures chatHistory == old(chatHistory) + [Message(User, instruction), Message(Assistant, Placeholder)]
      ensures metricsHistory == old(metricsHistory) + [FreshMetrics(panelStart)]
      ensures input == [] && markdownUpdates == old(markdownUpdates)
    {
      var newHistory := chatHistory + [Message(User, instruction)];
      chatHistory := newHistory;
      input := [];
      metricsIndex := |metricsHistory|;
      metricsHistory := metricsHistory + [FreshMetrics(panelStart)];
      chatHistory := chatHistory + [Message(Assistant, Placeholder)];
      assistantIndex := |newHistory|;
    }

    /**
     * The service's callbacks, fired in the order of `log`, against the state a submit left
     * behind (`previous` and `user` then the placeholder, `earlier` then a fresh entry): the
     * outcome `handleSubmit` promises, in terms of that state.
     */
    method Settle(log: seq<Callback>, response: CompletionStream.Response,
                  parse: string -> Option<CompletionStream.StreamEvent>, fetchStart: real, endAt: real,
                  ghost previous: seq<Message>, ghost user: Message, ghost earlier: seq<ChatMetrics>,
                  ghost shown: seq<string>, ghost panelStart: real)
      requires response.Body? ==> CompletionStream.Terminates(response.transcript, service.extract)
      requires CompletionStream.EndsOnce(log)
      requires log[|log| - 1].OnComplete? <==> CompletionStream.Succeeds(response, service.extract)
      requires response.Body? ==>
        log == CompletionStream.SessionCallbacks(response.transcript, service.extract, parse, fetchStart, endAt)
      requires !response.Body? ==> log == [CompletionStream.OnError(CompletionStream.ErrorOf(response, service.extract))]
      requires chatHistory == previous + [user, Message(Assistant, Placeholder)]
      requires metricsHistory == earlier + [FreshMetrics(panelStart)] && markdownUpdates == shown
      modifies this
      ensures input == old(input)
      ensures var r := Replay(PanelState(old(chatHistory), old(metricsHistory), old(markdownUpdates), 0),
                              log, |previous| + 1, |earlier|);
        chatHistory == r.history && metricsHistory == r.metrics && markdownUpdates == r.updates
      ensures Submitted(previous, user, earlier, shown, panelStart, response, service.extract, parse,
                        fetchStart, endAt, log, chatHistory, metricsHistory, markdownUpdates)
    {
      SubmitOutcome(previous, user, earlier, shown, panelStart, log);
      if response.Body? {
        SubmitBody(previous, user, earlier, shown, panelStart, response.transcript, service.extract, parse, fetchStart, endAt);
      } else {
        assert log[..0] == [];
      }
      var r := Replay(PanelState(chatHistory, metricsHistory, markdownUpdates, 0), log,
                      |chatHistory| - 1, |metricsHistory| - 1);
      chatHistory, metricsHistory, markdownUpdates := r.history, r.metrics, r.updates;
    }
  }
}

=== FILE: chat_section.dfy ===
/**
 * The older chat component (`ChatSection`): it builds the same context window as the chat panel
 * but runs the streaming loop inline, writing the reply straight into the history and the timings
 * and node list straight into the request's metrics entry.
 */
module ChatSectionComponent {
  import opened Wrappers
  import opened Strings
  import opened Conversation
  import CompletionStream

  /** How a submit ends. */
  datatype SubmitEnd =
    | Ignored   // blank instruction: nothing happens
    | Returned  // non-ok response: the handler returns early, metrics are not finalised
    | Threw     // the fetch or a read threw: `finally` runs, the exception propagates
    | Finished  // the stream ended: metrics finalised

  /** The entry with the loop's milestones and node list written into it. */
  function WithProgress(e: ChatMetrics, sendTime: real, processTime: real,
                        nodes: seq<CompletionStream.NodeExecution>): (r: ChatMetrics)
    ensures r.sendTime == sendTime && r.processTime == processTime && r.nodes == nodes
    ensures r.generatingTime == e.generatingTime && r.totalTime == e.totalTime
    ensures r.startTime == e.startTime && r.isStreaming == e.isStreaming
  {
    e.(sendTime := sendTime, processTime := processTime, nodes := nodes)
  }

  /**
   * The final write after the loop ended at clock reading `tEnd`: the total since `tFetchStart`,
   * what is left of it once the stored send and process times are taken out, and streaming
   * off; the milestones and nodes stay.
   */
  function Finalise(e: ChatMetrics, tFetchStart: real, tEnd: real): (r: ChatMetrics)
    ensures r.totalTime == tEnd - tFetchStart && !r.isStreaming
    ensures r.sendTime + r.processTime + r.generatingTime == tEnd - tFetchStart
    ensures r.sendTime == e.sendTime && r.processTime == e.processTime
    ensures r.startTime == e.startTime && r.nodes == e.nodes
  {
    var total := tEnd - tFetchStart;
    e.(generatingTime := total - (e.sendTime + e.processTime), totalTime := total, isStreaming := false)
  }

  class ChatSection {
    /** How a chunk becomes the lines the loop handles (`DataLines`, fixed at construction). */
    const extract: string -> seq<string>
    var chatHistory: seq<Message>
    var input: string
    var isGenerating: bool
    var metricsHistory: seq<ChatMetrics>
    /** The `onUpdateMarkdown` calls made so far, in order. */
    var markdownUpdates: seq<string>

    constructor ()
      ensures extract == CompletionStream.DataLines
      ensures chatHistory == [] && input == [] && !isGenerating && metricsHistory == [] && markdownUpdates == []
    {
      extract := CompletionStream.DataLines;
      chatHistory, input, isGenerating, metricsHistory, markdownUpdates := [], [], false, [], [];
    }

    /**
     * `handleSubmit`. There is no guard on `isGenerating`; a blank instruction is ignored.
     * Otherwise the user message, an empty assistant placeholder and a fresh metrics entry
     * are added, the context window is sent, and the loop writes into both.
     */
    method HandleSubmit(markdown: string, response: CompletionStream.Response,
                        parse: string -> Option<CompletionStream.StreamEvent>, startAt: real, endAt: real)
      returns (request: Option<seq<Message>>, outcome: SubmitEnd)
      requires response.Body? ==> CompletionStream.Terminates(response.transcript, extract)
      modifies this
      ensures Trim(old(input)) == [] ==> request == None && outcome == Ignored && unchanged(this)
      ensures Trim(old(input)) != [] ==>
        var user := Message(User, Trim(old(input)));
        var ai := |old(chatHistory)| + 1;
        var mi := |old(metricsHistory)|;
        && request == Some(ContextWindow(old(chatHistory), markdown, Trim(old(input))))
        && input == [] && !isGenerating
        && |chatHistory| == ai + 1 && chatHistory[..ai] == old(chatHistory) + [user]
        && IsAssistant(chatHistory[ai])
        && |metricsHistory| == mi + 1 && metricsHistory[..mi] == old(metricsHistory)
        && metricsHistory[mi].startTime == startAt
        && (outcome == Finished <==> CompletionStream.Succeeds(response, extract))
        && (outcome == Returned <==> response.HttpError?)
        && (outcome == Finished ==>
              && !metricsHistory[mi].isStreaming && metricsHistory[mi].totalTime == endAt - startAt
              && metricsHistory[mi].sendTime + metricsHistory[mi].processTime + metricsHistory[mi].generatingTime
                 == endAt - startAt)
        && (outcome != Finished ==> metricsHistory[mi].isStreaming)
        && (!response.Body? ==>
              && chatHistory[ai].content == [] && metricsHistory[mi] == FreshMetrics(startAt)
              && markdownUpdates == old(markdownUpdates))
        && (response.Body? ==>
              var lines := CompletionStream.SessionLines(response.transcript, extract);
              && chatHistory[ai].content == CompletionStream.Text(lines, parse)
              && metricsHistory[mi].nodes == CompletionStream.Nodes([], lines, parse)
              && metricsHistory[mi].sendTime == CompletionStream.OrZero(CompletionStream.FirstByte(response.transcript, startAt))
              && metricsHistory[mi].processTime
                 == CompletionStream.OrZero(CompletionStream.SessionProcess(response.transcript, extract, parse))
              && markdownUpdates
                 == old(markdownUpdates) + CompletionStream.SessionTexts(response.transcript, extract, parse, startAt)
              && (forall k :: |old(markdownUpdates)| <= k < |markdownUpdates| ==>
                    CompletionStream.IsPrefix(markdownUpdates[k], chatHistory[ai].content)))
    {
      var instruction := Trim(input);
      if instruction == [] {
        return None, Ignored;
      }
      request := Some(ContextWindow(chatHistory, markdown, instruction));
      var assistantIndex, metricsIndex := Begin(instruction, startAt);
      match response {
        case RequestThrows =>
          outcome := Threw;
          isGenerating := false;
        case HttpError(_, _) =>
          outcome := Returned;
          isGenerating := false;
        case Body(transcript) =>
          var failed := Stream(transcript, parse, startAt, assistantIndex, metricsIndex);
          if failed {
            outcome := Threw;
          } else {
            metricsHistory := metricsHistory[metricsIndex := Finalise(metricsHistory[metricsIndex], startAt, endAt)];
            outcome := Finished;
          }
          isGenerating := false;  // `finally`
      }
    }

    /**
     * What `handleSubmit` does before the request: the user message and an empty assistant
     * placeholder are appended (their indices returned), the input cleared, generation
     * flagged, and a fresh metrics entry appended.
     */
    method Begin(instruction: string, startAt: real) returns (ai: nat, mi: nat)
      modifies this
      ensures ai == |old(chatHistory)| + 1 && mi == |old(metricsHistory)|
      ensures chatHistory == old(chatHistory) + [Message(User, instruction), Message(Assistant, [])]
      ensures metricsHistory == old(metricsHistory) + [FreshMetrics(startAt)]
      ensures input == [] && isGenerating && markdownUpdates == old(markdownUpdates)
    {
      var user := Message(User, instruction);
      chatHistory := chatHistory + [user];
      input := [];
      isGenerating := true;
      mi := |metricsHistory|;
      metricsHistory := metricsHistory + [FreshMetrics(startAt)];
      chatHistory := chatHistory + [Message(Assistant, [])];
      ai := |chatHistory| - 1;
    }

    /**
     * The read loop inside the `try`: what its state setters leave in the placeholder at `ai`,
     * the metrics entry at `mi` and the editor. `failed` when a read threw.
     */
    method Stream(transcript: seq<CompletionStream.Read>, parse: string -> Option<CompletionStream.StreamEvent>,
                  startAt: real, ai: nat, mi: nat)
      returns (failed: bool)
      requires CompletionStream.Terminates(transcript, extract)
      requires ai < |chatHistory| && chatHistory[ai].content == [] && mi < |metricsHistory|
      modifies this
      ensures failed == CompletionStream.ReadFails(transcript, extract)
      ensures input == old(input) && isGenerating == old(isGenerating)
      ensures chatHistory == SetContent(old(chatHistory), ai, CompletionStream.Text(CompletionStream.SessionLines(transcript, extract), parse))
      ensures |metricsHistory| == |old(metricsHistory)|
      ensures forall k :: 0 <= k < |metricsHistory| && k != mi ==> metricsHistory[k] == old(metricsHistory)[k]
      ensures metricsHistory[mi] == WithProgress(old(metricsHistory)[mi],
                CompletionStream.OrZero(CompletionStream.FirstByte(transcript, startAt)),
                CompletionStream.OrZero(CompletionStream.SessionProcess(transcript, extract, parse)),
                CompletionStream.Nodes([], CompletionStream.SessionLines(transcript, extract), parse))
      ensures CompletionStream.Text(CompletionStream.SessionLines(transcript, extract), parse) == [] ==> metricsHistory[mi].processTime == 0.0
      ensures metricsHistory[mi].processTime != 0.0 ==> transcript[0].Chunk?
      ensures markdownUpdates == old(markdownUpdates) + CompletionStream.SessionTexts(transcript, extract, parse, startAt)
      ensures forall k :: |old(markdownUpdates)| <= k < |markdownUpdates| ==>
                CompletionStream.IsPrefix(markdownUpdates[k], CompletionStream.Text(CompletionStream.SessionLines(transcript, extract), parse))
    {
      var buffer, firstByte, process, nodes, texts;
      failed, buffer, firstByte, process, nodes, texts := ReadStream(transcript, extract, parse, startAt);
      Record(buffer, firstByte, process, nodes, texts, ai, mi);
    }

    /**
     * The state setters the loop called, each one's effect as it stands at the end: the
     * placeholder at `ai` holds `buffer` (with no text it is never written and keeps its empty
     * content), the entry at `mi` the milestones and nodes, and the editor got `texts`.
     */
    method Record(buffer: string, firstByte: Option<real>, process: Option<real>,
                  nodes: seq<CompletionStream.NodeExecution>, texts: seq<string>, ai: nat, mi: nat)
      requires ai < |chatHistory| && mi < |metricsHistory|
      modifies this
      ensures input == old(input) && isGenerating == old(isGenerating)
      ensures chatHistory == SetContent(old(chatHistory), ai, buffer)
      ensures metricsHistory == old(metricsHistory)[mi :=
                WithProgress(old(metricsHistory)[mi], CompletionStream.OrZero(firstByte),
                             CompletionStream.OrZero(process), nodes)]
      ensures markdownUpdates == old(markdownUpdates) + texts
    {
      var entry := WithProgress(metricsHistory[mi], CompletionStream.OrZero(firstByte),
                                CompletionStream.OrZero(process), nodes);
      chatHistory, metricsHistory, markdownUpdates := SetContent(chatHistory, ai, buffer), metricsHistory[mi := entry], markdownUpdates + texts;
    }

    /** The grouping the component renders. */
    method Turns() returns (turns: seq<Turn>)
      ensures turns == TurnsFrom(chatHistory, 0)
    {
      turns := GroupTurns(chatHistory);
    }
  }

  /**
   * The stream loop of one request on a fresh session: whether a read failed, the accumulated
   * text, the two clock offsets, the node list, and the text passed to each `onContent` call.
   */
  method ReadStream(transcript: seq<CompletionStream.Read>, extract: string -> seq<string>,
                    parse: string -> Option<CompletionStream.StreamEvent>, startAt: real)
    returns (failed: bool, buffer: string, firstByte: Option<real>, process: Option<real>,
             nodes: seq<CompletionStream.NodeExecution>, texts: seq<string>)
    requires CompletionStream.Terminates(transcript, extract)
    ensures failed == CompletionStream.ReadFails(transcript, extract)
    ensures var lines := CompletionStream.SessionLines(transcript, extract);
      && buffer == CompletionStream.Text(lines, parse)
      && nodes == CompletionStream.Nodes([], lines, parse)
    ensures firstByte == CompletionStream.FirstByte(transcript, startAt)
    ensures process == CompletionStream.SessionProcess(transcript, extract, parse)
    ensures (process.Some? <==> buffer != []) && (process.Some? ==> firstByte.Some?)
    ensures texts == CompletionStream.SessionTexts(transcript, extract, parse, startAt)
    ensures forall k :: 0 <= k < |texts| ==> CompletionStream.IsPrefix(texts[k], buffer)
    ensures (texts == [] <==> buffer == []) && (texts != [] ==> texts[|texts| - 1] == buffer)
  {
    var session := new CompletionStream.CompletionSession(startAt);
    failed := session.ReadAll(transcript, extract, parse);
    buffer, firstByte, process, nodes := session.buffer, session.firstByteTime, session.processTime, session.nodes;
    texts := CompletionStream.ContentTexts(session.log);
    CompletionStream.SessionTextsShape(transcript, extract, parse, startAt);
  }
}

=== FILE: chat_timer.dfy ===
/**
 * The timer under each reply: the four figures it shows, derived from a metrics entry and the
 * current clock reading `now`. A stored milestone is shown once it is positive; before that
 * the figure runs live from the elapsed time.
 */
module ChatTimerDisplay {
  import opened Conversation

  /** `Math.max(x, 0)`. */
  function AtLeastZero(x: real): (r: real)
    ensures r >= 0.0 && r >= x
    ensures r == x || r == 0.0
  {
    if x > 0.0 then x else 0.0
  }

  function Elapsed(m: ChatMetrics, now: real): real {
    now - m.startTime
  }

  /** Send: the stored value once positive, else the elapsed time so far. */
  function DisplayedSend(m: ChatMetrics, now: real): (r: real)
    ensures r >= 0.0
    ensures m.sendTime > 0.0 ==> r == m.sendTime
    ensures m.sendTime <= 0.0 && Elapsed(m, now) >= 0.0 ==> r == Elapsed(m, now)
  {
    if m.sendTime > 0.0 then m.sendTime else AtLeastZero(Elapsed(m, now))
  }

  /** Process: the stored value once positive; while only the send time is known, the time since it. */
  function DisplayedProcess(m: ChatMetrics, now: real): (r: real)
    ensures r >= 0.0
    ensures m.processTime > 0.0 ==> r == m.processTime
    ensures m.processTime <= 0.0 && m.sendTime > 0.0 ==> r == AtLeastZero(Elapsed(m, now) - m.sendTime)
    ensures m.processTime <= 0.0 && m.sendTime <= 0.0 ==> r == 0.0
  {
    if m.processTime > 0.0 then m.processTime
    else if m.sendTime > 0.0 then AtLeastZero(Elapsed(m, now) - m.sendTime)
    else 0.0
  }

  /** Generate: the stored value once positive; while send and process are known, the time since both. */
  function DisplayedGenerating(m: ChatMetrics, now: real): (r: real)
    ensures r >= 0.0
    ensures m.generatingTime > 0.0 ==> r == m.generatingTime
    ensures m.generatingTime <= 0.0 && m.processTime > 0.0 && m.sendTime > 0.0 ==>
      r == AtLeastZero(Elapsed(m, now) - m.sendTime - m.processTime)
    ensures m.generatingTime <= 0.0 && (m.processTime <= 0.0 || m.sendTime <= 0.0) ==> r == 0.0
  {
    if m.generatingTime > 0.0 then m.generatingTime
    else if m.processTime > 0.0 && m.sendTime > 0.0 then AtLeastZero(Elapsed(m, now) - m.sendTime - m.processTime)
    else 0.0
  }

  /** Total: live while streaming, the stored total afterwards. */
  function DisplayedTotal(m: ChatMetrics, now: real): (r: real)
    ensures m.isStreaming ==> r == Elapsed(m, now)
    ensures !m.isStreaming ==> r == m.totalTime
  {
    if m.isStreaming then Elapsed(m, now) else m.totalTime
  }

  /** Once a figure's stored value is positive (or streaming is over, for the total) it no longer moves. */
  lemma SettledFiguresIgnoreClock(m: ChatMetrics, now1: real, now2: real)
    ensures m.sendTime > 0.0 ==> DisplayedSend(m, now1) == DisplayedSend(m, now2)
    ensures m.processTime > 0.0 ==> DisplayedProcess(m, now1) == DisplayedProcess(m, now2)
    ensures m.generatingTime > 0.0 ==> DisplayedGenerating(m, now1) == DisplayedGenerating(m, now2)
    ensures !m.isStreaming ==> DisplayedTotal(m, now1) == DisplayedTotal(m, now2)
  {
  }

  /** The timer never runs backwards: every figure is non-decreasing in the clock reading. */
  lemma FiguresNeverDecrease(m: ChatMetrics, now1: real, now2: real)
    requires now1 <= now2
    ensures DisplayedSend(m, now1) <= DisplayedSend(m, now2)
    ensures DisplayedProcess(m, now1) <= DisplayedProcess(m, now2)
    ensures DisplayedGenerating(m, now1) <= DisplayedGenerating(m, now2)
    ensures DisplayedTotal(m, now1) <= DisplayedTotal(m, now2)
  {
  }

  /**
   * Recording a milestone as the stream does (the elapsed time at the first byte, the time since
   * the first byte at the first text, what remains of the total at the end) does not make the
   * shown figure jump at that instant.
   */
  lemma RecordingDoesNotJump(m: ChatMetrics, now: real)
    ensures m.sendTime <= 0.0 && Elapsed(m, now) > 0.0 ==>
      DisplayedSend(m.(sendTime := Elapsed(m, now)), now) == DisplayedSend(m, now)
    ensures m.processTime <= 0.0 && m.sendTime > 0.0 && Elapsed(m, now) - m.sendTime > 0.0 ==>
      DisplayedProcess(m.(processTime := Elapsed(m, now) - m.sendTime), now) == DisplayedProcess(m, now)
    ensures var g := Elapsed(m, now) - m.sendTime - m.processTime;
      m.generatingTime <= 0.0 && m.sendTime > 0.0 && m.processTime > 0.0 && g > 0.0 ==>
      DisplayedGenerating(m.(generatingTime := g), now) == DisplayedGenerating(m, now)
  {
  }
}

=== FILE: conversation.dfy ===
/**
 * The chat bookkeeping both chat components share: the messages, the per-request metrics
 * entry, the context window sent with each request, and the grouping of the history into
 * user/assistant turns for display.
 */
module Conversation {
  import opened Wrappers
  import Seqs
  import CompletionStream

  datatype Role = User | Assistant

  datatype Message = Message(role: Role, content: string)

  predicate IsUser(m: Message) { m.role == User }

  predicate IsAssistant(m: Message) { m.role == Assistant }

  /** One request's timing record as the chat components store it (`ChatMetrics`). */
  datatype ChatMetrics = ChatMetrics(
    sendTime: real, processTime: real, generatingTime: real, totalTime: real,
    startTime: real, isStreaming: bool, nodes: seq<CompletionStream.NodeExecution>)

  /** The entry appended when a request starts: zero timings, streaming, no nodes. */
  function FreshMetrics(startTime: real): (e: ChatMetrics)
    ensures e.sendTime == 0.0 && e.processTime == 0.0 && e.generatingTime == 0.0 && e.totalTime == 0.0
    ensures e.startTime == startTime && e.isStreaming && e.nodes == []
  {
    ChatMetrics(0.0, 0.0, 0.0, 0.0, startTime, true, [])
  }

  // ---------------------------------------------------------------------------------------
  // The context window

  /** The prior user messages, in order (re-wrapping them as `{role: 'user', content}` keeps them as they are). */
  function UserMessages(history: seq<Message>): seq<Message> {
    Seqs.Filter(history, IsUser)
  }

  /** `filter(assistant).slice(-1)[0]`: the newest assistant message, if any. */
  function LastAssistant(history: seq<Message>): (r: Option<Message>)
    ensures r.Some? ==> r.value in history && IsAssistant(r.value)
  {
    var a := Seqs.Filter(history, IsAssistant);
    Seqs.FilterSpec(history, IsAssistant);
    if a == [] then None else Some(a[|a| - 1])
  }

  const DocumentPrefix: string := "Current document:\n\n"

  /**
   * The messages sent with a request: every earlier user message, the newest assistant
   * message if there is one, the current document, then the new instruction.
   */
  function ContextWindow(history: seq<Message>, markdown: string, instruction: string): (w: seq<Message>)
    ensures |w| >= 2
    ensures w[|w| - 2] == Message(User, DocumentPrefix + markdown) && w[|w| - 1] == Message(User, instruction)
    ensures |w| <= |history| + 2
  {
    Seqs.FilterDisjoint(history, IsUser, IsAssistant);
    Seqs.FilterSpec(history, IsAssistant);
    UserMessages(history)
      + (match LastAssistant(history) case Some(a) => [a] case None => [])
      + [Message(User, DocumentPrefix + markdown), Message(User, instruction)]
  }

  /** The newest assistant message is the assistant message no later message follows. */
  lemma LastAssistantSpec(history: seq<Message>)
    ensures LastAssistant(history).None? <==> forall i :: 0 <= i < |history| ==> !IsAssistant(history[i])
    ensures LastAssistant(history).Some? ==>
      exists k :: 0 <= k < |history| && history[k] == LastAssistant(history).value
        && IsAssistant(history[k]) && forall j :: k < j < |history| ==> !IsAssistant(history[j])
  {
    Seqs.FilterEmpty(history, IsAssistant);
    LastAssistantIsLatest(history);
  }

  /** The `Some` half of `LastAssistantSpec`, by induction from the back of the history. */
  lemma {:induction false} LastAssistantIsLatest(history: seq<Message>)
    ensures LastAssistant(history).Some? ==>
      exists k :: 0 <= k < |history| && history[k] == LastAssistant(history).value
        && IsAssistant(history[k]) && forall j :: k < j < |history| ==> !IsAssistant(history[j])
  {
    if history != [] {
      var n := |history| - 1;
      var p := history[..n];
      assert history == p + [history[n]];
      Seqs.FilterAppend(p, [history[n]], IsAssistant);
      assert Seqs.Filter([history[n]], IsAssistant) == if IsAssistant(history[n]) then [history[n]] else [];
      if !IsAssistant(history[n]) {
        assert LastAssistant(history) == LastAssistant(p);
        LastAssistantIsLatest(p);
        if LastAssistant(p).Some? {
          var k :| 0 <= k < |p| && p[k] == LastAssistant(p).value
            && IsAssistant(p[k]) && forall j :: k < j < |p| ==> !IsAssistant(p[j]);
          assert history[k] == p[k];
          forall j | k < j < |history| ensures !IsAssistant(history[j]) {
            if j < n { assert history[j] == p[j]; }
          }
        }
      } else {
        assert LastAssistant(history) == Some(history[n]);
      }
    }
  }

  /**
   * The window opens with the history's user messages: in their order, each as often as the
   * history holds it, and nothing else. Then comes the newest assistant message exactly when
   * there is one, then the document message, and it ends with the instruction.
   */
  lemma ContextWindowSpec(history: seq<Message>, markdown: string, instruction: string)
    ensures var w := ContextWindow(history, markdown, instruction); var u := |UserMessages(history)|;
      && |w| == u + (if LastAssistant(history).Some? then 1 else 0) + 2
      && (forall i :: 0 <= i < u ==> IsUser(w[i]))
      && w[..u] == UserMessages(history)
      && Seqs.IsSubsequence(w[..u], history)
      && (forall m :: multiset(w[..u])[m] == if IsUser(m) then multiset(history)[m] else 0)
      && (forall m :: m in w[..u] <==> m in history && IsUser(m))
      && (LastAssistant(history).Some? ==> w[u] == LastAssistant(history).value && IsAssistant(w[u]))
      && w[|w| - 2] == Message(User, DocumentPrefix + markdown)
      && w[|w| - 1] == Message(User, instruction)
  {
    ContextWindowUsers(history, markdown, instruction);
    LastAssistantSpec(history);
  }

  /** The user-message part of `ContextWindowSpec`. */
  lemma ContextWindowUsers(history: seq<Message>, markdown: string, instruction: string)
    ensures var w := ContextWindow(history, markdown, instruction); var u := |UserMessages(history)|;
      && u <= |w|
      && (forall i :: 0 <= i < u ==> IsUser(w[i]))
      && w[..u] == UserMessages(history)
      && Seqs.IsSubsequence(w[..u], history)
      && (forall m :: multiset(w[..u])[m] == if IsUser(m) then multiset(history)[m] else 0)
      && (forall m :: m in w[..u] <==> m in history && IsUser(m))
  {
    var w := ContextWindow(history, markdown, instruction);
    var us := UserMessages(history);
    Seqs.FilterSpec(history, IsUser);
    Seqs.FilterExact(history, IsUser);
    assert w[..|us|] == us;
  }

  // ---------------------------------------------------------------------------------------
  // Turn grouping

  datatype Turn = Turn(user: Message, assistant: Option<Message>)

  /** The turns built from position `i` on, as the grouping loop walks the history. */
  function TurnsFrom(history: seq<Message>, i: nat): seq<Turn>
    decreases |history| - i
  {
    if i >= |history| then []
    else if !IsUser(history[i]) then TurnsFrom(history, i + 1)
    else if i + 1 < |history| && IsAssistant(history[i + 1]) then
      [Turn(history[i], Some(history[i + 1]))] + TurnsFrom(history, i + 2)
    else [Turn(history[i], None)] + TurnsFrom(history, i + 1)
  }

  /** The positions of the user messages from `i` on. */
  function UserPositions(history: seq<Message>, i: nat): (ps: seq<nat>)
    ensures forall k :: 0 <= k < |ps| ==> i <= ps[k] < |history|
    decreases |history| - i
  {
    if i >= |history| then []
    else (if IsUser(history[i]) then [i] else []) + UserPositions(history, i + 1)
  }

  /** The positions are exactly those of the user messages from `i` on, in increasing order. */
  lemma UserPositionsSpec(history: seq<Message>, i: nat)
    ensures forall k :: 0 <= k < |UserPositions(history, i)| ==> IsUser(history[UserPositions(history, i)[k]])
    ensures forall p :: i <= p < |history| && IsUser(history[p]) ==> p in UserPositions(history, i)
    ensures forall k, l :: 0 <= k < l < |UserPositions(history, i)| ==>
      UserPositions(history, i)[k] < UserPositions(history, i)[l]
  {
    UserPositionsAreUsers(history, i);
    UserPositionsComplete(history, i);
    UserPositionsIncrease(history, i);
  }

  /** Every position visited holds a user message. */
  lemma {:induction false} UserPositionsAreUsers(history: seq<Message>, i: nat)
    ensures forall k :: 0 <= k < |UserPositions(history, i)| ==> IsUser(history[UserPositions(history, i)[k]])
    decreases |history| - i
  {
    if i < |history| {
      UserPositionsAreUsers(history, i + 1);
      var ps := UserPositions(history, i);
      var qs := UserPositions(history, i + 1);
      if IsUser(history[i]) {
        assert ps == [i] + qs;
        forall k | 0 <= k < |ps| ensures IsUser(history[ps[k]]) {
          if k > 0 { assert ps[k] == qs[k - 1]; }
        }
      } else {
        assert ps == qs;
      }
    }
  }

  /** Every user message from `i` on has its position visited. */
  lemma {:induction false} UserPositionsComplete(history: seq<Message>, i: nat)
    ensures forall p :: i <= p < |history| && IsUser(history[p]) ==> p in UserPositions(history, i)
    decreases |history| - i
  {
    if i < |history| {
      UserPositionsComplete(history, i + 1);
      var ps := UserPositions(history, i);
      var qs := UserPositions(history, i + 1);
      if IsUser(history[i]) {
        assert ps == [i] + qs;
        forall p | i <= p < |history| && IsUser(history[p]) ensures p in ps {
          if p > i { assert p in qs; }
        }
      } else {
        assert ps == qs;
      }
    }
  }

  /** The positions visited increase. */
  lemma {:induction false} UserPositionsIncrease(history: seq<Message>, i: nat)
    ensures forall k, l :: 0 <= k < l < |UserPositions(history, i)| ==>
      UserPositions(history, i)[k] < UserPositions(history, i)[l]
    decreases |history| - i
  {
    if i < |history| {
      UserPositionsIncrease(history, i + 1);
      var ps := UserPositions(history, i);
      var qs := UserPositions(history, i + 1);
      if IsUser(history[i]) {
        assert ps == [i] + qs;
        forall k, l | 0 <= k < l < |ps| ensures ps[k] < ps[l] {
          assert ps[l] == qs[l - 1];
          if k > 0 { assert ps[k] == qs[k - 1]; }
        }
      } else {
        assert ps == qs;
      }
    }
  }

  /** The turn for the user message at `p`: with the next message when that is an assistant's. */
  function TurnAt(history: seq<Message>, p: nat): Turn
    requires p < |history|
  {
    Turn(history[p],
         if p + 1 < |history| && IsAssistant(history[p + 1]) then Some(history[p + 1]) else None)
  }

  /**
   * One turn per user message, in order; a turn carries an assistant message exactly when one
   * immediately follows its user message. Assistant messages without a user message before
   * them belong to no turn.
   */
  lemma {:induction false} TurnsSpec(history: seq<Message>, i: nat)
    ensures var ts := TurnsFrom(history, i); var ps := UserPositions(history, i);
      && |ts| == |ps|
      && forall k :: 0 <= k < |ts| ==> ts[k] == TurnAt(history, ps[k])
    decreases |history| - i
  {
    if i < |history| {
      var ts := TurnsFrom(history, i);
      var ps := UserPositions(history, i);
      if !IsUser(history[i]) {
        TurnsSpec(history, i + 1);
        assert ps == UserPositions(history, i + 1);
      } else {
        var j := if i + 1 < |history| && IsAssistant(history[i + 1]) then i + 2 else i + 1;
        TurnsSpec(history, j);
        var rest := TurnsFrom(history, j);
        var qs := UserPositions(history, j);
        if j == i + 2 {
          assert UserPositions(history, i + 1) == qs;
        }
        assert ts == [TurnAt(history, i)] + rest;
        assert ps == [i] + qs;
        forall k | 0 <= k < |ts| ensures ts[k] == TurnAt(history, ps[k]) {
          if k > 0 {
            assert ts[k] == rest[k - 1] && ps[k] == qs[k - 1];
          }
        }
      }
    }
  }

  /** The grouping loop: `i` steps over the assistant message it attaches. */
  method GroupTurns(history: seq<Message>) returns (turns: seq<Turn>)
    ensures turns == TurnsFrom(history, 0)
  {
    turns := [];
    var i := 0;
    while i < |history|
      invariant i <= |history|
      invariant turns + TurnsFrom(history, i) == TurnsFrom(history, 0)
      decreases |history| - i
    {
      if history[i].role == User {
        var user := history[i];
        var assistant: Option<Message> := None;
        if i + 1 < |history| && history[i + 1].role == Assistant {
          assistant := Some(history[i + 1]);
          i := i + 1;
        }
        turns := turns + [Turn(user, assistant)];
      }
      i := i + 1;
    }
  }

  // ---------------------------------------------------------------------------------------
  // Rewriting one history entry

  /** `h.map((msg, idx) => idx === index ? {...msg, content} : msg)`. */
  function SetContent(history: seq<Message>, index: nat, content: string): (r: seq<Message>)
    ensures |r| == |history|
    ensures forall i :: 0 <= i < |r| && i != index ==> r[i] == history[i]
    ensures index < |r| ==> r[index] == history[index].(content := content)
  {
    if index < |history| then history[index := history[index].(content := content)] else history
  }
}

=== FILE: legacy_references.dfy ===
/**
 * The older references panel, which lists `ArxivReference`s handed in by its parent: the
 * category chips, the category filter and sort, the search form, the author line, the
 * BibTeX entry it copies and the abstract preview.
 */
module LegacyReferences {
  import opened Wrappers
  import opened Strings
  import Seqs
  import Papers
  import PaperActions

  datatype ArxivReference = ArxivReference(
    id: string, title: string, authors: seq<string>, abstractText: string, published: string,
    arxivId: string, categories: seq<string>, url: string, relevanceScore: Option<real>)

  /** `relevance_score || 0`. */
  function Relevance(r: ArxivReference): real {
    if r.relevanceScore.Some? then r.relevanceScore.value else 0.0
  }

  // ---------------------------------------------------------------------------------------
  // Categories

  /** `references.flatMap(ref => ref.categories)`. */
  function Categories(refs: seq<ArxivReference>): (r: seq<string>)
    ensures forall i, c :: 0 <= i < |refs| && c in refs[i].categories ==> c in r
  {
    if refs == [] then []
    else
      assert forall i :: 1 <= i < |refs| ==> refs[i] == refs[1..][i - 1];
      refs[0].categories + Categories(refs[1..])
  }

  lemma {:induction false} CategoriesSpec(refs: seq<ArxivReference>)
    ensures forall c :: c in Categories(refs) <==> exists i :: 0 <= i < |refs| && c in refs[i].categories
  {
    if refs != [] {
      CategoriesSpec(refs[1..]);
      forall c | c in Categories(refs) ensures exists i :: 0 <= i < |refs| && c in refs[i].categories {
        if c !in refs[0].categories {
          assert c in Categories(refs[1..]);
          var i :| 0 <= i < |refs[1..]| && c in refs[1..][i].categories;
          assert refs[i + 1] == refs[1..][i];
        }
      }
      forall c, i | 0 <= i < |refs| && c in refs[i].categories ensures c in Categories(refs) {
        if i > 0 {
          assert refs[1..][i - 1] == refs[i];
        }
      }
    }
  }

  /**
   * `Array.from(new Set(...)).sort()`: the category set, whose first six become the chips. It
   * lists each flattened category once and nothing else.
   */
  function AllCategories(refs: seq<ArxivReference>): (r: seq<string>)
    ensures Seqs.NoDuplicates(r)
    ensures forall c :: c in r <==> c in Categories(refs)
  {
    var d := Seqs.Distinct(Categories(refs));
    var r := Seqs.SortBy(d, StringLe);
    assert forall c :: c in r <==> c in d by {
      forall c ensures c in r <==> c in d {
        assert c in r <==> c in multiset(r);
        assert c in d <==> c in multiset(d);
      }
    }
    Seqs.NoDuplicatesPermutation(d, r);
    r
  }

  /** The default string order is a total preorder, so the sort is well defined. */
  lemma StringLeTotalPreorder()
    ensures Seqs.TotalPreorder(StringLe)
  {
    forall a, b ensures StringLe(a, b) || StringLe(b, a) {
      StringLeTotal(a, b);
    }
    forall a, b, c | StringLe(a, b) && StringLe(b, c) ensures StringLe(a, c) {
      StringLeTransitive(a, b, c);
    }
  }

  /**
   * The category set holds exactly the categories some reference carries, each once, in
   * strictly increasing order.
   */
  lemma AllCategoriesSpec(refs: seq<ArxivReference>)
    ensures var r := AllCategories(refs);
      && (forall c :: c in r <==> exists i :: 0 <= i < |refs| && c in refs[i].categories)
      && (forall i, j :: 0 <= i < j < |r| ==> StringLe(r[i], r[j]) && r[i] != r[j])
  {
    var d := Seqs.Distinct(Categories(refs));
    var r := AllCategories(refs);
    CategoriesSpec(refs);
    assert forall c :: c in r <==> c in d by {
      forall c ensures c in r <==> c in d {
        assert c in r <==> c in multiset(r);
        assert c in d <==> c in multiset(d);
      }
    }
    StringLeTotalPreorder();
    Seqs.SortBySorted(d, StringLe);
    Seqs.NoDuplicatesPermutation(d, r);
  }

  // ---------------------------------------------------------------------------------------
  // Filter and sort

  /** Whether a reference passes the category filter. */
  predicate Shown(r: ArxivReference, selected: seq<string>) {
    selected == [] || exists c :: c in selected && c in r.categories
  }

  /** The category filter: it only drops references, and keeps only those it shows. */
  function FilterByCategories(refs: seq<ArxivReference>, selected: seq<string>): (r: seq<ArxivReference>)
    ensures |r| <= |refs|
    ensures forall x :: x in r ==> x in refs && Shown(x, selected)
  {
    Seqs.FilterSpec(refs, r => Shown(r, selected));
    Seqs.Filter(refs, r => Shown(r, selected))
  }

  /**
   * With nothing selected every reference stays; otherwise exactly those sharing a selected
   * category stay, in their order and each as often as the list holds it.
   */
  lemma FilterByCategoriesSpec(refs: seq<ArxivReference>, selected: seq<string>)
    ensures var r := FilterByCategories(refs, selected);
      && (selected == [] ==> r == refs)
      && Seqs.IsSubsequence(r, refs)
      && (forall x :: multiset(r)[x] ==
            if selected == [] || exists c :: c in selected && c in x.categories then multiset(refs)[x] else 0)
      && (forall x :: x in r <==> x in refs && (selected == [] || exists c :: c in selected && c in x.categories))
      && multiset(r) <= multiset(refs)
  {
    Seqs.FilterSpec(refs, r => Shown(r, selected));
    Seqs.FilterExact(refs, r => Shown(r, selected));
    if selected == [] {
      Seqs.FilterAll(refs, r => Shown(r, selected));
    }
  }

  datatype SortKey = ByRelevance | ByDate | ByTitle

  /** The comparator, read as "may come first": its value is at most zero. */
  function Precedes(sortBy: SortKey, time: string -> real, titleLe: (string, string) -> bool)
    : (ArxivReference, ArxivReference) -> bool
  {
    match sortBy
    case ByRelevance => Seqs.Descending((r: ArxivReference) => Relevance(r))
    case ByDate => Seqs.Descending((r: ArxivReference) => time(r.published))
    case ByTitle => Seqs.ByString((r: ArxivReference) => r.title, titleLe)
  }

  /**
   * `.sort(comparator)`: a stable sort by the chosen key. The numeric keys need nothing of the
   * caller: relevance (missing as 0) and publication dates never increase along the list.
   */
  function SortReferences(refs: seq<ArxivReference>, sortBy: SortKey, time: string -> real,
                          titleLe: (string, string) -> bool): (r: seq<ArxivReference>)
    ensures multiset(r) == multiset(refs) && |r| == |refs|
    ensures sortBy == ByRelevance ==> forall i, j :: 0 <= i < j < |r| ==> Relevance(r[i]) >= Relevance(r[j])
    ensures sortBy == ByDate ==> forall i, j :: 0 <= i < j < |r| ==> time(r[i].published) >= time(r[j].published)
  {
    var r := Seqs.SortBy(refs, Precedes(sortBy, time, titleLe));
    if sortBy == ByTitle then r
    else
      PrecedesTotal(sortBy, time, titleLe);
      Seqs.SortBySorted(refs, Precedes(sortBy, time, titleLe));
      r
  }

  /** Each comparator describes a total preorder (given a total title order). */
  lemma PrecedesTotal(sortBy: SortKey, time: string -> real, titleLe: (string, string) -> bool)
    requires sortBy == ByTitle ==> Seqs.TotalPreorder(titleLe)
    ensures Seqs.TotalPreorder(Precedes(sortBy, time, titleLe))
  {
    match sortBy
    case ByRelevance => Seqs.DescendingTotal((r: ArxivReference) => Relevance(r));
    case ByDate => Seqs.DescendingTotal((r: ArxivReference) => time(r.published));
    case ByTitle => Seqs.ByStringTotal((r: ArxivReference) => r.title, titleLe);
  }

  /**
   * The sorted list is ordered by the chosen key: relevance (missing as 0) and date never
   * increase, titles follow the title order.
   */
  lemma SortReferencesSpec(refs: seq<ArxivReference>, sortBy: SortKey, time: string -> real,
                           titleLe: (string, string) -> bool)
    requires sortBy == ByTitle ==> Seqs.TotalPreorder(titleLe)
    ensures var r := SortReferences(refs, sortBy, time, titleLe);
      && (sortBy == ByRelevance ==> forall i, j :: 0 <= i < j < |r| ==> Relevance(r[i]) >= Relevance(r[j]))
      && (sortBy == ByDate ==> forall i, j :: 0 <= i < j < |r| ==> time(r[i].published) >= time(r[j].published))
      && (sortBy == ByTitle ==> forall i, j :: 0 <= i < j < |r| ==> titleLe(r[i].title, r[j].title))
  {
    PrecedesTotal(sortBy, time, titleLe);
    Seqs.SortBySorted(refs, Precedes(sortBy, time, titleLe));
  }

  // ---------------------------------------------------------------------------------------
  // Category chips

  const MaxChips: nat := 6

  /** `allCategories.slice(0, 6)`: the categories rendered as chips, a prefix of at most six. */
  function CategoryChips(refs: seq<ArxivReference>): (r: seq<string>)
    ensures |r| <= MaxChips && |r| <= |AllCategories(refs)| && r == AllCategories(refs)[..|r|]
  {
    var all := AllCategories(refs);
    if |all| <= MaxChips then all else all[..MaxChips]
  }

  /**
   * The chips are the (at most six) smallest categories: each is carried by some reference,
   * they are distinct and increasing, there are six of them unless fewer categories exist, and
   * every carried category without a chip comes after every chip.
   */
  lemma CategoryChipsSpec(refs: seq<ArxivReference>)
    ensures var r := CategoryChips(refs); var all := AllCategories(refs);
      && |r| == (if |all| <= MaxChips then |all| else MaxChips)
      && (forall c :: c in r ==> exists i :: 0 <= i < |refs| && c in refs[i].categories)
      && (forall i, j :: 0 <= i < j < |r| ==> StringLe(r[i], r[j]) && r[i] != r[j])
      && (forall c :: (exists i :: 0 <= i < |refs| && c in refs[i].categories) && c !in r ==>
            forall k :: 0 <= k < |r| ==> StringLe(r[k], c))
  {
    var all := AllCategories(refs);
    var r := CategoryChips(refs);
    AllCategoriesSpec(refs);
    assert forall k :: 0 <= k < |r| ==> r[k] == all[k];
    forall c | c in r ensures exists i :: 0 <= i < |refs| && c in refs[i].categories {
      var k :| 0 <= k < |r| && r[k] == c;
      assert c in all;
    }
    forall c | (exists i :: 0 <= i < |refs| && c in refs[i].categories) && c !in r
      ensures forall k :: 0 <= k < |r| ==> StringLe(r[k], c)
    {
      assert c in all;
      var j :| 0 <= j < |all| && all[j] == c;
      assert j >= |r|;
    }
  }

  /** Clicking a chip: drop the category if selected, else append it. */
  function ToggleCategory(selected: seq<string>, c: string): (r: seq<string>)
    ensures c in r <==> c !in selected
    ensures forall x :: x != c ==> (x in r <==> x in selected)
  {
    Seqs.FilterSpec(selected, x => x != c);
    if c in selected then Seqs.Filter(selected, x => x != c) else selected + [c]
  }

  /**
   * Toggling keeps the selection free of duplicates, and toggling a category that was not
   * selected twice gives back the selection as it was.
   */
  lemma ToggleCategorySpec(selected: seq<string>, c: string)
    requires Seqs.NoDuplicates(selected)
    ensures Seqs.NoDuplicates(ToggleCategory(selected, c))
    ensures c !in selected ==> ToggleCategory(ToggleCategory(selected, c), c) == selected
  {
    if c in selected {
      Seqs.FilterNoDuplicates(selected, x => x != c);
    } else {
      Seqs.FilterAppend(selected, [c], x => x != c);
      Seqs.FilterAll(selected, x => x != c);
      assert Seqs.Filter([c], x => x != c) == [];
    }
  }

  // ---------------------------------------------------------------------------------------
  // Search, authors and abstract

  /** `handleSearch`: the trimmed query is submitted unless it is blank. */
  function HandleSearch(query: string): (r: Option<string>)
    ensures r.Some? <==> Trim(query) != []
    ensures r.Some? ==> r.value != [] && IsTrimmed(r.value)
  {
    TrimSpec(query);
    if Trim(query) != [] then Some(Trim(query)) else None
  }

  /** Submitting what was submitted submits it again unchanged. */
  lemma HandleSearchIdempotent(query: string)
    requires HandleSearch(query).Some?
    ensures HandleSearch(HandleSearch(query).value) == HandleSearch(query)
  {
    TrimOfTrimmed(HandleSearch(query).value);
  }

  /** A query of white space only is never submitted. */
  lemma HandleSearchBlank(query: string)
    requires forall k :: 0 <= k < |query| ==> IsSpace(query[k])
    ensures HandleSearch(query) == None
  {
    TrimSpec(query);
  }

  /**
   * `formatAuthors`: the same rule as the result cards, on a list. More than three authors end
   * in ` et al.`; trimmed, comma-free names are read back from the line by splitting on commas,
   * all of them when there are at most three and the first three otherwise.
   */
  function FormatAuthors(authors: seq<string>): (r: string)
    ensures |authors| > 3 ==> |r| >= |Papers.EtAl| && r[|r| - |Papers.EtAl|..] == Papers.EtAl
    ensures authors != [] && (forall i :: 0 <= i < |authors| ==> IsTrimmed(authors[i]) && ',' !in authors[i]) ==>
      if |authors| <= 3 then Papers.AuthorPieces(r) == authors
      else Papers.AuthorPieces(r[..|r| - |Papers.EtAl|]) == authors[..3]
  {
    var r := Papers.FormatAuthorList(authors);
    assert |authors| > 3 ==> r == Join(authors[..3], ", ") + Papers.EtAl;
    assert authors != [] && (forall i :: 0 <= i < |authors| ==> IsTrimmed(authors[i]) && ',' !in authors[i]) ==>
      if |authors| <= 3 then Papers.AuthorPieces(r) == authors
      else Papers.AuthorPieces(r[..|r| - |Papers.EtAl|]) == authors[..3]
    by {
      if authors != [] && (forall i :: 0 <= i < |authors| ==> IsTrimmed(authors[i]) && ',' !in authors[i]) {
        Papers.FormatAuthorListShows(authors);
      }
    }
    r
  }

  /**
   * The abstract preview: the same 200-character cut as the result cards. It is at most 203
   * characters, at most three longer than the abstract, and starts like it.
   */
  function AbstractPreview(r: ArxivReference): (a: string)
    ensures |a| <= Papers.AbstractPreview + 3 && |a| <= |r.abstractText| + 3
    ensures var k := if |r.abstractText| < Papers.AbstractPreview then |r.abstractText| else Papers.AbstractPreview;
      k <= |a| && a[..k] == r.abstractText[..k]
  {
    Papers.ShortAbstractBounded(r.abstractText);
    Papers.ShortAbstract(r.abstractText)
  }

  // ---------------------------------------------------------------------------------------
  // BibTeX

  const UnknownAuthor: string := "Unknown"

  /** `authors[0]?.split(' ').pop() || 'Unknown'`. */
  function FirstAuthorWord(authors: seq<string>): (w: string)
    ensures w != [] && ' ' !in w
    ensures authors != [] && LastPiece(authors[0], ' ') != [] ==> w == LastPiece(authors[0], ' ')
    ensures authors == [] || LastPiece(authors[0], ' ') == [] ==> w == UnknownAuthor
  {
    if authors != [] && LastPiece(authors[0], ' ') != [] then LastPiece(authors[0], ' ')
    else UnknownAuthor
  }

  /** The key: the lower-cased word, the year, the id with its first `.` removed. */
  function BibKey(r: ArxivReference, year: int): (k: string)
    ensures var w := ToLower(FirstAuthorWord(r.authors)); var y := IntToString(year);
      && |k| == |w| + |y| + |RemoveFirst(r.arxivId, '.')|
      && k[..|w|] == w && k[|w|..|w| + |y|] == y
      && k[|w| + |y|..] == RemoveFirst(r.arxivId, '.')
  {
    var w := ToLower(FirstAuthorWord(r.authors));
    var y := IntToString(year);
    var k := w + y + RemoveFirst(r.arxivId, '.');
    assert k[|w| + |y|..] == RemoveFirst(r.arxivId, '.');
    k
  }

  /**
   * For a reference with one trimmed author and an id with at most one `.`, this key is the
   * result card's key with the author word lower-cased: the same year and the same id tail.
   */
  lemma BibKeyMatchesCard(r: ArxivReference, p: Papers.Paper, year: int)
    requires |r.authors| == 1 && IsTrimmed(r.authors[0]) && ',' !in r.authors[0]
    requires LastPiece(r.authors[0], ' ') != []
    requires p.authors == r.authors[0] && p.id == r.arxivId && Count(r.arxivId, '.') <= 1
    ensures var w := PaperActions.FirstAuthorWord(p.authors); var tail := RemoveAll(p.id, '.');
      && BibKey(r, year) == ToLower(w) + IntToString(year) + tail
      && PaperActions.BibKey(p, year) == w + IntToString(year) + tail
  {
    SplitOnNoSeparator(p.authors, ',');
    TrimOfTrimmed(p.authors);
    assert Papers.FirstAuthor(p.authors) == p.authors;
    RemoveFirstIsAll(r.arxivId, '.');
  }

  const AuthorSep: string := " and "

  /**
   * The entry's lines around a given key and year: seven lines, the first opening the entry
   * with the key, the five fields indented by two spaces, the last closing it.
   */
  function EntryLines(key: string, y: string, r: ArxivReference): (lines: seq<string>)
    ensures |lines| == 7 && lines[0] == PaperActions.ArticleOpen + key + "," && lines[6] == "}"
    ensures forall i :: 1 <= i < 6 ==> |lines[i]| >= 2 && lines[i][..2] == PaperActions.Indent
  {
    [ PaperActions.ArticleOpen + key + ",",
      PaperActions.TitleOpen + r.title + PaperActions.FieldClose,
      PaperActions.AuthorOpen + Join(r.authors, AuthorSep) + PaperActions.FieldClose,
      PaperActions.JournalOpen + r.arxivId + PaperActions.FieldClose,
      PaperActions.YearOpen + y + PaperActions.FieldClose,
      PaperActions.UrlOpen + r.url + "}",
      "}" ]
  }

  /**
   * `copyBibTeX`'s text, before it goes to the clipboard: whatever the fields hold, it opens
   * with `@article{`, its key and a comma, and closes with `}`.
   */
  function BibTeX(r: ArxivReference, year: int): (b: string)
    ensures var head := PaperActions.ArticleOpen + BibKey(r, year) + ",";
      && |head| < |b| && b[..|head|] == head && b[|b| - 1] == '}'
  {
    var lines := EntryLines(BibKey(r, year), IntToString(year), r);
    JoinEnds(lines, "\n");
    var b := Join(lines, "\n");
    assert b[|b| - 1] == b[|b| - 1..][0];
    b
  }

  /** When no field holds a line break, the entry splits back into exactly its seven lines. */
  lemma BibTeXLines(r: ArxivReference, year: int)
    requires '\n' !in r.title && '\n' !in r.arxivId && '\n' !in r.url
    requires forall i :: 0 <= i < |r.authors| ==> '\n' !in r.authors[i]
    ensures SplitOn(BibTeX(r, year), '\n') == EntryLines(BibKey(r, year), IntToString(year), r)
  {
    KeyOnOneLine(r, year);
    var y := IntToString(year);
    assert '\n' !in y;
    JoinKeeps(r.authors, AuthorSep, '\n');
    EntryOnSeparateLines(BibKey(r, year), y, r);
  }

  lemma KeyOnOneLine(r: ArxivReference, year: int)
    requires '\n' !in r.arxivId
    requires forall i :: 0 <= i < |r.authors| ==> '\n' !in r.authors[i]
    ensures '\n' !in BibKey(r, year)
  {
    if r.authors != [] {
      LastPieceKeeps(r.authors[0], ' ', '\n');
    }
    ToLowerKeepsBreak(FirstAuthorWord(r.authors));
    RemoveFirstKeeps(r.arxivId, '.', '\n');
    assert '\n' !in IntToString(year);
  }

  lemma EntryOnSeparateLines(key: string, y: string, r: ArxivReference)
    requires '\n' !in key && '\n' !in y && '\n' !in Join(r.authors, AuthorSep)
    requires '\n' !in r.title && '\n' !in r.arxivId && '\n' !in r.url
    ensures SplitOn(Join(EntryLines(key, y, r), "\n"), '\n') == EntryLines(key, y, r)
  {
    PaperActions.LiteralsOnOneLine();
    var lines := EntryLines(key, y, r);
    assert forall i :: 0 <= i < |lines| ==> '\n' !in lines[i];
    SplitOnJoin(lines, '\n');
  }
}

=== FILE: main_content.dfy ===
/**
 * The editor page: the document statistics under the editor, citing a paper from the
 * references panel, and starting from a template. Each `onUpdateMarkdown` call is an element
 * of the returned update list; the document ends as the last one.
 */
module MainContent {
  import opened Strings
  import Wrappers
  import Papers
  import AcademicTemplates

  // ---------------------------------------------------------------------------------------
  // Document statistics

  datatype DocStats = DocStats(wordCount: nat, lineCount: nat, charCount: nat)

  function Stats(markdown: string): (d: DocStats)
    ensures d.charCount == |markdown|
    ensures d.lineCount == 1 + Count(markdown, '\n')
    ensures d.wordCount == WordRuns(markdown)
  {
    SplitOnSpec(markdown, '\n');
    WordCountIsRuns(markdown);
    DocStats(WordCount(markdown), |SplitOn(markdown, '\n')|, |markdown|)
  }

  // ---------------------------------------------------------------------------------------
  // Citing a paper

  const Unknown: string := "Unknown"

  /**
   * The surname shown in the citation: the last space-separated piece of the trimmed first
   * comma-separated author, or `Unknown` when that is empty.
   */
  function Surname(authors: string): (r: string)
    ensures r != [] && ' ' !in r
  {
    var piece := LastPiece(Papers.FirstAuthor(authors), ' ');
    if piece != [] then piece else Unknown
  }

  /** The surname is what follows the last space of the first author, unless that is empty. */
  lemma SurnameSpec(authors: string)
    ensures var first := Papers.FirstAuthor(authors); var r := Surname(authors);
      || (r == Unknown && (first == [] || first[|first| - 1] == ' '))
      || (|r| <= |first| && r == first[|first| - |r|..] && (|r| < |first| ==> first[|first| - |r| - 1] == ' '))
  {
    LastPieceIsSuffix(Papers.FirstAuthor(authors), ' ');
  }

  /** `[S et al., Y](#ref-I)`, I being the id without its first `.`. */
  function CitationLink(surname: string, year: int, id: string): string {
    "[" + surname + " et al., " + IntToString(year) + "](#ref-" + RemoveFirst(id, '.') + ")"
  }

  /**
   * The bracketed text of a citation opens with the surname, and the link closes the citation
   * with the anchor of the paper's entry.
   */
  lemma CitationLinkParts(surname: string, year: int, id: string)
    ensures var c := CitationLink(surname, year, id);
      && 1 + |surname| <= |c| && c[0] == '[' && c[1..1 + |surname|] == surname
    ensures var c := CitationLink(surname, year, id); var anchor := "](#ref-" + RemoveFirst(id, '.') + ")";
      |anchor| <= |c| && c[|c| - |anchor|..] == anchor
  {
    var anchor := "](#ref-" + RemoveFirst(id, '.') + ")";
    var head := "[" + surname + " et al., " + IntToString(year);
    var c := head + anchor;
    assert c == CitationLink(surname, year, id);
    assert c[1..1 + |surname|] == surname;
    assert c[|c| - |anchor|..] == anchor;
  }

  const ReferencesHeader: string := "## References"
  const ReferencesSection: string := "\n\n## References\n\n"

  /** The reference-list entry for `p`. */
  function ReferenceEntry(p: Papers.Paper, year: int): string {
    "- **" + p.title + "** (arXiv:" + p.id + ")\n  " + p.authors
      + "\n  *arXiv preprint arXiv:" + p.id + "* (" + IntToString(year) + ")\n  ["
      + Papers.ArxivAbs + p.id + "](" + Papers.ArxivAbs + p.id + ")\n\n"
  }

  /** The entry is a list item ending in a blank line. */
  lemma ReferenceEntryParts(p: Papers.Paper, year: int)
    ensures var e := ReferenceEntry(p, year);
      && |e| >= 2 && e[0] == '-' && e[|e| - 2..] == "\n\n"
  {
    var e := ReferenceEntry(p, year);
    var close := ")\n\n";
    assert e[|e| - 3..] == close;
    assert e[|e| - 2..] == close[1..];
  }

  /** The entry mentions the paper's id, so a document ending in it no longer misses the paper. */
  lemma ReferenceEntryMentionsId(p: Papers.Paper, year: int)
    ensures Contains(ReferenceEntry(p, year), p.id)
  {
    var head := "- **" + p.title + "** (arXiv:";
    assert (head + p.id)[|head|..|head| + |p.id|] == p.id;
    ContainsAt(head + p.id, p.id, |head|);
    // Each further piece of the entry keeps the id inside it.
    var e := head + p.id;
    ContainsExtend(e, p.id, ")\n  "); e := e + ")\n  ";
    ContainsExtend(e, p.id, p.authors); e := e + p.authors;
    ContainsExtend(e, p.id, "\n  *arXiv preprint arXiv:"); e := e + "\n  *arXiv preprint arXiv:";
    ContainsExtend(e, p.id, p.id); e := e + p.id;
    ContainsExtend(e, p.id, "* ("); e := e + "* (";
    ContainsExtend(e, p.id, IntToString(year)); e := e + IntToString(year);
    ContainsExtend(e, p.id, ")\n  ["); e := e + ")\n  [";
    ContainsExtend(e, p.id, Papers.ArxivAbs); e := e + Papers.ArxivAbs;
    ContainsExtend(e, p.id, p.id); e := e + p.id;
    ContainsExtend(e, p.id, "]("); e := e + "](";
    ContainsExtend(e, p.id, Papers.ArxivAbs); e := e + Papers.ArxivAbs;
    ContainsExtend(e, p.id, p.id); e := e + p.id;
    ContainsExtend(e, p.id, ")\n\n"); e := e + ")\n\n";
    assert e == ReferenceEntry(p, year);
  }

  /** The document with the citation appended: the first update. */
  function WithCitation(markdown: string, p: Papers.Paper, year: int): string {
    markdown + "\n\n" + CitationLink(Surname(p.authors), year, p.id)
  }

  /** The first update keeps the document as it is, and the citation link ends it. */
  lemma WithCitationParts(markdown: string, p: Papers.Paper, year: int)
    ensures var w := WithCitation(markdown, p, year); var link := CitationLink(Surname(p.authors), year, p.id);
      && |w| == |markdown| + 2 + |link|
      && w[..|markdown|] == markdown && w[|w| - |link|..] == link
  {
    var link := CitationLink(Surname(p.authors), year, p.id);
    var w := markdown + "\n\n" + link;
    assert w[..|markdown|] == markdown && w[|w| - |link|..] == link;
  }

  /**
   * `handleCiteReference` as written: the citation; then, when the document has no references
   * header, the citation plus the header; then, when the document does not mention the id,
   * the citation plus the entry. `year` is the paper date's year.
   */
  function CiteUpdates(markdown: string, p: Papers.Paper, year: int): (us: seq<string>)
    ensures 1 <= |us| <= 3 && us[0] == WithCitation(markdown, p, year)
    ensures |us| == 1 + (if Contains(markdown, ReferencesHeader) then 0 else 1) + (if Contains(markdown, p.id) then 0 else 1)
    ensures !Contains(markdown, ReferencesHeader) ==> us[1] == us[0] + ReferencesSection
    ensures !Contains(markdown, p.id) ==> us[|us| - 1] == us[0] + ReferenceEntry(p, year)
    ensures Contains(markdown, p.id) ==> us[|us| - 1] == us[0] + (if Contains(markdown, ReferencesHeader) then [] else ReferencesSection)
  {
    var newContent := WithCitation(markdown, p, year);
    [newContent]
      + (if !Contains(markdown, ReferencesHeader) then [newContent + ReferencesSection] else [])
      + (if !Contains(markdown, p.id) then [newContent + ReferenceEntry(p, year)] else [])
  }

  /**
   * A document without a references section, citing a paper it does not mention: the second
   * update adds the header, but the third, built from the first, drops it again, and the
   * third is what the document ends as.
   */
  lemma CiteUpdatesLosesHeader()
    ensures var us := CiteUpdates([], ExamplePaper, 2017);
      && |us| == 3
      && Contains(us[1], ReferencesHeader)
      && !Contains(us[2], ReferencesHeader)
  {
    var p := ExamplePaper;
    var us := CiteUpdates([], p, 2017);
    var newContent := WithCitation([], p, 2017);
    assert !Contains([], ReferencesHeader) && !Contains([], p.id);
    assert us == [newContent, newContent + ReferencesSection, newContent + ReferenceEntry(p, 2017)];
    ContainsInfix(newContent + "\n\n", ReferencesHeader, "\n\n");
    assert newContent + "\n\n" + ReferencesHeader + "\n\n" == us[1];
    assert SplitOn([], ',') == [[]];
    assert Surname(p.authors) == Unknown;
    assert RemoveFirst(p.id, '.') == p.id;
    NoCapitalR(p, Unknown, 2017);
    assert 'R' !in us[2];
    if Contains(us[2], ReferencesHeader) {
      ContainsChars(us[2], ReferencesHeader, 'R');
    }
  }

  /** Neither the citation nor the entry adds a capital R of its own. */
  lemma NoCapitalR(p: Papers.Paper, surname: string, year: int)
    requires 'R' !in p.title && 'R' !in p.authors && 'R' !in p.id && 'R' !in surname
    ensures 'R' !in CitationLink(surname, year, p.id) && 'R' !in ReferenceEntry(p, year)
  {
    var y := IntToString(year);
    assert 'R' !in y by {
      if year < 0 { assert y == "-" + NatToString(-year); }
    }
    RemoveFirstSpec(p.id, '.');
    NoCapitalRInEntry(p, y);
  }

  lemma NoCapitalRInEntry(p: Papers.Paper, y: string)
    requires 'R' !in p.title && 'R' !in p.authors && 'R' !in p.id && 'R' !in y
    ensures 'R' !in "- **" + p.title + "** (arXiv:" + p.id + ")\n  " + p.authors
      + "\n  *arXiv preprint arXiv:" + p.id + "* (" + y + ")\n  ["
      + Papers.ArxivAbs + p.id + "](" + Papers.ArxivAbs + p.id + ")\n\n"
  {
    assert 'R' !in Papers.ArxivAbs;
  }

  const ExamplePaper: Papers.Paper :=
    Papers.Paper("1", "T", [], [], "2017-06-12", Wrappers.None, Wrappers.None)

  /**
   * `handleCiteReference` as evidently intended: the entry goes after the references section
   * the second update added, so the last update keeps the header.
   */
  function CiteUpdatesFixed(markdown: string, p: Papers.Paper, year: int): (us: seq<string>)
    ensures 1 <= |us| <= 3 && us[0] == WithCitation(markdown, p, year)
    ensures |us| == 1 + (if Contains(markdown, ReferencesHeader) then 0 else 1) + (if Contains(markdown, p.id) then 0 else 1)
  {
    var newContent := WithCitation(markdown, p, year);
    var withSection := if !Contains(markdown, ReferencesHeader) then newContent + ReferencesSection else newContent;
    [newContent]
      + (if !Contains(markdown, ReferencesHeader) then [withSection] else [])
      + (if !Contains(markdown, p.id) then [withSection + ReferenceEntry(p, year)] else [])
  }

  /**
   * The document the fixed sequence leaves always has a references header, starts with the
   * document and the citation, and ends with the entry exactly when the id was not mentioned.
   */
  lemma CiteUpdatesFixedKeepsHeader(markdown: string, p: Papers.Paper, year: int)
    ensures var us := CiteUpdatesFixed(markdown, p, year); var last := us[|us| - 1];
      && Contains(last, ReferencesHeader)
      && StartsWith(last, WithCitation(markdown, p, year))
      && (!Contains(markdown, p.id) ==>
            |last| >= |ReferenceEntry(p, year)| && last[|last| - |ReferenceEntry(p, year)|..] == ReferenceEntry(p, year))
  {
    var us := CiteUpdatesFixed(markdown, p, year);
    var link := CitationLink(Surname(p.authors), year, p.id);
    var newContent := WithCitation(markdown, p, year);
    var withSection := if !Contains(markdown, ReferencesHeader) then newContent + ReferencesSection else newContent;
    var entry := if !Contains(markdown, p.id) then ReferenceEntry(p, year) else [];
    SectionThenEntry(markdown, link, entry);
    LastFixedUpdate(markdown, p, year);
  }

  /** The fixed sequence ends with the document with its section, then the entry if one is due. */
  lemma LastFixedUpdate(markdown: string, p: Papers.Paper, year: int)
    ensures var newContent := WithCitation(markdown, p, year);
      var withSection := if !Contains(markdown, ReferencesHeader) then newContent + ReferencesSection else newContent;
      var us := CiteUpdatesFixed(markdown, p, year);
      us[|us| - 1] == withSection + (if !Contains(markdown, p.id) then ReferenceEntry(p, year) else [])
  {
    var newContent := WithCitation(markdown, p, year);
    var withSection := if !Contains(markdown, ReferencesHeader) then newContent + ReferencesSection else newContent;
    var e := ReferenceEntry(p, year);
    var us := CiteUpdatesFixed(markdown, p, year);
    if Contains(markdown, p.id) {
      assert withSection + [] == withSection;
      if Contains(markdown, ReferencesHeader) {
        assert us == [newContent];
      } else {
        assert us == [newContent, withSection];
      }
    } else {
      assert us[|us| - 1] == withSection + e;
    }
  }

  /** The fixed sequence's last document, for any citation text and entry. */
  lemma SectionThenEntry(markdown: string, link: string, entry: string)
    ensures var newContent := markdown + "\n\n" + link;
      var withSection := if !Contains(markdown, ReferencesHeader) then newContent + ReferencesSection else newContent;
      var last := withSection + entry;
      && Contains(last, ReferencesHeader)
      && StartsWith(last, newContent)
      && last[|last| - |entry|..] == entry
  {
    var newContent := markdown + "\n\n" + link;
    var withSection := if !Contains(markdown, ReferencesHeader) then newContent + ReferencesSection else newContent;
    var last := withSection + entry;
    if Contains(markdown, ReferencesHeader) {
      ContainsExtend(markdown, ReferencesHeader, "\n\n" + link + entry);
      assert markdown + ("\n\n" + link + entry) == last;
    } else {
      ContainsInfix(newContent + "\n\n", ReferencesHeader, "\n\n" + entry);
      assert newContent + "\n\n" + ReferencesHeader + ("\n\n" + entry) == last;
    }
    assert last[..|newContent|] == newContent;
    assert last[|last| - |entry|..] == entry;
  }

  // ---------------------------------------------------------------------------------------
  // Templates

  /** `handleUseTemplate`: the document becomes the template's structure, and the chat panel is shown. */
  function UseTemplate(t: AcademicTemplates.Template): (r: (seq<string>, PanelMode))
    ensures r.0 == [t.structure] && r.1 == Chat
  {
    ([t.structure], Chat)
  }

  datatype PanelMode = Chat | References | Templates
}

=== FILE: panel_footer.dfy ===
/**
 * The panel footer: score statistics over the displayed papers and the "cite best matches"
 * action, which cites up to three papers scoring at least 0.8.
 */
module PanelFooter {
  import Seqs
  import opened Papers

  datatype ScoreStats = ScoreStats(
    avgScore: real, maxScore: real, minScore: real, excellentCount: nat, goodCount: nat)

  predicate IsExcellent(s: real) { s >= 0.9 }

  predicate IsGood(s: real) { s >= 0.7 && s < 0.9 }

  /**
   * `getScoreStats` over the scores (missing as 0) of the papers shown; the footer is only
   * rendered for a non-empty list. The average is the sum over the count and lies between the
   * extremes, which bound every score and are scores themselves; the excellent and good counts
   * never overlap.
   */
  function GetScoreStats(papers: seq<Paper>): (st: ScoreStats)
    requires papers != []
    ensures st.avgScore * (|papers| as real) == Sum(Scores(papers))
    ensures st.minScore <= st.avgScore <= st.maxScore
    ensures forall i :: 0 <= i < |papers| ==> st.minScore <= ScoreOrZero(papers[i]) <= st.maxScore
    ensures st.maxScore in Scores(papers) && st.minScore in Scores(papers)
  {
    var scores := Scores(papers);
    var avg := Mean(scores);
    MeanOfScores(papers);
    MaxMinSpec(scores);
    ScoreStats(avg, Max(scores), Min(scores),
               |Seqs.Filter(scores, IsExcellent)|, |Seqs.Filter(scores, IsGood)|)
  }

  /** The mean score times the number of papers is the sum of the scores. */
  lemma MeanOfScores(papers: seq<Paper>)
    requires papers != []
    ensures Mean(Scores(papers)) * (|papers| as real) == Sum(Scores(papers))
  {
    assert |Scores(papers)| == |papers|;
  }

  /** Counting the excellent scores counts the papers scoring at least 0.9 (missing as 0). */
  lemma ExcellentCount(papers: seq<Paper>)
    ensures |Seqs.Filter(Scores(papers), IsExcellent)| == |set i | 0 <= i < |papers| && IsExcellent(ScoreOrZero(papers[i]))|
  {
    var scores := Scores(papers);
    Seqs.FilterLength(scores, IsExcellent);
    var byPaper := set i | 0 <= i < |papers| && IsExcellent(ScoreOrZero(papers[i]));
    forall i ensures i in Seqs.Positions(scores, IsExcellent) <==> i in byPaper {
      if 0 <= i < |papers| {
        assert scores[i] == ScoreOrZero(papers[i]);
      }
    }
    assert Seqs.Positions(scores, IsExcellent) == byPaper;
  }

  /** Counting the good scores counts the papers scoring in [0.7, 0.9) (missing as 0). */
  lemma GoodCount(papers: seq<Paper>)
    ensures |Seqs.Filter(Scores(papers), IsGood)| == |set i | 0 <= i < |papers| && IsGood(ScoreOrZero(papers[i]))|
  {
    var scores := Scores(papers);
    Seqs.FilterLength(scores, IsGood);
    var byPaper := set i | 0 <= i < |papers| && IsGood(ScoreOrZero(papers[i]));
    forall i ensures i in Seqs.Positions(scores, IsGood) <==> i in byPaper {
      if 0 <= i < |papers| {
        assert scores[i] == ScoreOrZero(papers[i]);
      }
    }
    assert Seqs.Positions(scores, IsGood) == byPaper;
  }

  /**
   * The excellent count is the number of papers scoring at least 0.9, the good count the
   * number scoring in [0.7, 0.9) (missing as 0); no paper is counted in both, so together
   * they count the papers scoring at least 0.7.
   */
  lemma ScoreCountsSpec(papers: seq<Paper>)
    requires papers != []
    ensures var st := GetScoreStats(papers);
      && (forall i :: 0 <= i < |Seqs.Filter(Scores(papers), IsExcellent)| ==> IsExcellent(Seqs.Filter(Scores(papers), IsExcellent)[i]))
      && st.excellentCount == |set i | 0 <= i < |papers| && IsExcellent(ScoreOrZero(papers[i]))|
      && st.goodCount == |set i | 0 <= i < |papers| && IsGood(ScoreOrZero(papers[i]))|
      && st.excellentCount + st.goodCount == |set i | 0 <= i < |papers| && ScoreOrZero(papers[i]) >= 0.7|
      && st.excellentCount + st.goodCount <= |papers|
  {
    var st := GetScoreStats(papers);
    var scores := Scores(papers);
    assert st.excellentCount == |Seqs.Filter(scores, IsExcellent)|;
    assert st.goodCount == |Seqs.Filter(scores, IsGood)|;
    Seqs.FilterDisjoint(scores, IsExcellent, IsGood);
    Seqs.FilterSpec(scores, IsExcellent);
    ExcellentCount(papers);
    GoodCount(papers);
    GoodOrExcellent(papers);
  }

  /** Scoring at least 0.7 is being excellent or good, never both. */
  lemma GoodOrExcellent(papers: seq<Paper>)
    ensures |set i | 0 <= i < |papers| && IsExcellent(ScoreOrZero(papers[i]))|
          + |set i | 0 <= i < |papers| && IsGood(ScoreOrZero(papers[i]))|
         == |set i | 0 <= i < |papers| && ScoreOrZero(papers[i]) >= 0.7|
  {
    var excellent := set i | 0 <= i < |papers| && IsExcellent(ScoreOrZero(papers[i]));
    var good := set i | 0 <= i < |papers| && IsGood(ScoreOrZero(papers[i]));
    var atLeast := set i | 0 <= i < |papers| && ScoreOrZero(papers[i]) >= 0.7;
    assert atLeast == excellent + good;
    assert excellent * good == {};
  }

  /** A paper scoring at least 0.8 (missing as 0). */
  predicate IsBestMatch(p: Paper) {
    ScoreOrZero(p) >= 0.8
  }

  /** `papers.some(isBestMatch)`: whether the cite button is shown. */
  predicate HasBestMatches(papers: seq<Paper>) {
    exists i :: 0 <= i < |papers| && IsBestMatch(papers[i])
  }

  /** The papers `citeBestMatches` cites, in order: the first three best matches. */
  function BestMatches(papers: seq<Paper>): seq<Paper> {
    var best := Seqs.Filter(papers, IsBestMatch);
    if |best| <= 3 then best else best[..3]
  }

  /**
   * The papers cited are the first (at most three) best matches, in list order: a prefix of
   * the best matches and a subsequence of the list; fewer than three only when no other best
   * match is left out. The badge shows how many, and the button is there
   * exactly when that is non-zero.
   */
  lemma BestMatchesSpec(papers: seq<Paper>)
    ensures var cited := BestMatches(papers); var best := Seqs.Filter(papers, IsBestMatch);
      && |cited| == (if |best| < 3 then |best| else 3)
      && (forall p :: p in cited ==> p in papers && IsBestMatch(p))
      && (|cited| < 3 ==> forall p :: p in papers && IsBestMatch(p) ==> p in cited)
      && (HasBestMatches(papers) <==> |cited| > 0)
      && cited == best[..|cited|]
      && Seqs.IsSubsequence(cited, papers)
  {
    var best := Seqs.Filter(papers, IsBestMatch);
    Seqs.FilterSpec(papers, IsBestMatch);
    Seqs.FilterEmpty(papers, IsBestMatch);
    BestMatchesInOrder(papers);
    var cited := BestMatches(papers);
    forall p | p in cited ensures p in papers && IsBestMatch(p) {
      assert p in best;
    }
  }

  /** The papers cited lead the best matches and keep the list's order. */
  lemma BestMatchesInOrder(papers: seq<Paper>)
    ensures var cited := BestMatches(papers); var best := Seqs.Filter(papers, IsBestMatch);
      && cited == best[..|cited|]
      && Seqs.IsSubsequence(cited, papers)
  {
    var best := Seqs.Filter(papers, IsBestMatch);
    var cited := BestMatches(papers);
    Seqs.FilterExact(papers, IsBestMatch);
    assert cited == best[..|cited|];
    Seqs.SubsequencePrefix(best, papers, |cited|);
  }
}

=== FILE: paper_actions.dfy ===
/**
 * The card's actions: the BibTeX entry copied to the clipboard and the links it opens.
 */
module PaperActions {
  import opened Wrappers
  import opened Strings
  import opened Papers

  /** `authors.split(',')[0].trim().split(' ').pop()`: the first author's last word (no default here). */
  function FirstAuthorWord(authors: string): (w: string)
    ensures ' ' !in w
  {
    LastPiece(FirstAuthor(authors), ' ')
  }

  /** The citation key: the first author's last word, the year, then the id with every `.` removed. */
  function BibKey(p: Paper, year: int): (k: string)
    ensures var w := FirstAuthorWord(p.authors); var y := IntToString(year);
      && |k| == |w| + |y| + |RemoveAll(p.id, '.')|
      && k[..|w|] == w && k[|w|..|w| + |y|] == y && '.' !in k[|w| + |y|..]
      && k[|w| + |y|..] == RemoveAll(p.id, '.')
  {
    var w := FirstAuthorWord(p.authors);
    var y := IntToString(year);
    var k := w + y + RemoveAll(p.id, '.');
    assert k[|w| + |y|..] == RemoveAll(p.id, '.');
    k
  }

  /** The `doi={...},` field, empty when the paper has no DOI. */
  function DoiField(p: Paper): (f: string)
    ensures f == [] <==> p.doi.None? || p.doi.value == []
  {
    if p.doi.Some? && p.doi.value != [] then DoiOpen + p.doi.value + FieldClose else []
  }

  const ArticleOpen: string := "@article{"
  const TitleOpen: string := "  title={"
  const AuthorOpen: string := "  author={"
  const JournalOpen: string := "  journal={arXiv preprint arXiv:"
  const YearOpen: string := "  year={"
  const Indent: string := "  "
  const UrlOpen: string := "  url={"
  const DoiOpen: string := "doi={"
  const FieldClose: string := "},"

  /** The entry's lines. */
  function BibLines(p: Paper, year: int): seq<string> {
    EntryLines(BibKey(p, year), IntToString(year), p)
  }

  /** The entry's lines around a given key and year. */
  function EntryLines(key: string, y: string, p: Paper): seq<string> {
    [ ArticleOpen + key + ",",
      TitleOpen + p.title + FieldClose,
      AuthorOpen + p.authors + FieldClose,
      JournalOpen + p.id + FieldClose,
      YearOpen + y + FieldClose,
      Indent + DoiField(p),
      UrlOpen + ArxivAbs + p.id + "}",
      "}" ]
  }

  /**
   * `generateBibTeX`: whatever the fields hold, the entry opens with `@article{`, its key and a
   * comma, and closes with `}`.
   */
  function GenerateBibTeX(p: Paper, year: int): (b: string)
    ensures var head := ArticleOpen + BibKey(p, year) + ",";
      && |head| < |b| && b[..|head|] == head && b[|b| - 1] == '}'
  {
    var lines := BibLines(p, year);
    JoinEnds(lines, "\n");
    var b := Join(lines, "\n");
    assert b[|b| - 1] == b[|b| - 1..][0];
    b
  }

  /** When no field holds a line break, the entry splits back into exactly its eight lines. */
  lemma BibTeXLines(p: Paper, year: int)
    requires '\n' !in p.title && '\n' !in p.authors && '\n' !in p.id
    requires p.doi.Some? ==> '\n' !in p.doi.value
    ensures SplitOn(GenerateBibTeX(p, year), '\n') == BibLines(p, year)
  {
    KeyOnOneLine(p, year);
    var y := IntToString(year);
    assert '\n' !in y;
    EntryOnSeparateLines(BibKey(p, year), y, p);
  }

  /**
   * The sixth line is the DOI field exactly when there is a DOI (only its indent otherwise);
   * the journal and url lines embed the id as it is.
   */
  lemma EntryLinesSpec(key: string, y: string, p: Paper)
    ensures var lines := EntryLines(key, y, p);
      && |lines| == 8
      && (p.doi.Some? && p.doi.value != [] ==> lines[5] == Indent + DoiOpen + p.doi.value + FieldClose)
      && (p.doi.None? || p.doi.value == [] ==> lines[5] == Indent)
      && lines[3] == JournalOpen + p.id + FieldClose
      && lines[6] == UrlOpen + AbsUrl(p.id) + "}"
  {
    var lines := EntryLines(key, y, p);
    assert |lines| == 8 && lines[3] == JournalOpen + p.id + FieldClose && lines[5] == Indent + DoiField(p);
    assert lines[6] == UrlOpen + ArxivAbs + p.id + "}";
    assert ArxivAbs + p.id == AbsUrl(p.id);
  }

  lemma EntryOnSeparateLines(key: string, y: string, p: Paper)
    requires '\n' !in key && '\n' !in y
    requires '\n' !in p.title && '\n' !in p.authors && '\n' !in p.id
    requires p.doi.Some? ==> '\n' !in p.doi.value
    ensures SplitOn(Join(EntryLines(key, y, p), "\n"), '\n') == EntryLines(key, y, p)
  {
    LiteralsOnOneLine();
    var lines := EntryLines(key, y, p);
    assert '\n' !in DoiField(p);
    assert forall i :: 0 <= i < |lines| ==> '\n' !in lines[i];
    SplitOnJoin(lines, '\n');
  }

  lemma LiteralsOnOneLine()
    ensures '\n' !in ArticleOpen && '\n' !in TitleOpen && '\n' !in AuthorOpen && '\n' !in JournalOpen
    ensures '\n' !in YearOpen && '\n' !in Indent && '\n' !in UrlOpen && '\n' !in FieldClose && '\n' !in DoiOpen
    ensures '\n' !in ArxivAbs
  {
  }

  /** The key holds no line break when the authors and the id hold none. */
  lemma KeyOnOneLine(p: Paper, year: int)
    requires '\n' !in p.authors && '\n' !in p.id
    ensures '\n' !in BibKey(p, year)
  {
    var first := SplitOn(p.authors, ',')[0];
    SplitOnKeeps(p.authors, ',', 0, '\n');
    TrimKeeps(first, '\n');
    LastPieceKeeps(FirstAuthor(p.authors), ' ', '\n');
    RemoveAllKeeps(p.id, '.', '\n');
    var k := BibKey(p, year);
    assert k == FirstAuthorWord(p.authors) + IntToString(year) + RemoveAll(p.id, '.');
  }
}

=== FILE: paper_card.dfy ===
/**
 * One result card: the author line and count, the relative date, the category guessed from
 * the arXiv id, and the collapsible abstract.
 */
module PaperCard {
  import opened Strings
  import opened Papers

  // ---------------------------------------------------------------------------------------
  // Authors

  /**
   * `formatAuthors` on the comma-separated author string: more than three comma-separated
   * names end the line in ` et al.`.
   */
  function FormatAuthors(authors: string): (r: string)
    ensures |SplitOn(authors, ',')| > 3 ==> |r| >= |EtAl| && r[|r| - |EtAl|..] == EtAl
  {
    var pieces := AuthorPieces(authors);
    var r := FormatAuthorList(pieces);
    assert |pieces| > 3 ==> r == Join(pieces[..3], ", ") + EtAl;
    r
  }

  /** `authors.split(',').length`: one more than the number of commas. */
  function AuthorCount(authors: string): (n: nat)
    ensures n == 1 + Count(authors, ',')
  {
    SplitOnSpec(authors, ',');
    |SplitOn(authors, ',')|
  }

  /** An author string written as trimmed, comma-free names joined by `, ` shows and counts those names. */
  lemma FormatAuthorsOfJoin(names: seq<string>)
    requires names != []
    requires forall i :: 0 <= i < |names| ==> IsTrimmed(names[i]) && ',' !in names[i]
    ensures FormatAuthors(Join(names, ", ")) == FormatAuthorList(names)
    ensures AuthorCount(Join(names, ", ")) == |names|
  {
    AuthorPiecesOfJoin(names);
  }

  // ---------------------------------------------------------------------------------------
  // Relative date

  const DayMs: nat := 1000 * 60 * 60 * 24

  /** `Math.ceil(a / b)` for naturals. */
  function CeilDiv(a: nat, b: nat): (q: nat)
    requires b > 0
    ensures q * b >= a && (q == 0 || (q - 1) * b < a)
  {
    (a + b - 1) / b
  }

  /** Whole days (rounded up) between the clock reading and the paper's date, both in milliseconds. */
  function DiffDays(nowMs: int, dateMs: int): (d: nat)
    ensures var diff := if nowMs >= dateMs then nowMs - dateMs else dateMs - nowMs;
      d * DayMs >= diff && (d == 0 || (d - 1) * DayMs < diff)
  {
    CeilDiv(if nowMs >= dateMs then nowMs - dateMs else dateMs - nowMs, DayMs)
  }

  datatype Ago = Yesterday | DaysAgo(n: nat) | WeeksAgo(n: nat) | MonthsAgo(n: nat) | YearsAgo(n: nat)

  /**
   * `getRelativeTime`'s buckets: one day is yesterday; under a week counts days (zero
   * included); under a month, weeks; under a year, months; then years, each rounded up.
   */
  function RelativeTime(days: nat): (a: Ago)
    ensures a == Yesterday <==> days == 1
    ensures a.DaysAgo? <==> days != 1 && days < 7
    ensures a.DaysAgo? ==> a.n == days
    ensures a.WeeksAgo? <==> 7 <= days < 30
    ensures a.WeeksAgo? ==> 1 <= a.n <= 5 && (a.n - 1) * 7 < days <= a.n * 7
    ensures a.MonthsAgo? <==> 30 <= days < 365
    ensures a.MonthsAgo? ==> 1 <= a.n <= 13 && (a.n - 1) * 30 < days <= a.n * 30
    ensures a.YearsAgo? <==> days >= 365
    ensures a.YearsAgo? ==> 1 <= a.n && (a.n - 1) * 365 < days <= a.n * 365
  {
    if days == 1 then Yesterday
    else if days < 7 then DaysAgo(days)
    else if days < 30 then WeeksAgo(CeilDiv(days, 7))
    else if days < 365 then MonthsAgo(CeilDiv(days, 30))
    else YearsAgo(CeilDiv(days, 365))
  }

  /**
   * The text of a bucket: `Yesterday`, or the count in decimal digits followed by its unit and
   * ` ago`.
   */
  function AgoText(a: Ago): (r: string)
    ensures a.Yesterday? ==> r == "Yesterday"
    ensures !a.Yesterday? ==> var d := NatToString(a.n);
      && |d| + 4 <= |r| && r[..|d|] == d && '0' <= r[0] <= '9' && r[|r| - 4..] == " ago"
  {
    match a
    case Yesterday => "Yesterday"
    case DaysAgo(n) => NatToString(n) + " days ago"
    case WeeksAgo(n) => NatToString(n) + " weeks ago"
    case MonthsAgo(n) => NatToString(n) + " months ago"
    case YearsAgo(n) => NatToString(n) + " years ago"
  }

  /** Older papers never show a smaller number in the same unit. */
  lemma RelativeTimeMonotone(d1: nat, d2: nat)
    requires d1 <= d2
    ensures RelativeTime(d1).WeeksAgo? && RelativeTime(d2).WeeksAgo? ==> RelativeTime(d1).n <= RelativeTime(d2).n
    ensures RelativeTime(d1).MonthsAgo? && RelativeTime(d2).MonthsAgo? ==> RelativeTime(d1).n <= RelativeTime(d2).n
    ensures RelativeTime(d1).YearsAgo? && RelativeTime(d2).YearsAgo? ==> RelativeTime(d1).n <= RelativeTime(d2).n
  {
  }

  // ---------------------------------------------------------------------------------------
  // Category from the id

  predicate IsDigit(c: char) {
    '0' <= c <= '9'
  }

  /** `/^(\d{4})\.(\d{5})$/`: four digits, a dot, five digits and nothing else. */
  predicate IsNewStyleId(id: string) {
    && |id| == 10 && id[4] == '.'
    && (forall k :: 0 <= k < 4 ==> IsDigit(id[k]))
    && (forall k :: 5 <= k < 10 ==> IsDigit(id[k]))
  }

  const DefaultCategory: string := "cs.AI"

  /** The table from the first two digits after the dot to a category name. */
  const CategoryTable: map<string, string> := map[
    "01" := "cs.AI", "02" := "cs.CL", "03" := "cs.CV", "04" := "cs.LG", "05" := "stat.ML",
    "06" := "math.ST", "07" := "cs.NE", "08" := "cs.IR", "09" := "cs.HC", "10" := "cs.RO"]

  /**
   * `extractCategory`: for a new-style id whose first two digits after the dot are in the
   * table, that entry; for anything else `cs.AI`.
   */
  function ExtractCategory(id: string): (c: string)
    ensures c in CategoryTable.Values
    ensures !IsNewStyleId(id) ==> c == DefaultCategory
    ensures IsNewStyleId(id) && id[5..7] in CategoryTable ==> c == CategoryTable[id[5..7]]
    ensures IsNewStyleId(id) && id[5..7] !in CategoryTable ==> c == DefaultCategory
  {
    assert CategoryTable["01"] == DefaultCategory;
    if IsNewStyleId(id) && id[5..7] in CategoryTable then CategoryTable[id[5..7]] else DefaultCategory
  }

  /** Two ids from the sample papers, one the table names and one it does not, and an old-style id. */
  lemma ExtractCategoryExamples()
    ensures ExtractCategory("1706.03762") == "cs.CV"
    ensures ExtractCategory("2005.14165") == DefaultCategory
    ensures ExtractCategory("hep-th/9901001") == DefaultCategory
  {
    assert "1706.03762"[5..7] == "03";
    assert "2005.14165"[5..7] == "14";
  }

  // ---------------------------------------------------------------------------------------
  // Abstract

  /** The abstract as the card shows it: in full when expanded, else the short preview. */
  function ShownAbstract(text: string, expanded: bool): (r: string)
    ensures expanded ==> r == text
    ensures !expanded ==> r == ShortAbstract(text)
  {
    if expanded then text else ShortAbstract(text)
  }

  /** The read-more button is there exactly when the abstract is longer than the preview. */
  predicate ShowsReadMore(text: string) {
    |text| > AbstractPreview
  }

  /** Whenever the card shows less than the whole abstract, the read-more button is there. */
  lemma CutOnlyWithReadMore(text: string, expanded: bool)
    ensures ShownAbstract(text, expanded) != text ==> !expanded && ShowsReadMore(text)
    ensures !expanded && |text| > AbstractPreview + 3 ==> ShownAbstract(text, expanded) != text
  {
    if !expanded && |text| > AbstractPreview + 3 {
      assert |ShownAbstract(text, expanded)| < |text|;
    }
  }

  /** The DOI link, shown only for a non-empty DOI. */
  function DoiLink(p: Paper): (r: string)
    ensures r != [] <==> p.doi.Some? && p.doi.value != []
  {
    if p.doi.Some? && p.doi.value != [] then "https://doi.org/" + p.doi.value else []
  }
}

=== FILE: papers.dfy ===
/**
 * The paper record the reference components share (`ArxivPaper`), with the helpers several of
 * them use: the score with its default, score totals, the author list and the abstract preview.
 */
module Papers {
  import opened Wrappers
  import opened Strings

  datatype Paper = Paper(
    id: string, title: string, authors: string, abstractText: string, date: string,
    doi: Option<string>, score: Option<real>)

  /** `paper.score || 0`: a missing (or zero) score counts as 0. */
  function ScoreOrZero(p: Paper): real {
    match p.score
    case Some(v) => v
    case None => 0.0
  }

  // ---------------------------------------------------------------------------------------
  // Score totals

  /** `papers.map(p => p.score || 0)`. */
  function Scores(ps: seq<Paper>): (r: seq<real>)
    ensures |r| == |ps| && forall i :: 0 <= i < |ps| ==> r[i] == ScoreOrZero(ps[i])
  {
    seq(|ps|, i requires 0 <= i < |ps| => ScoreOrZero(ps[i]))
  }

  /** `reduce((sum, x) => sum + x, 0)`. */
  function Sum(xs: seq<real>): real {
    if xs == [] then 0.0 else xs[0] + Sum(xs[1..])
  }

  /** `Math.max(...xs)` of a non-empty list. */
  function Max(xs: seq<real>): real
    requires xs != []
  {
    if |xs| == 1 then xs[0] else if xs[0] >= Max(xs[1..]) then xs[0] else Max(xs[1..])
  }

  /** `Math.min(...xs)` of a non-empty list. */
  function Min(xs: seq<real>): real
    requires xs != []
  {
    if |xs| == 1 then xs[0] else if xs[0] <= Min(xs[1..]) then xs[0] else Min(xs[1..])
  }

  /** The maximum and minimum are elements of the list and bound every element. */
  lemma {:induction false} MaxMinSpec(xs: seq<real>)
    requires xs != []
    ensures Max(xs) in xs && Min(xs) in xs
    ensures forall i :: 0 <= i < |xs| ==> Min(xs) <= xs[i] <= Max(xs)
  {
    if |xs| > 1 {
      MaxMinSpec(xs[1..]);
      forall i | 1 <= i < |xs| ensures Min(xs) <= xs[i] <= Max(xs) {
        assert xs[i] == xs[1..][i - 1];
      }
    }
  }

  /** The sum lies between the length times the minimum and the length times the maximum. */
  lemma SumBetween(xs: seq<real>)
    requires xs != []
    ensures Min(xs) * (|xs| as real) <= Sum(xs) <= Max(xs) * (|xs| as real)
  {
    SumAboveMin(xs);
    SumBelowMax(xs);
  }

  lemma {:induction false} SumAboveMin(xs: seq<real>)
    requires xs != []
    ensures Min(xs) * (|xs| as real) <= Sum(xs)
  {
    if |xs| > 1 {
      var rest := xs[1..];
      var n := |rest| as real;
      var lo := Min(xs);
      SumAboveMin(rest);
      assert lo <= xs[0] && lo <= Min(rest);
      ScaleMono(lo, Min(rest), n);
      assert |xs| as real == n + 1.0;
      Distribute(lo, n);
    }
  }

  lemma {:induction false} SumBelowMax(xs: seq<real>)
    requires xs != []
    ensures Sum(xs) <= Max(xs) * (|xs| as real)
  {
    if |xs| > 1 {
      var rest := xs[1..];
      var n := |rest| as real;
      var hi := Max(xs);
      SumBelowMax(rest);
      assert xs[0] <= hi && Max(rest) <= hi;
      ScaleMono(Max(rest), hi, n);
      assert |xs| as real == n + 1.0;
      Distribute(hi, n);
    }
  }

  lemma Distribute(a: real, n: real)
    ensures a * (n + 1.0) == a + a * n
  {
  }

  lemma ScaleMono(a: real, b: real, n: real)
    requires a <= b && n >= 0.0
    ensures a * n <= b * n
  {
    assert (b - a) * n >= 0.0;
  }

  /** The average of a non-empty list lies between its minimum and its maximum. */
  lemma AverageBetween(xs: seq<real>)
    requires xs != []
    ensures Min(xs) <= Sum(xs) / (|xs| as real) <= Max(xs)
  {
    var n := |xs| as real;
    SumBetween(xs);
    assert Sum(xs) / n * n == Sum(xs);
    if Sum(xs) / n < Min(xs) {
      assert Sum(xs) / n * n < Min(xs) * n;
    }
    if Sum(xs) / n > Max(xs) {
      assert Sum(xs) / n * n > Max(xs) * n;
    }
  }

  /** `sum / length` of a non-empty list: times the length it gives the sum back. */
  function Mean(xs: seq<real>): (r: real)
    requires xs != []
    ensures r * (|xs| as real) == Sum(xs)
    ensures Min(xs) <= r <= Max(xs)
  {
    var n := |xs| as real;
    AverageBetween(xs);
    assert Sum(xs) / n * n == Sum(xs);
    Sum(xs) / n
  }

  // ---------------------------------------------------------------------------------------
  // Authors

  /** `authors.split(',').map(a => a.trim())`. */
  function AuthorPieces(authors: string): (r: seq<string>)
    ensures |r| == |SplitOn(authors, ',')| >= 1
  {
    var parts := SplitOn(authors, ',');
    seq(|parts|, i requires 0 <= i < |parts| => Trim(parts[i]))
  }

  /** `authors.split(',')[0].trim()`. */
  function FirstAuthor(authors: string): string {
    AuthorPieces(authors)[0]
  }

  /** There is one piece per comma plus one, and each is trimmed and comma-free. */
  lemma AuthorPiecesSpec(authors: string)
    ensures |AuthorPieces(authors)| == 1 + Count(authors, ',')
    ensures forall i :: 0 <= i < |AuthorPieces(authors)| ==>
      IsTrimmed(AuthorPieces(authors)[i]) && ',' !in AuthorPieces(authors)[i]
  {
    SplitOnSpec(authors, ',');
    forall i | 0 <= i < |AuthorPieces(authors)|
      ensures IsTrimmed(AuthorPieces(authors)[i]) && ',' !in AuthorPieces(authors)[i]
    {
      var part := SplitOn(authors, ',')[i];
      TrimSpec(part);
      TrimKeeps(part, ',');
    }
  }

  /**
   * An author string written the usual way, trimmed names without commas joined by `, `, splits
   * back into exactly those names.
   */
  lemma AuthorPiecesOfJoin(names: seq<string>)
    requires names != []
    requires forall i :: 0 <= i < |names| ==> IsTrimmed(names[i]) && ',' !in names[i]
    ensures AuthorPieces(Join(names, ", ")) == names
  {
    SplitCommaSpace(names);
    var spaced := [names[0]] + LeadingSpace(names[1..]);
    var pieces := AuthorPieces(Join(names, ", "));
    forall i | 0 <= i < |names| ensures pieces[i] == names[i] {
      assert pieces[i] == Trim(spaced[i]);
      TrimSpaced(names, i);
    }
  }

  /** Each piece of the spaced split trims back to its name. */
  lemma TrimSpaced(names: seq<string>, i: nat)
    requires i < |names|
    requires forall k :: 0 <= k < |names| ==> IsTrimmed(names[k])
    ensures Trim(([names[0]] + LeadingSpace(names[1..]))[i]) == names[i]
  {
    if i > 0 {
      assert ([names[0]] + LeadingSpace(names[1..]))[i] == LeadingSpace(names[1..])[i - 1];
      TrimLeadingSpace(names[i]);
    } else {
      TrimOfTrimmed(names[i]);
    }
  }

  /** Splitting `, `-joined comma-free names on `,` leaves a space in front of all but the first. */
  lemma SplitCommaSpace(names: seq<string>)
    requires names != []
    requires forall i :: 0 <= i < |names| ==> ',' !in names[i]
    ensures SplitOn(Join(names, ", "), ',') == [names[0]] + LeadingSpace(names[1..])
  {
    assert ", " == [',', ' '];
    var spaced := SplitSpaced(names, ',');
  }

  /** A space in front of a trimmed name is trimmed away. */
  lemma TrimLeadingSpace(name: string)
    requires IsTrimmed(name)
    ensures Trim(" " + name) == name
  {
    assert (" " + name)[1..] == name;
    TrimStartOfTrimmed(name);
    TrimOfTrimmed(name);
  }

  /** The names shown on a card: up to three joined by `, `, then ` et al.` when there are more. */
  function FormatAuthorList(names: seq<string>): string {
    if |names| <= 3 then Join(names, ", ") else Join(names[..3], ", ") + EtAl
  }

  const EtAl: string := " et al."

  /**
   * The author line names every author of a list of at most three, and otherwise the first
   * three followed by ` et al.`: read back by splitting on commas, it gives those names.
   */
  lemma FormatAuthorListShows(names: seq<string>)
    requires names != []
    requires forall i :: 0 <= i < |names| ==> IsTrimmed(names[i]) && ',' !in names[i]
    ensures var r := FormatAuthorList(names);
      && (|names| <= 3 ==> AuthorPieces(r) == names)
      && (|names| > 3 ==> |r| >= |EtAl| && r[|r| - |EtAl|..] == EtAl
                          && AuthorPieces(r[..|r| - |EtAl|]) == names[..3])
  {
    var r := FormatAuthorList(names);
    if |names| <= 3 {
      AuthorPiecesOfJoin(names);
    } else {
      var j := Join(names[..3], ", ");
      assert r == j + EtAl;
      assert r[..|r| - |EtAl|] == j;
      AuthorPiecesOfJoin(names[..3]);
    }
  }

  // ---------------------------------------------------------------------------------------
  // Links

  const ArxivAbs: string := "https://arxiv.org/abs/"
  const ArxivPdf: string := "https://arxiv.org/pdf/"
  const PdfSuffix: string := ".pdf"

  /** The paper's arXiv abstract page. */
  function AbsUrl(id: string): (u: string)
    ensures |u| == |ArxivAbs| + |id| && u[..|ArxivAbs|] == ArxivAbs && u[|ArxivAbs|..] == id
  {
    ArxivAbs + id
  }

  /** The paper's PDF. */
  function PdfUrl(id: string): (u: string)
    ensures |u| == |ArxivPdf| + |id| + |PdfSuffix|
    ensures u[..|ArxivPdf|] == ArxivPdf && u[|ArxivPdf|..|u| - |PdfSuffix|] == id && u[|u| - |PdfSuffix|..] == PdfSuffix
  {
    ArxivPdf + id + PdfSuffix
  }

  /** Different ids give different links: each link names exactly one paper. */
  lemma LinksInjective(id1: string, id2: string)
    ensures AbsUrl(id1) == AbsUrl(id2) ==> id1 == id2
    ensures PdfUrl(id1) == PdfUrl(id2) ==> id1 == id2
  {
    if PdfUrl(id1) == PdfUrl(id2) {
      assert PdfUrl(id1)[|ArxivPdf|..|PdfUrl(id1)| - |PdfSuffix|] == id1;
    }
  }

  // ---------------------------------------------------------------------------------------
  // Abstract preview

  const AbstractPreview: nat := 200

  /** A collapsed abstract: its first 200 characters and `...` when longer, else all of it. */
  function ShortAbstract(text: string): (r: string)
    ensures |text| <= AbstractPreview ==> r == text
    ensures |text| > AbstractPreview ==>
      |r| == AbstractPreview + 3 && r[..AbstractPreview] == text[..AbstractPreview] && r[AbstractPreview..] == "..."
  {
    if |text| > AbstractPreview then text[..AbstractPreview] + "..." else text
  }

  /** The preview never exceeds 203 characters and starts like the abstract. */
  lemma ShortAbstractBounded(text: string)
    ensures |ShortAbstract(text)| <= AbstractPreview + 3
    ensures |ShortAbstract(text)| <= |text| + 3
    ensures var k := if |text| < AbstractPreview then |text| else AbstractPreview;
      ShortAbstract(text)[..k] == text[..k]
  {
  }
}

=== FILE: references.dfy ===
/**
 * The references panel: it normalises search results (every missing field gets a default),
 * falls back to the sample papers when the search service is unavailable, sorts the list for
 * display, tracks which abstracts are expanded and shows the average score.
 */
module ReferencesPanelComponent {
  import opened Wrappers
  import opened Strings
  import Seqs
  import opened Papers

  // ---------------------------------------------------------------------------------------
  // Normalising search results

  /** A search result as the service returns it: any field may be missing. */
  datatype RawPaper = RawPaper(
    id: Option<string>, title: Option<string>, authors: Option<string>, abstractText: Option<string>,
    date: Option<string>, doi: Option<string>, score: Option<real>)

  const UnknownIdPrefix: string := "unknown-"
  const UntitledPaper: string := "Untitled Paper"
  const UnknownAuthors: string := "Unknown Authors"
  const NoAbstract: string := "No abstract available"

  /** `x || fallback` on a string: a missing or empty value is replaced. */
  function OrDefault(x: Option<string>, fallback: string): string {
    if x.Some? && x.value != [] then x.value else fallback
  }

  /** A value JavaScript treats as true: present and non-empty. */
  predicate Given(x: Option<string>) {
    x.Some? && x.value != []
  }

  /** The score given to the result at `index` when it has none: 1.0 less 0.05 per place. */
  function DefaultScore(index: nat): real {
    1.0 - (index as real) * 0.05
  }

  /**
   * One result with its defaults filled in (`now` stands for the current time as an ISO
   * string): each given field is kept, each missing one gets its default, and a missing or
   * zero score becomes the placed default.
   */
  function NormalisePaper(raw: RawPaper, index: nat, now: string): (p: Paper)
    ensures p.id != [] && p.title != [] && p.authors != [] && p.abstractText != []
    ensures Given(raw.id) ==> p.id == raw.id.value
    ensures !Given(raw.id) ==> p.id == UnknownIdPrefix + NatToString(index)
    ensures Given(raw.title) ==> p.title == raw.title.value
    ensures !Given(raw.title) ==> p.title == UntitledPaper
    ensures Given(raw.authors) ==> p.authors == raw.authors.value
    ensures !Given(raw.authors) ==> p.authors == UnknownAuthors
    ensures Given(raw.abstractText) ==> p.abstractText == raw.abstractText.value
    ensures !Given(raw.abstractText) ==> p.abstractText == NoAbstract
    ensures Given(raw.date) ==> p.date == raw.date.value
    ensures !Given(raw.date) ==> p.date == now
    ensures p.doi == (if Given(raw.doi) then raw.doi else None)
    ensures p.doi.Some? ==> p.doi.value != []
    ensures raw.score.Some? && raw.score.value != 0.0 ==> p.score == raw.score
    ensures raw.score.None? || raw.score.value == 0.0 ==> p.score == Some(DefaultScore(index))
  {
    Paper(
      OrDefault(raw.id, UnknownIdPrefix + NatToString(index)),
      OrDefault(raw.title, UntitledPaper),
      OrDefault(raw.authors, UnknownAuthors),
      OrDefault(raw.abstractText, NoAbstract),
      OrDefault(raw.date, now),
      if Given(raw.doi) then raw.doi else None,
      if raw.score.Some? && raw.score.value != 0.0 then raw.score else Some(DefaultScore(index)))
  }

  /** `data.map(normalise)`: one paper per result, in the same order. */
  function Normalise(raws: seq<RawPaper>, now: string): (ps: seq<Paper>)
    ensures |ps| == |raws|
    ensures forall i :: 0 <= i < |raws| ==> ps[i] == NormalisePaper(raws[i], i, now)
  {
    seq(|raws|, i requires 0 <= i < |raws| => NormalisePaper(raws[i], i, now))
  }

  /**
   * Results that came without an id get distinct ids, so they stay apart in the expanded set;
   * the placed default scores fall strictly with the position.
   */
  lemma NormaliseDefaults(raws: seq<RawPaper>, now: string, i: nat, j: nat)
    requires i < j < |raws|
    ensures !Given(raws[i].id) && !Given(raws[j].id) ==> Normalise(raws, now)[i].id != Normalise(raws, now)[j].id
    ensures DefaultScore(i) > DefaultScore(j)
  {
    var ps := Normalise(raws, now);
    if !Given(raws[i].id) && !Given(raws[j].id) && ps[i].id == ps[j].id {
      var a, b := NatToString(i), NatToString(j);
      assert UnknownIdPrefix + a == UnknownIdPrefix + b;
      assert a == (UnknownIdPrefix + a)[|UnknownIdPrefix|..];
      assert b == (UnknownIdPrefix + b)[|UnknownIdPrefix|..];
      NatToStringRoundTrip(i);
      NatToStringRoundTrip(j);
      assert false;
    }
  }

  // ---------------------------------------------------------------------------------------
  // The sample-paper fallback

  /** A sample paper matches when its title, abstract or authors contain the query, ignoring case. */
  predicate MatchesQuery(p: Paper, query: string) {
    || ContainsIgnoreCase(p.title, query)
    || ContainsIgnoreCase(p.abstractText, query)
    || ContainsIgnoreCase(p.authors, query)
  }

  /** The papers shown when the search fails: the matching samples, or all samples if none match. */
  function Fallback(samples: seq<Paper>, query: string): (r: seq<Paper>)
    ensures |r| <= |samples|
    ensures forall p :: p in r ==> p in samples
  {
    Seqs.FilterSpec(samples, (p: Paper) => MatchesQuery(p, query));
    var hits := Seqs.Filter(samples, (p: Paper) => MatchesQuery(p, query));
    if |hits| > 0 then hits else samples
  }

  /**
   * When some sample matches, exactly the matching samples are shown, in their order;
   * otherwise every sample is. The fallback is empty only without samples.
   */
  lemma FallbackSpec(samples: seq<Paper>, query: string)
    ensures Seqs.IsSubsequence(Fallback(samples, query), samples)
    ensures (exists p :: p in samples && MatchesQuery(p, query)) ==>
      && (forall p :: p in Fallback(samples, query) <==> p in samples && MatchesQuery(p, query))
      && multiset(Fallback(samples, query)) <= multiset(samples)
      && (forall p :: multiset(Fallback(samples, query))[p] == if MatchesQuery(p, query) then multiset(samples)[p] else 0)
    ensures (forall p :: p in samples ==> !MatchesQuery(p, query)) ==> Fallback(samples, query) == samples
    ensures Fallback(samples, query) == [] <==> samples == []
  {
    var m := (p: Paper) => MatchesQuery(p, query);
    Seqs.FilterSpec(samples, m);
    Seqs.FilterExact(samples, m);
    Seqs.SubsequenceOfSelf(samples);
  }

  /** The text of the notice shown with the samples: it ends with the query in quotes. */
  function FallbackNotice(query: string): (n: string)
    ensures var quoted := "\"" + query + "\"";
      |quoted| < |n| && n[|n| - |quoted|..] == quoted
  {
    var quoted := "\"" + query + "\"";
    var n := "API unavailable. Showing sample results for " + quoted;
    assert n[|n| - |quoted|..] == quoted;
    n
  }

  // ---------------------------------------------------------------------------------------
  // Sorting for display

  datatype SortOption = ByScore | ByDate | ByTitle

  /**
   * When `a` may stay before `b`: a higher score first (missing as 0), a later date first
   * (`time` reads a date string as milliseconds), or titles in the locale order `titleLe`.
   */
  function Precedes(sortBy: SortOption, time: string -> real, titleLe: (string, string) -> bool): (Paper, Paper) -> bool {
    match sortBy
    case ByScore => Seqs.Descending((p: Paper) => ScoreOrZero(p))
    case ByDate => Seqs.Descending((p: Paper) => time(p.date))
    case ByTitle => Seqs.ByString((p: Paper) => p.title, titleLe)
  }

  /**
   * `[...papers].sort(comparator)`: a stable sort by the chosen key. The numeric keys need
   * nothing of the caller: scores (missing as 0) and dates never increase along the list.
   */
  function SortedPapers(papers: seq<Paper>, sortBy: SortOption, time: string -> real,
                        titleLe: (string, string) -> bool): (r: seq<Paper>)
    ensures multiset(r) == multiset(papers) && |r| == |papers|
    ensures sortBy == ByScore ==> forall i, j :: 0 <= i < j < |r| ==> ScoreOrZero(r[i]) >= ScoreOrZero(r[j])
    ensures sortBy == ByDate ==> forall i, j :: 0 <= i < j < |r| ==> time(r[i].date) >= time(r[j].date)
  {
    var r := Seqs.SortBy(papers, Precedes(sortBy, time, titleLe));
    if sortBy == ByTitle then r
    else
      PrecedesTotal(sortBy, time, titleLe);
      Seqs.SortBySorted(papers, Precedes(sortBy, time, titleLe));
      r
  }

  /** The sorted list is ordered by the chosen key (given a total title order). */
  lemma SortedPapersSpec(papers: seq<Paper>, sortBy: SortOption, time: string -> real,
                         titleLe: (string, string) -> bool)
    requires sortBy == ByTitle ==> Seqs.TotalPreorder(titleLe)
    ensures var r := SortedPapers(papers, sortBy, time, titleLe);
      && (sortBy == ByScore ==> forall i, j :: 0 <= i < j < |r| ==> ScoreOrZero(r[i]) >= ScoreOrZero(r[j]))
      && (sortBy == ByDate ==> forall i, j :: 0 <= i < j < |r| ==> time(r[i].date) >= time(r[j].date))
      && (sortBy == ByTitle ==> forall i, j :: 0 <= i < j < |r| ==> titleLe(r[i].title, r[j].title))
  {
    PrecedesTotal(sortBy, time, titleLe);
    Seqs.SortBySorted(papers, Precedes(sortBy, time, titleLe));
  }

  /** Each comparator describes a total preorder, as a sort comparator must. */
  lemma PrecedesTotal(sortBy: SortOption, time: string -> real, titleLe: (string, string) -> bool)
    requires sortBy == ByTitle ==> Seqs.TotalPreorder(titleLe)
    ensures Seqs.TotalPreorder(Precedes(sortBy, time, titleLe))
  {
    match sortBy
    case ByScore => Seqs.DescendingTotal((p: Paper) => ScoreOrZero(p));
    case ByDate => Seqs.DescendingTotal((p: Paper) => time(p.date));
    case ByTitle => Seqs.ByStringTotal((p: Paper) => p.title, titleLe);
  }

  // ---------------------------------------------------------------------------------------
  // Expanded abstracts and the average score

  /** The expanded set after clicking an abstract's toggle. */
  function Toggled(expanded: set<string>, id: string): (r: set<string>)
    ensures id in r <==> id !in expanded
    ensures forall x :: x != id ==> (x in r <==> x in expanded)
  {
    if id in expanded then expanded - {id} else expanded + {id}
  }

  /** Clicking the same toggle twice restores the set. */
  lemma ToggledTwice(expanded: set<string>, id: string)
    ensures Toggled(Toggled(expanded, id), id) == expanded
  {
  }

  /** The average shown in the search bar: 0 for an empty list. */
  function AverageScore(papers: seq<Paper>): (r: real)
    ensures papers == [] ==> r == 0.0
    ensures papers != [] ==> Min(Scores(papers)) <= r <= Max(Scores(papers))
    ensures papers != [] ==> r * (|papers| as real) == Sum(Scores(papers))
  {
    if papers == [] then 0.0 else Mean(Scores(papers))
  }

  const RelatedPrefix: string := "related to "

  /** The related-papers search: `related to` and the title's first five words. */
  function RelatedQuery(title: string): (q: string)
    ensures |RelatedPrefix| <= |q| && q[..|RelatedPrefix|] == RelatedPrefix
  {
    var words := SplitOn(title, ' ');
    var q := RelatedPrefix + Join(if |words| <= 5 then words else words[..5], " ");
    assert q[..|RelatedPrefix|] == RelatedPrefix;
    q
  }

  /**
   * After `related to `, the query splits on spaces back into the title's words, at most the
   * first five.
   */
  lemma RelatedQueryWords(title: string)
    ensures var words := SplitOn(title, ' '); var q := RelatedQuery(title);
      SplitOn(q[|RelatedPrefix|..], ' ') == if |words| <= 5 then words else words[..5]
  {
    var words := SplitOn(title, ' ');
    var shown := if |words| <= 5 then words else words[..5];
    SplitOnSpec(title, ' ');
    assert forall i :: 0 <= i < |shown| ==> ' ' !in shown[i] by {
      forall i | 0 <= i < |shown| ensures ' ' !in shown[i] {
        assert shown[i] == words[i];
      }
    }
    var q := RelatedQuery(title);
    assert q[|RelatedPrefix|..] == Join(shown, [' ']);
    SplitOnJoin(shown, ' ');
  }

  /** A related-papers search is never blank, so it always runs. */
  lemma RelatedQueryRuns(title: string)
    ensures Trim(RelatedQuery(title)) != []
  {
    var q := RelatedQuery(title);
    assert q[0] == 'r';
    TrimStartOfTrimmedStart(q);
    TrimEndSpec(q);
  }

  lemma TrimStartOfTrimmedStart(s: string)
    requires s != [] && !IsSpace(s[0])
    ensures TrimStart(s) == s
  {
  }

  // ---------------------------------------------------------------------------------------
  // The panel's state

  /** What the search request gave: a list of results, or any failure (network, status, JSON). */
  datatype SearchResponse = Unavailable | Results(raws: seq<RawPaper>)

  class ReferencesPanel {
    /** The sample papers shown when the service is unavailable. */
    const samples: seq<Paper>
    var papers: seq<Paper>
    var isSearching: bool
    var sortBy: SortOption
    var error: Option<string>
    var lastSearchQuery: string
    var expandedAbstracts: set<string>

    constructor (samples: seq<Paper>)
      ensures this.samples == samples
      ensures papers == [] && !isSearching && sortBy == ByScore && error == None
      ensures lastSearchQuery == [] && expandedAbstracts == {}
    {
      this.samples := samples;
      papers, isSearching, sortBy, error, lastSearchQuery, expandedAbstracts := [], false, ByScore, None, [], {};
    }

    /**
     * `searchPapers`: a blank query does nothing. Otherwise the query is remembered, the
     * expanded set is cleared, and the papers become the normalised results or, on failure,
     * the sample fallback with a notice; searching is over in both cases.
     */
    method SearchPapers(query: string, response: SearchResponse, now: string)
      modifies this
      ensures Trim(query) == [] ==> unchanged(this)
      ensures Trim(query) != [] ==>
        && lastSearchQuery == query && expandedAbstracts == {} && !isSearching && sortBy == old(sortBy)
        && (response.Results? ==> papers == Normalise(response.raws, now) && error == None)
        && (response.Unavailable? ==> papers == Fallback(samples, query) && error == Some(FallbackNotice(query)))
    {
      if Trim(query) == [] {
        return;
      }
      isSearching := true;
      error := None;
      lastSearchQuery := query;
      expandedAbstracts := {};
      match response {
        case Results(raws) =>
          papers := Normalise(raws, now);
        case Unavailable =>
          papers := Fallback(samples, query);
          error := Some(FallbackNotice(query));
      }
      isSearching := false;
    }

    /** `toggleAbstract`: flips the one id's membership and nothing else. */
    method ToggleAbstract(id: string)
      modifies this
      ensures expandedAbstracts == Toggled(old(expandedAbstracts), id)
      ensures papers == old(papers) && isSearching == old(isSearching) && sortBy == old(sortBy)
      ensures error == old(error) && lastSearchQuery == old(lastSearchQuery)
    {
      expandedAbstracts := Toggled(expandedAbstracts, id);
    }

    /** The list as displayed: the papers, reordered by the chosen key. */
    function Displayed(time: string -> real, titleLe: (string, string) -> bool): (d: seq<Paper>)
      reads this
      ensures multiset(d) == multiset(papers)
      ensures sortBy == ByScore ==> forall i, j :: 0 <= i < j < |d| ==> ScoreOrZero(d[i]) >= ScoreOrZero(d[j])
      ensures sortBy == ByDate ==> forall i, j :: 0 <= i < j < |d| ==> time(d[i].date) >= time(d[j].date)
    {
      SortedPapers(papers, sortBy, time, titleLe)
    }
  }
}

=== FILE: score_badge.dfy ===
/**
 * The relevance tiers a score falls into: the badge's colour class and label, and the card's
 * colour class, all cut at 0.9, 0.8, 0.7 and 0.6.
 */
module ScoreBadge {

  datatype Tier = Low | Fair | Good | VeryGood | Excellent

  /** Tiers ranked from 0 (low) to 4 (excellent). */
  function Rank(t: Tier): nat {
    match t
    case Low => 0
    case Fair => 1
    case Good => 2
    case VeryGood => 3
    case Excellent => 4
  }

  /** How many of the four thresholds the score reaches. */
  function Reached(score: real): nat {
    (if score >= 0.6 then 1 else 0) + (if score >= 0.7 then 1 else 0)
      + (if score >= 0.8 then 1 else 0) + (if score >= 0.9 then 1 else 0)
  }

  /** The tier of a score: its rank is the number of thresholds it reaches. */
  function TierOf(score: real): (t: Tier)
    ensures Rank(t) == Reached(score)
  {
    if score >= 0.9 then Excellent
    else if score >= 0.8 then VeryGood
    else if score >= 0.7 then Good
    else if score >= 0.6 then Fair
    else Low
  }

  function ColorOf(t: Tier): string {
    match t
    case Excellent => "score-excellent"
    case VeryGood => "score-very-good"
    case Good => "score-good"
    case Fair => "score-fair"
    case Low => "score-low"
  }

  function LabelOf(t: Tier): string {
    match t
    case Excellent => "Excellent Match"
    case VeryGood => "Very Good Match"
    case Good => "Good Match"
    case Fair => "Fair Match"
    case Low => "Weak Match"
  }

  /** `getScoreColor`, as the badge and the card both write it. */
  function ScoreColor(score: real): (c: string)
    ensures c == ColorOf(TierOf(score))
  {
    if score >= 0.9 then "score-excellent"
    else if score >= 0.8 then "score-very-good"
    else if score >= 0.7 then "score-good"
    else if score >= 0.6 then "score-fair"
    else "score-low"
  }

  /** `getScoreLabel`. */
  function ScoreLabel(score: real): (l: string)
    ensures l == LabelOf(TierOf(score))
  {
    if score >= 0.9 then "Excellent Match"
    else if score >= 0.8 then "Very Good Match"
    else if score >= 0.7 then "Good Match"
    else if score >= 0.6 then "Fair Match"
    else "Weak Match"
  }

  /** Each tier has its own colour and its own label. */
  lemma TierNamesDistinct(t1: Tier, t2: Tier)
    ensures ColorOf(t1) == ColorOf(t2) <==> t1 == t2
    ensures LabelOf(t1) == LabelOf(t2) <==> t1 == t2
  {
  }

  /** The colour and the label always pick the same tier: two scores share one iff they share the other. */
  lemma ColorAndLabelAgree(s1: real, s2: real)
    ensures ScoreColor(s1) == ScoreColor(s2) <==> ScoreLabel(s1) == ScoreLabel(s2)
    ensures ScoreColor(s1) == ScoreColor(s2) <==> TierOf(s1) == TierOf(s2)
  {
    TierNamesDistinct(TierOf(s1), TierOf(s2));
  }

  /** A higher score never falls in a lower tier. */
  lemma TierMonotone(s1: real, s2: real)
    requires s1 <= s2
    ensures Rank(TierOf(s1)) <= Rank(TierOf(s2))
  {
  }
}

=== FILE: seqs.dfy ===
/**
 * The array operations the components use (`filter`, stable `sort`, de-duplication through a
 * `Set`), defined over sequences with the properties the callers rely on.
 */
module Seqs {

  /** `s.filter(p)`: the elements satisfying `p`, in their original order. */
  function Filter<T>(s: seq<T>, p: T -> bool): (r: seq<T>)
    ensures |r| <= |s|
  {
    if s == [] then [] else (if p(s[0]) then [s[0]] else []) + Filter(s[1..], p)
  }

  /** The filter keeps exactly the elements satisfying `p`, each at most as often as in `s`. */
  lemma {:induction false} FilterSpec<T(!new)>(s: seq<T>, p: T -> bool)
    ensures forall i :: 0 <= i < |Filter(s, p)| ==> p(Filter(s, p)[i])
    ensures forall x :: x in Filter(s, p) <==> x in s && p(x)
    ensures multiset(Filter(s, p)) <= multiset(s)
  {
    if s != [] {
      FilterSpec(s[1..], p);
      assert s == [s[0]] + s[1..];
    }
  }

  /** `a` is what is left of `s` after deleting some of its elements: the order of `s` is kept. */
  predicate IsSubsequence<T(==)>(a: seq<T>, s: seq<T>)
    decreases |s|
  {
    if a == [] then true
    else if s == [] then false
    else (a[0] == s[0] && IsSubsequence(a[1..], s[1..])) || IsSubsequence(a, s[1..])
  }

  /** Deleting nothing leaves a subsequence. */
  lemma {:induction false} SubsequenceOfSelf<T>(s: seq<T>)
    ensures IsSubsequence(s, s)
    decreases |s|
  {
    if s != [] {
      SubsequenceOfSelf(s[1..]);
    }
  }

  /** A subsequence holds each value at most as often as the sequence it comes from. */
  lemma {:induction false} SubsequenceCount<T>(a: seq<T>, s: seq<T>)
    requires IsSubsequence(a, s)
    ensures multiset(a) <= multiset(s)
    decreases |s|
  {
    if a != [] {
      assert s == [s[0]] + s[1..];
      if a[0] == s[0] && IsSubsequence(a[1..], s[1..]) {
        SubsequenceCount(a[1..], s[1..]);
        assert a == [a[0]] + a[1..];
      } else {
        SubsequenceCount(a, s[1..]);
      }
    }
  }

  /**
   * The filter keeps the order of `s`, every element passing `p` as often as `s` holds it, and
   * nothing else.
   */
  lemma {:induction false} FilterExact<T>(s: seq<T>, p: T -> bool)
    ensures IsSubsequence(Filter(s, p), s)
    ensures forall x :: multiset(Filter(s, p))[x] == if p(x) then multiset(s)[x] else 0
  {
    if s != [] {
      FilterExact(s[1..], p);
      assert s == [s[0]] + s[1..];
      var r := Filter(s, p);
      if p(s[0]) {
        assert r[0] == s[0] && r[1..] == Filter(s[1..], p);
      } else {
        assert r == Filter(s[1..], p);
      }
    }
  }

  /**
   * The two properties of `FilterExact` pin the filter down: any subsequence of `s` holding
   * each element passing `p` as often as `s` does, and nothing else, is the filter.
   */
  lemma {:induction false} FilterUnique<T>(a: seq<T>, s: seq<T>, p: T -> bool)
    requires IsSubsequence(a, s)
    requires forall x :: multiset(a)[x] == if p(x) then multiset(s)[x] else 0
    ensures a == Filter(s, p)
    decreases |s|
  {
    if s == [] {
      assert a == [];
    } else {
      var y, t := s[0], s[1..];
      assert s == [y] + t;
      assert multiset(s)[y] == multiset(t)[y] + 1;
      if p(y) {
        if a != [] && a[0] == y && IsSubsequence(a[1..], t) {
          assert a == [y] + a[1..];
          forall x ensures multiset(a[1..])[x] == if p(x) then multiset(t)[x] else 0 {
            assert multiset(a)[x] == multiset(a[1..])[x] + (if x == y then 1 else 0);
          }
          FilterUnique(a[1..], t, p);
        } else {
          assert a != [] by { assert multiset(a)[y] > 0; }
          assert IsSubsequence(a, t);
          SubsequenceCount(a, t);
          assert false;
        }
      } else {
        assert a == [] || a[0] != y by {
          if a != [] { assert a[0] in multiset(a); }
        }
        assert a == [] || IsSubsequence(a, t);
        FilterUnique(a, t, p);
      }
    }
  }

  /** Filtering a concatenation filters each part and keeps them in order. */
  lemma {:induction false} FilterAppend<T>(a: seq<T>, b: seq<T>, p: T -> bool)
    ensures Filter(a + b, p) == Filter(a, p) + Filter(b, p)
  {
    if a == [] {
      assert a + b == b;
    } else {
      var ab := a + b;
      assert ab[0] == a[0];
      assert ab[1..] == a[1..] + b;
      FilterAppend(a[1..], b, p);
      var h := if p(a[0]) then [a[0]] else [];
      calc {
        Filter(ab, p);
        h + Filter(a[1..] + b, p);
        h + (Filter(a[1..], p) + Filter(b, p));
        (h + Filter(a[1..], p)) + Filter(b, p);
      }
    }
  }

  /** The positions of `s` whose element passes `p`. */
  function Positions<T>(s: seq<T>, p: T -> bool): (r: set<int>)
    ensures forall i :: i in r <==> 0 <= i < |s| && p(s[i])
  {
    set i | 0 <= i < |s| && p(s[i])
  }

  /** The filter keeps one element for each position of `s` whose element passes `p`. */
  lemma {:induction false} FilterLength<T>(s: seq<T>, p: T -> bool)
    ensures |Filter(s, p)| == |Positions(s, p)|
    decreases |s|
  {
    if s != [] {
      var n := |s| - 1;
      var init := s[..n];
      FilterLength(init, p);
      assert s == init + [s[n]];
      FilterAppend(init, [s[n]], p);
      assert Filter([s[n]], p) == if p(s[n]) then [s[n]] else [] by {
        assert [s[n]][1..] == [];
      }
      var before := Positions(init, p);
      var all := Positions(s, p);
      assert forall i :: 0 <= i < n ==> init[i] == s[i];
      if p(s[n]) {
        assert all == before + {n};
        assert n !in before;
      } else {
        assert all == before;
      }
    }
  }

  /** Every prefix of a subsequence is a subsequence. */
  lemma {:induction false} SubsequencePrefix<T>(a: seq<T>, s: seq<T>, k: nat)
    requires IsSubsequence(a, s) && k <= |a|
    ensures IsSubsequence(a[..k], s)
    decreases |s|
  {
    if k == 0 {
      assert a[..k] == [];
    } else if a[0] == s[0] && IsSubsequence(a[1..], s[1..]) {
      SubsequencePrefix(a[1..], s[1..], k - 1);
      assert a[..k][0] == s[0] && a[..k][1..] == a[1..][..k - 1];
    } else {
      SubsequencePrefix(a, s[1..], k);
    }
  }

  /** A filter every element passes keeps the whole sequence. */
  lemma {:induction false} FilterAll<T>(s: seq<T>, p: T -> bool)
    requires forall i :: 0 <= i < |s| ==> p(s[i])
    ensures Filter(s, p) == s
  {
    if s != [] { FilterAll(s[1..], p); }
  }

  /** A filter no element passes keeps nothing. */
  lemma {:induction false} FilterNone<T>(s: seq<T>, p: T -> bool)
    requires forall i :: 0 <= i < |s| ==> !p(s[i])
    ensures Filter(s, p) == []
  {
    if s != [] { FilterNone(s[1..], p); }
  }

  /** Filters by two predicates no element satisfies together pick at most the whole sequence between them. */
  lemma {:induction false} FilterDisjoint<T>(s: seq<T>, p: T -> bool, q: T -> bool)
    requires forall i :: 0 <= i < |s| ==> !(p(s[i]) && q(s[i]))
    ensures |Filter(s, p)| + |Filter(s, q)| <= |s|
  {
    if s != [] {
      FilterDisjoint(s[1..], p, q);
    }
  }

  /** A filter keeps something exactly when some element passes it. */
  lemma {:induction false} FilterEmpty<T>(s: seq<T>, p: T -> bool)
    ensures Filter(s, p) == [] <==> forall i :: 0 <= i < |s| ==> !p(s[i])
  {
    if s != [] {
      FilterEmpty(s[1..], p);
      if forall i :: 0 <= i < |s[1..]| ==> !p(s[1..][i]) {
        forall i | 0 <= i < |s| && i > 0 ensures !p(s[i]) {
          assert s[i] == s[1..][i - 1];
        }
      }
    }
  }

  /** `le` is total and transitive: what a sort comparator must describe. */
  ghost predicate TotalPreorder<T(!new)>(le: (T, T) -> bool) {
    && (forall x, y :: le(x, y) || le(y, x))
    && (forall x, y, z :: le(x, y) && le(y, z) ==> le(x, z))
  }

  /** Every earlier element is `le` every later one. */
  ghost predicate SortedBy<T>(s: seq<T>, le: (T, T) -> bool) {
    forall i, j :: 0 <= i < j < |s| ==> le(s[i], s[j])
  }

  /** A comparator on a number read from each element: the larger first. */
  function Descending<T>(key: T -> real): (T, T) -> bool {
    (a: T, b: T) => key(a) >= key(b)
  }

  /** A comparator on a string read from each element, in the string order `le`. */
  function ByString<T>(field: T -> string, le: (string, string) -> bool): (T, T) -> bool {
    (a: T, b: T) => le(field(a), field(b))
  }

  lemma DescendingTotal<T(!new)>(key: T -> real)
    ensures TotalPreorder(Descending(key))
  {
  }

  lemma ByStringTotal<T(!new)>(field: T -> string, le: (string, string) -> bool)
    requires TotalPreorder(le)
    ensures TotalPreorder(ByString(field, le))
  {
    var c := ByString(field, le);
    forall x: T, y: T ensures c(x, y) || c(y, x) {
      assert le(field(x), field(y)) || le(field(y), field(x));
    }
    forall x: T, y: T, z: T | c(x, y) && c(y, z) ensures c(x, z) {
      assert le(field(x), field(y)) && le(field(y), field(z));
    }
  }

  /** Places `x` before the first element it is `le` to. */
  function Insert<T>(x: T, s: seq<T>, le: (T, T) -> bool): (r: seq<T>)
    ensures multiset(r) == multiset(s) + multiset{x}
    ensures |r| == |s| + 1
  {
    if s == [] then [x]
    else if le(x, s[0]) then [x] + s
    else
      assert s == [s[0]] + s[1..];
      [s[0]] + Insert(x, s[1..], le)
  }

  /** A stable sort (`Array.prototype.sort` has been stable since ES2019) by insertion. */
  function SortBy<T>(s: seq<T>, le: (T, T) -> bool): (r: seq<T>)
    ensures multiset(r) == multiset(s)
    ensures |r| == |s|
  {
    if s == [] then []
    else
      assert s == [s[0]] + s[1..];
      Insert(s[0], SortBy(s[1..], le), le)
  }

  lemma {:induction false} InsertSorted<T(!new)>(x: T, s: seq<T>, le: (T, T) -> bool)
    requires TotalPreorder(le) && SortedBy(s, le)
    ensures SortedBy(Insert(x, s, le), le)
  {
    if s != [] && !le(x, s[0]) {
      InsertSorted(x, s[1..], le);
      var r := Insert(x, s, le);
      var t := Insert(x, s[1..], le);
      assert r == [s[0]] + t;
      assert le(s[0], x);
      forall j | 0 < j < |r| ensures le(s[0], r[j]) {
        assert r[j] in multiset(t);
        assert r[j] in multiset(s[1..]) + multiset{x};
        if r[j] != x {
          assert r[j] in s[1..];
          var k :| 0 <= k < |s[1..]| && s[1..][k] == r[j];
          assert s[k + 1] == r[j];
        }
      }
    }
  }

  /** The sorted sequence is ordered by the comparator (and, by its contract, a permutation). */
  lemma {:induction false} SortBySorted<T(!new)>(s: seq<T>, le: (T, T) -> bool)
    requires TotalPreorder(le)
    ensures SortedBy(SortBy(s, le), le)
  {
    if s != [] {
      SortBySorted(s[1..], le);
      InsertSorted(s[0], SortBy(s[1..], le), le);
    }
  }

  /** The index of the first occurrence of `x` in `s`. */
  function FirstIndex<T(==)>(s: seq<T>, x: T): (i: nat)
    requires x in s
    ensures i < |s| && s[i] == x && x !in s[..i]
  {
    if s[0] == x then 0 else 1 + FirstIndex(s[1..], x)
  }

  lemma {:induction false} FirstIndexPrefix<T>(s: seq<T>, m: nat, x: T)
    requires m <= |s| && x in s[..m]
    ensures FirstIndex(s, x) == FirstIndex(s[..m], x)
  {
    if s[0] != x {
      assert s[1..][..m - 1] == s[..m][1..];
      FirstIndexPrefix(s[1..], m - 1, x);
    }
  }

  predicate NoDuplicates<T(==)>(s: seq<T>) {
    forall i, j :: 0 <= i < j < |s| ==> s[i] != s[j]
  }

  /** `Array.from(new Set(s))`: each distinct element once, in order of first appearance. */
  function Distinct<T(==,!new)>(s: seq<T>): (r: seq<T>)
    ensures NoDuplicates(r)
    ensures forall x :: x in r <==> x in s
  {
    if s == [] then []
    else
      var r := Distinct(s[..|s| - 1]);
      assert forall x :: x in s <==> x in s[..|s| - 1] || x == s[|s| - 1] by {
        assert s == s[..|s| - 1] + [s[|s| - 1]];
      }
      if s[|s| - 1] in r then r else r + [s[|s| - 1]]
  }

  /** The distinct elements appear in the order of their first occurrence in `s`. */
  lemma {:induction false} DistinctFirstAppearance<T(!new)>(s: seq<T>)
    ensures forall i, j :: 0 <= i < j < |Distinct(s)| ==>
      FirstIndex(s, Distinct(s)[i]) < FirstIndex(s, Distinct(s)[j])
  {
    if s != [] {
      var n := |s| - 1;
      var p := s[..n];
      var r := Distinct(p);
      DistinctFirstAppearance(p);
      forall x | x in r ensures FirstIndex(s, x) == FirstIndex(p, x) < n {
        FirstIndexPrefix(s, n, x);
      }
      if s[n] !in r {
        assert s[n] !in p;
        assert FirstIndex(s, s[n]) == n;
      }
    }
  }

  /** A duplicate-free sequence holds each value at most once. */
  lemma {:induction false} NoDuplicatesCount<T>(s: seq<T>)
    ensures NoDuplicates(s) <==> forall x :: multiset(s)[x] <= 1
  {
    if NoDuplicates(s) {
      if s != [] {
        assert NoDuplicates(s[1..]) by {
          forall i, j | 0 <= i < j < |s[1..]| ensures s[1..][i] != s[1..][j] {
            assert s[1..][i] == s[i + 1] && s[1..][j] == s[j + 1];
          }
        }
        NoDuplicatesCount(s[1..]);
        assert s == [s[0]] + s[1..];
        assert s[0] !in s[1..];
      }
    } else {
      var i, j :| 0 <= i < j < |s| && s[i] == s[j];
      assert s == s[..i] + [s[i]] + s[i + 1..j] + [s[j]] + s[j + 1..];
      assert multiset(s)[s[i]] >= 2;
    }
  }

  /** Reordering keeps a sequence free of duplicates. */
  lemma NoDuplicatesPermutation<T>(a: seq<T>, b: seq<T>)
    requires multiset(a) == multiset(b) && NoDuplicates(a)
    ensures NoDuplicates(b)
  {
    NoDuplicatesCount(a);
    NoDuplicatesCount(b);
  }

  /** Filtering keeps a sequence free of duplicates. */
  lemma FilterNoDuplicates<T(!new)>(s: seq<T>, p: T -> bool)
    requires NoDuplicates(s)
    ensures NoDuplicates(Filter(s, p))
  {
    FilterSpec(s, p);
    NoDuplicatesCount(s);
    NoDuplicatesCount(Filter(s, p));
  }
}

=== FILE: slash_command.dfy ===
/**
 * The slash-command menu of the editor: the command list filtered by the (fixed, empty)
 * query, a selected index stepped by the arrow keys with wrap-around, and Enter, a click or
 * Escape acting on the editor.
 */
module SlashCommand {
  import opened Strings
  import Seqs

  /** The editor call a command makes. */
  datatype EditorAction =
    | ToggleHeading(level: nat) | SetParagraph | ToggleBulletList | ToggleOrderedList
    | ToggleBlockquote | ToggleCodeBlock | SetHorizontalRule

  datatype Command = Command(title: string, description: string, icon: string, action: EditorAction)

  /** The nine commands the menu offers, in order. */
  const Commands: seq<Command> := [
    Command("Heading 1", "Big section heading", "H1", ToggleHeading(1)),
    Command("Heading 2", "Medium section heading", "H2", ToggleHeading(2)),
    Command("Heading 3", "Small section heading", "H3", ToggleHeading(3)),
    Command("Paragraph", "Plain text paragraph", "¶", SetParagraph),
    Command("Bullet List", "Create a simple list", "•", ToggleBulletList),
    Command("Numbered List", "Create a numbered list", "1.", ToggleOrderedList),
    Command("Quote", "Capture a quote", "\"", ToggleBlockquote),
    Command("Code Block", "Display code with syntax", "{ }", ToggleCodeBlock),
    Command("Divider", "Visual separator", "—", SetHorizontalRule)]

  // ---------------------------------------------------------------------------------------
  // Filter

  /** The title or the description contains the query, ignoring case. */
  predicate Matches(c: Command, query: string) {
    ContainsIgnoreCase(c.title, query) || ContainsIgnoreCase(c.description, query)
  }

  /** The menu's items for a query: only matching commands, never more than the list holds. */
  function FilterCommands(commands: seq<Command>, query: string): (r: seq<Command>)
    ensures |r| <= |commands|
    ensures forall c :: c in r ==> c in commands && Matches(c, query)
  {
    Seqs.FilterSpec(commands, c => Matches(c, query));
    Seqs.Filter(commands, c => Matches(c, query))
  }

  /**
   * The filter keeps exactly the matching commands, in their order and each as often as the
   * list holds it; the empty query keeps every command.
   */
  lemma FilterCommandsSpec(commands: seq<Command>, query: string)
    ensures var r := FilterCommands(commands, query);
      && Seqs.IsSubsequence(r, commands)
      && (forall c :: multiset(r)[c] == if Matches(c, query) then multiset(commands)[c] else 0)
      && (forall c :: c in r <==> c in commands && Matches(c, query))
      && multiset(r) <= multiset(commands)
      && (query == [] ==> r == commands)
  {
    Seqs.FilterSpec(commands, c => Matches(c, query));
    Seqs.FilterExact(commands, c => Matches(c, query));
    if query == [] {
      forall i | 0 <= i < |commands| ensures Matches(commands[i], query) {
        ContainsEmpty(commands[i].title);
      }
      Seqs.FilterAll(commands, c => Matches(c, query));
    }
  }

  /** With the query the menu starts with (and never changes) all nine commands are listed. */
  lemma ShippedMenuListsAll()
    ensures FilterCommands(Commands, "") == Commands && |Commands| == 9
  {
    FilterCommandsSpec(Commands, "");
  }

  // ---------------------------------------------------------------------------------------
  // Selected index

  /** The selected index: a number, or `NaN` once `% 0` has been taken on an empty list. */
  datatype Selection = At(i: int) | NotANumber

  /** The `%` of JavaScript, whose remainder takes the sign of the dividend. */
  function JsRem(a: int, n: int): (r: int)
    requires n > 0
    ensures a >= 0 ==> 0 <= r < n
    ensures a < 0 ==> -n < r <= 0
  {
    if a >= 0 then a % n else -((-a) % n)
  }

  /** ArrowDown: `(prev + 1) % n`; from the last item it wraps to the first. */
  function StepDown(s: Selection, n: nat): (r: Selection)
    ensures n == 0 || s.NotANumber? ==> r == NotANumber
    ensures n > 0 && s.At? && 0 <= s.i < n ==> r == At(if s.i == n - 1 then 0 else s.i + 1)
  {
    match s
    case NotANumber => NotANumber
    case At(i) => if n == 0 then NotANumber else At(JsRem(i + 1, n))
  }

  /** ArrowUp: `(prev - 1 + n) % n`; from the first item it wraps to the last. */
  function StepUp(s: Selection, n: nat): (r: Selection)
    ensures n == 0 || s.NotANumber? ==> r == NotANumber
    ensures n > 0 && s.At? && 0 <= s.i < n ==> r == At(if s.i == 0 then n - 1 else s.i - 1)
  {
    match s
    case NotANumber => NotANumber
    case At(i) => if n == 0 then NotANumber else At(JsRem(i - 1 + n, n))
  }

  /** Up undoes Down and Down undoes Up on every index in range. */
  lemma StepsInverse(i: int, n: nat)
    requires 0 <= i < n
    ensures StepUp(StepDown(At(i), n), n) == At(i)
    ensures StepDown(StepUp(At(i), n), n) == At(i)
  {
    var d := StepDown(At(i), n);
    var u := StepUp(At(i), n);
    assert d.At? && 0 <= d.i < n;
    assert u.At? && 0 <= u.i < n;
  }

  /** ArrowDown pressed `k` times. */
  function DownTimes(s: Selection, n: nat, k: nat): Selection {
    if k == 0 then s else StepDown(DownTimes(s, n, k - 1), n)
  }

  /** The position `j` places from the top of a list of `n` going round and round. */
  function Around(j: nat, n: nat): (r: nat)
    requires n > 0
    ensures r < n
  {
    if j < n then j else Around(j - n, n)
  }

  /** One place further round is the next position, or the top after the last. */
  lemma {:induction false} AroundNext(j: nat, n: nat)
    requires n > 0
    ensures Around(j + 1, n) == if Around(j, n) == n - 1 then 0 else Around(j, n) + 1
  {
    if j >= n {
      AroundNext(j - n, n);
      assert j + 1 - n == (j - n) + 1;
    }
  }

  /** Pressing ArrowDown `k` times moves `k` places round the list. */
  lemma {:induction false} DownTimesAt(i: int, n: nat, k: nat)
    requires 0 <= i < n
    ensures DownTimes(At(i), n, k) == At(Around(i + k, n))
  {
    if k > 0 {
      DownTimesAt(i, n, k - 1);
      AroundNext(i + k - 1, n);
    }
  }

  /** `n` presses of ArrowDown come back to where they started. */
  lemma DownCycle(i: int, n: nat)
    requires 0 <= i < n
    ensures DownTimes(At(i), n, n) == At(i)
  {
    DownTimesAt(i, n, n);
  }

  // ---------------------------------------------------------------------------------------
  // The menu

  datatype Key = ArrowDown | ArrowUp | Enter | Escape | OtherKey

  /** A call into the editor or to the menu's owner. */
  datatype Effect = DeleteSlash | Run(action: EditorAction) | Close

  /** `deleteSlashAndExecuteCommand`: remove the `/` before the cursor, run the command, close. */
  function ExecuteCalls(c: Command): (calls: seq<Effect>)
    ensures |calls| == 3 && calls[0] == DeleteSlash && calls[1] == Run(c.action) && calls[2] == Close
  {
    [DeleteSlash, Run(c.action), Close]
  }

  class SlashMenu {
    const commands: seq<Command>
    /** `searchQuery`: held in state but never set after the first render. */
    const query: string
    var selected: Selection
    /** The calls made so far into the editor and to `onClose`, in order. */
    var calls: seq<Effect>

    function Filtered(): seq<Command> {
      FilterCommands(commands, query)
    }

    /** The menu renders nothing when no command matches. */
    predicate Renders() {
      Filtered() != []
    }

    /** While the menu shows items, the selection addresses one of them. */
    predicate Valid()
      reads this
    {
      Renders() ==> selected.At? && 0 <= selected.i < |Filtered()|
    }

    /** The first render, after which the query effect sets the index to 0 once more. */
    constructor (commands: seq<Command>, query: string)
      ensures this.commands == commands && this.query == query
      ensures selected == At(0) && calls == []
      ensures Valid()
    {
      this.commands := commands;
      this.query := query;
      selected := At(0);
      calls := [];
    }

    /**
     * The key handler. The arrows step the index round the list; Enter runs the selected
     * command when the index addresses one and does nothing otherwise; Escape closes.
     */
    method HandleKey(key: Key)
      requires Valid()
      modifies this
      ensures Valid()
      ensures key == ArrowDown ==> selected == StepDown(old(selected), |Filtered()|) && calls == old(calls)
      ensures key == ArrowUp ==> selected == StepUp(old(selected), |Filtered()|) && calls == old(calls)
      ensures key == Enter ==> selected == old(selected)
      ensures key == Enter && old(selected).At? && 0 <= old(selected).i < |Filtered()| ==>
        calls == old(calls) + ExecuteCalls(Filtered()[old(selected).i])
      ensures key == Enter && !(old(selected).At? && 0 <= old(selected).i < |Filtered()|) ==>
        calls == old(calls)
      ensures key == Escape ==> selected == old(selected) && calls == old(calls) + [Close]
      ensures key == OtherKey ==> selected == old(selected) && calls == old(calls)
    {
      var items := Filtered();
      match key
      case ArrowDown =>
        selected := StepDown(selected, |items|);
      case ArrowUp =>
        selected := StepUp(selected, |items|);
      case Enter =>
        if selected.At? && 0 <= selected.i < |items| {
          calls := calls + ExecuteCalls(items[selected.i]);
        }
      case Escape =>
        calls := calls + [Close];
      case OtherKey =>
    }

    /** Hovering an item selects it. */
    method MouseEnter(index: nat)
      requires index < |Filtered()|
      modifies this
      ensures selected == At(index) && calls == old(calls)
      ensures Valid()
    {
      selected := At(index);
    }

    /** Clicking an item runs it, whatever is selected. */
    method Click(index: nat)
      requires index < |Filtered()|
      modifies this
      ensures calls == old(calls) + ExecuteCalls(Filtered()[index])
      ensures selected == old(selected)
    {
      calls := calls + ExecuteCalls(Filtered()[index]);
    }
  }

  /**
   * On the menu as shipped the list is never empty, so the arrows never produce `NaN` and keep
   * every index in range.
   */
  lemma ShippedStepsStayInRange(i: int)
    requires 0 <= i < |Commands|
    ensures var n := |FilterCommands(Commands, "")|;
      && StepDown(At(i), n).At? && 0 <= StepDown(At(i), n).i < n
      && StepUp(At(i), n).At? && 0 <= StepUp(At(i), n).i < n
  {
    ShippedMenuListsAll();
  }
}

=== FILE: stream.dfy ===
/**
 * The streaming completion loop of the AI service hook (`generateCompletion`): the response
 * body is read chunk by chunk, each chunk is split into lines, `data:` lines are parsed, node
 * metadata is upserted by `node_id`, content deltas are appended to a buffer, two timing
 * milestones are written once, and exactly one of `onComplete` / `onError` ends the session.
 *
 * Network reads arrive as a transcript of `Read`s (chunks already decoded to text, with the
 * clock readings taken while handling them); `JSON.parse` is the parameter `parse`; the
 * callbacks the caller passed become the `Callback` log the session emits.
 */
module CompletionStream {
  import opened Wrappers
  import opened Strings
  import Seqs

  /** `extras.meta` of one event. */
  datatype NodeMeta = NodeMeta(
    nodeId: string, nodeClass: string, startTime: real, endTime: real, executionTime: Option<real>)

  datatype NodeStatus = Running | Completed

  /** One execution unit ("node") as the UI lists it. */
  datatype NodeExecution = NodeExecution(
    nodeId: string, nodeClass: string, startTime: real, endTime: real,
    executionTime: Option<real>, status: NodeStatus)

  /**
   * What the loop reads from a parsed payload: `extras?.meta` (None when absent or falsy) and
   * `choices[0].delta.content`, where `delta == None` means the access itself throws (no
   * `choices[0]` or no `delta`) and `Some("")` stands for an absent or empty content.
   */
  datatype StreamEvent = StreamEvent(meta: Option<NodeMeta>, delta: Option<string>)

  /** The metrics object passed to `onMetrics`: a progress snapshot or the final one. */
  datatype MetricsUpdate =
    | Progress(sendTime: Option<real>, processTime: Option<real>, nodes: seq<NodeExecution>)
    | Final(sendTime: Option<real>, processTime: Option<real>, generatingTime: real,
            totalTime: real, nodes: seq<NodeExecution>)

  datatype ServiceError = ApiError(status: int, body: string) | RequestFailed | ReadFailed

  datatype Callback =
    | OnContent(text: string)
    | OnMetrics(metrics: MetricsUpdate)
    | OnComplete(finalText: string)
    | OnError(error: ServiceError)
  {
    predicate IsTerminal() { this.OnComplete? || this.OnError? }
  }

  /**
   * One `reader.read()`: a decoded chunk with its `done` flag, the clock reading taken right
   * after it (`at`) and the clock reading taken if this chunk carries the first non-empty
   * delta (`processAt`); or a read that throws.
   */
  datatype Read =
    | Chunk(text: string, doneReading: bool, at: real, processAt: real)
    | ReadFailure

  /** The outcome of the `fetch`: a non-ok status or missing body, a throw, or a body. */
  datatype Response =
    | HttpError(status: int, body: string)
    | RequestThrows
    | Body(transcript: seq<Read>)

  datatype ConnectionStatus = Connected | Connecting | Disconnected

  // ---------------------------------------------------------------------------------------
  // Lines and payloads

  /** A line the loop looks at: its trimmed form starts with `data:`. */
  predicate IsDataLine(line: string) {
    StartsWith(Trim(line), "data:")
  }

  /** `chunk.split('\n').filter(line => line.trim().startsWith('data:'))`. */
  function DataLines(chunk: string): (r: seq<string>)
    ensures |r| <= |SplitOn(chunk, '\n')|
    ensures forall l :: l in r ==> l in SplitOn(chunk, '\n') && IsDataLine(l)
  {
    Seqs.FilterSpec(SplitOn(chunk, '\n'), IsDataLine);
    Seqs.Filter(SplitOn(chunk, '\n'), IsDataLine)
  }

  /** The data lines are exactly the lines of the chunk that start with `data:` once trimmed. */
  lemma DataLinesSpec(chunk: string)
    ensures forall i :: 0 <= i < |DataLines(chunk)| ==> IsDataLine(DataLines(chunk)[i])
    ensures forall l :: l in DataLines(chunk) <==> l in SplitOn(chunk, '\n') && IsDataLine(l)
  {
    Seqs.FilterSpec(SplitOn(chunk, '\n'), IsDataLine);
  }

  /** `line.replace(/^data: /, '')`: drops a leading `data: ` (with its space) if present. */
  function Payload(line: string): (r: string)
    ensures StartsWith(line, "data: ") ==> line == "data: " + r
    ensures !StartsWith(line, "data: ") ==> r == line
  {
    if StartsWith(line, "data: ") then line[6..] else line
  }

  /** A line whose payload is the end-of-stream marker `[DONE]` (see `SentinelPayload`). */
  predicate IsSentinel(line: string) {
    line == "data: [DONE]" || line == "[DONE]"
  }

  /** The two spellings above are exactly the lines whose payload is `[DONE]`. */
  lemma SentinelPayload(line: string)
    ensures IsSentinel(line) <==> Payload(line) == "[DONE]"
  {
    if StartsWith(line, "data: ") {
      assert line == "data: " + Payload(line);
      assert line != "[DONE]" by { assert line[0] == 'd'; }
    }
  }

  /**
   * At the line test, `data: [DONE]` and a bare `[DONE]` are the end marker, while `data:[DONE]`
   * goes to the parser like any payload. A bare `[DONE]` line never gets that far: see
   * `DataLineSentinels`.
   */
  lemma SentinelSpelling()
    ensures IsSentinel("data: [DONE]")
    ensures !IsSentinel("data:[DONE]")
    ensures IsSentinel("[DONE]")
  {
    assert !StartsWith("data:[DONE]", "data: ") by {
      assert "data:[DONE]"[5] != "data: "[5];
    }
  }

  /**
   * Among the lines the loop looks at, only `data: [DONE]` is the end marker: a bare `[DONE]`
   * line is dropped by the `data:` filter first, so it never stops the stream.
   */
  lemma DataLineSentinels(chunk: string)
    ensures "[DONE]" !in DataLines(chunk)
    ensures forall l :: l in DataLines(chunk) ==> (IsSentinel(l) <==> l == "data: [DONE]")
  {
    DataLinesSpec(chunk);
    BareSentinelIsNoDataLine();
  }

  /** `[DONE]` trims to itself, which does not start with `data:`. */
  lemma BareSentinelIsNoDataLine()
    ensures !IsDataLine("[DONE]")
  {
    var bare := "[DONE]";
    TrimOfTrimmed(bare);
    assert bare[0] != "data:"[0];
  }

  predicate NoSentinel(lines: seq<string>) {
    forall i :: 0 <= i < |lines| ==> !IsSentinel(lines[i])
  }

  /** The lines processed before the first sentinel. */
  function UntilSentinel(lines: seq<string>): (r: seq<string>)
    ensures |r| <= |lines|
  {
    if lines == [] || IsSentinel(lines[0]) then [] else [lines[0]] + UntilSentinel(lines[1..])
  }

  /** The processed lines are the longest sentinel-free prefix: the next line, if any, is `[DONE]`. */
  lemma {:induction false} UntilSentinelSpec(lines: seq<string>)
    ensures var r := UntilSentinel(lines);
      && |r| <= |lines| && r == lines[..|r|]
      && NoSentinel(r)
      && (|r| < |lines| ==> IsSentinel(lines[|r|]))
  {
    if lines != [] && !IsSentinel(lines[0]) {
      UntilSentinelSpec(lines[1..]);
      var rest := UntilSentinel(lines[1..]);
      assert [lines[0]] + rest == lines[..|rest| + 1];
    }
  }

  /** The first `k` lines carry no sentinel and line `k` (if any) is one: they are processed. */
  lemma {:induction false} UntilSentinelAt(lines: seq<string>, k: nat)
    requires k <= |lines| && NoSentinel(lines[..k])
    requires k < |lines| ==> IsSentinel(lines[k])
    ensures UntilSentinel(lines) == lines[..k]
  {
    if k > 0 {
      assert !IsSentinel(lines[0]) by { assert lines[..k][0] == lines[0]; }
      var tail := lines[1..][..k - 1];
      assert NoSentinel(tail) by {
        forall i | 0 <= i < |tail| ensures !IsSentinel(tail[i]) {
          assert tail[i] == lines[..k][i + 1];
        }
      }
      UntilSentinelAt(lines[1..], k - 1);
      assert lines[..k] == [lines[0]] + lines[1..][..k - 1];
    }
  }

  /** Lines without a sentinel are passed through, and the sentinel search goes on after them. */
  lemma UntilSentinelAppend(a: seq<string>, b: seq<string>)
    requires NoSentinel(a)
    ensures UntilSentinel(a + b) == a + UntilSentinel(b)
  {
    var u := UntilSentinel(b);
    UntilSentinelSpec(b);
    var head := (a + b)[..|a| + |u|];
    assert head == a + u;
    assert NoSentinel(head) by {
      forall i | 0 <= i < |head| ensures !IsSentinel(head[i]) {
        if i >= |a| { assert head[i] == u[i - |a|]; }
      }
    }
    if |u| < |b| {
      assert (a + b)[|a| + |u|] == b[|u|];
    }
    UntilSentinelAt(a + b, |a| + |u|);
  }

  // ---------------------------------------------------------------------------------------
  // Node upsert

  /** A node entry built from metadata; completed exactly when `execution_time` is a positive number. */
  function Entry(m: NodeMeta): (e: NodeExecution)
    ensures e.nodeId == m.nodeId && e.nodeClass == m.nodeClass
    ensures e.startTime == m.startTime && e.endTime == m.endTime
    ensures e.executionTime == m.executionTime
    ensures e.status == Completed <==> (m.executionTime.Some? && m.executionTime.value > 0.0)
  {
    NodeExecution(m.nodeId, m.nodeClass, m.startTime, m.endTime, m.executionTime,
                  if m.executionTime.Some? && m.executionTime.value > 0.0 then Completed else Running)
  }

  predicate UniqueIds(nodes: seq<NodeExecution>) {
    forall i, j :: 0 <= i < j < |nodes| ==> nodes[i].nodeId != nodes[j].nodeId
  }

  predicate HasNode(nodes: seq<NodeExecution>, id: string) {
    exists k :: 0 <= k < |nodes| && nodes[k].nodeId == id
  }

  /** `nodes.findIndex(n => n.node_id === id)`: the first match, or -1. */
  function FindNode(nodes: seq<NodeExecution>, id: string): (i: int)
    ensures -1 <= i < |nodes|
    ensures i >= 0 ==> nodes[i].nodeId == id
  {
    if nodes == [] then -1
    else if nodes[0].nodeId == id then 0
    else
      var i := FindNode(nodes[1..], id);
      if i == -1 then -1 else i + 1
  }

  /** `findIndex` finds the first entry with the id, and answers -1 exactly when there is none. */
  lemma {:induction false} FindNodeSpec(nodes: seq<NodeExecution>, id: string)
    ensures var i := FindNode(nodes, id);
      && (i == -1 <==> !HasNode(nodes, id))
      && (i >= 0 ==> nodes[i].nodeId == id && forall k :: 0 <= k < i ==> nodes[k].nodeId != id)
  {
    if nodes != [] && nodes[0].nodeId != id {
      FindNodeSpec(nodes[1..], id);
      if !HasNode(nodes[1..], id) {
        forall k | 0 <= k < |nodes| ensures nodes[k].nodeId != id {
          if k > 0 { assert nodes[k] == nodes[1..][k - 1]; }
        }
      } else {
        var k :| 0 <= k < |nodes[1..]| && nodes[1..][k].nodeId == id;
        assert nodes[k + 1].nodeId == id;
      }
    }
  }

  /** `nodeExecutions` after one metadata event: replace the entry with the same id, or append. */
  function Upsert(nodes: seq<NodeExecution>, e: NodeExecution): (r: seq<NodeExecution>)
    ensures e in r
    ensures |nodes| <= |r| <= |nodes| + 1
  {
    var i := FindNode(nodes, e.nodeId);
    if i == -1 then nodes + [e] else assert nodes[i := e][i] == e; nodes[i := e]
  }

  /**
   * The upsert keeps one entry per id: the new entry is present (appended only when its id is
   * new), every other id keeps its value and position, and ids stay unique.
   */
  lemma UpsertSpec(nodes: seq<NodeExecution>, e: NodeExecution)
    ensures var r := Upsert(nodes, e);
      && |r| == (if HasNode(nodes, e.nodeId) then |nodes| else |nodes| + 1)
      && e in r
      && (forall k :: |nodes| <= k < |r| ==> r[k] == e)
      && (forall k :: 0 <= k < |nodes| && nodes[k].nodeId != e.nodeId ==> r[k] == nodes[k])
      && (forall k :: 0 <= k < |nodes| ==> r[k].nodeId == nodes[k].nodeId)
      && (UniqueIds(nodes) ==> UniqueIds(r))
      && (UniqueIds(nodes) ==> forall k :: 0 <= k < |r| && r[k].nodeId == e.nodeId ==> r[k] == e)
  {
    var i := FindNode(nodes, e.nodeId);
    FindNodeSpec(nodes, e.nodeId);
    if i != -1 {
      assert Upsert(nodes, e)[i] == e;
    }
  }

  // ---------------------------------------------------------------------------------------
  // What a sequence of processed lines produces

  function ContentOf(ev: StreamEvent): string {
    match ev.delta
    case Some(c) => c
    case None => ""
  }

  /** The text a line contributes: its delta content if it parses, nothing otherwise. */
  function LineText(line: string, parse: string -> Option<StreamEvent>): string {
    match parse(Payload(line))
    case Some(ev) => ContentOf(ev)
    case None => ""
  }

  /** The metadata a line contributes (recorded even when the delta access then throws). */
  function LineMeta(line: string, parse: string -> Option<StreamEvent>): Option<NodeMeta> {
    match parse(Payload(line))
    case Some(ev) => ev.meta
    case None => None
  }

  /** The buffer a run of lines produces: the arrival-order concatenation of their deltas. */
  function Text(lines: seq<string>, parse: string -> Option<StreamEvent>): string {
    if lines == [] then ""
    else Text(lines[..|lines| - 1], parse) + LineText(lines[|lines| - 1], parse)
  }

  function ApplyLine(nodes: seq<NodeExecution>, line: string, parse: string -> Option<StreamEvent>)
    : seq<NodeExecution>
  {
    match LineMeta(line, parse)
    case Some(m) => Upsert(nodes, Entry(m))
    case None => nodes
  }

  /** The node list after upserting the metadata of `lines`, in order, into `nodes`. */
  function Nodes(nodes: seq<NodeExecution>, lines: seq<string>, parse: string -> Option<StreamEvent>)
    : seq<NodeExecution>
  {
    if lines == [] then nodes
    else ApplyLine(Nodes(nodes, lines[..|lines| - 1], parse), lines[|lines| - 1], parse)
  }

  /** Text grows by appending: the text of `a + b` extends the text of `a`. */
  lemma {:induction false} TextAppend(a: seq<string>, b: seq<string>, parse: string -> Option<StreamEvent>)
    ensures Text(a + b, parse) == Text(a, parse) + Text(b, parse)
  {
    if b == [] {
      assert a + b == a;
    } else {
      assert (a + b)[..|a + b| - 1] == a + b[..|b| - 1];
      TextAppend(a, b[..|b| - 1], parse);
    }
  }

  lemma {:induction false} NodesAppend(
    nodes: seq<NodeExecution>, a: seq<string>, b: seq<string>, parse: string -> Option<StreamEvent>)
    ensures Nodes(nodes, a + b, parse) == Nodes(Nodes(nodes, a, parse), b, parse)
  {
    if b == [] {
      assert a + b == a;
    } else {
      assert (a + b)[..|a + b| - 1] == a + b[..|b| - 1];
      NodesAppend(nodes, a, b[..|b| - 1], parse);
    }
  }

  /** The newest metadata for `id` among `lines`. */
  function LastMeta(lines: seq<string>, parse: string -> Option<StreamEvent>, id: string): (r: Option<NodeMeta>)
    ensures r.Some? ==> r.value.nodeId == id
  {
    if lines == [] then None
    else
      var m := LineMeta(lines[|lines| - 1], parse);
      if m.Some? && m.value.nodeId == id then m else LastMeta(lines[..|lines| - 1], parse, id)
  }

  /**
   * Idempotent upsert: after any run of lines the ids stay unique, existing entries keep their
   * positions, and the single entry for an id is the one built from its newest metadata (an id
   * no line mentions keeps its old entry).
   */
  lemma {:induction false} NodesLastWins(
    nodes: seq<NodeExecution>, lines: seq<string>, parse: string -> Option<StreamEvent>, id: string)
    requires UniqueIds(nodes)
    ensures var r := Nodes(nodes, lines, parse);
      && UniqueIds(r)
      && |nodes| <= |r| <= |nodes| + |lines|
      && (forall k :: 0 <= k < |nodes| ==> r[k].nodeId == nodes[k].nodeId)
      && (LastMeta(lines, parse, id).Some? ==>
            Entry(LastMeta(lines, parse, id).value) in r
            && forall k :: 0 <= k < |r| && r[k].nodeId == id ==> r[k] == Entry(LastMeta(lines, parse, id).value))
      && (LastMeta(lines, parse, id).None? ==>
            forall k :: 0 <= k < |r| && r[k].nodeId == id ==> k < |nodes| && r[k] == nodes[k])
  {
    if lines != [] {
      var p := lines[..|lines| - 1];
      NodesLastWins(nodes, p, parse, id);
      var q := Nodes(nodes, p, parse);
      var m := LineMeta(lines[|lines| - 1], parse);
      if m.Some? {
        var r := Upsert(q, Entry(m.value));
        UpsertSpec(q, Entry(m.value));
        assert Nodes(nodes, lines, parse) == r;
        if m.value.nodeId != id {
          forall k | 0 <= k < |r| && r[k].nodeId == id ensures k < |q| && r[k] == q[k] {
          }
          if LastMeta(p, parse, id).Some? {
            var e := Entry(LastMeta(p, parse, id).value);
            var k :| 0 <= k < |q| && q[k] == e;
            assert r[k] == e;
          }
        }
      }
    }
  }

  // ---------------------------------------------------------------------------------------
  // The whole session

  /** A read that ends the loop: a throw, the transport's `done`, or a chunk holding `[DONE]`. */
  predicate Stops(r: Read, extract: string -> seq<string>) {
    r.ReadFailure? || r.doneReading || !NoSentinel(extract(r.text))
  }

  /** Some read at index `i` or later ends the loop. */
  predicate StopsFrom(transcript: seq<Read>, extract: string -> seq<string>, i: nat)
    decreases |transcript| - i
  {
    i < |transcript| && (Stops(transcript[i], extract) || StopsFrom(transcript, extract, i + 1))
  }

  /** The transcript reaches a read that ends the loop (the transport always does). */
  predicate Terminates(transcript: seq<Read>, extract: string -> seq<string>) {
    StopsFrom(transcript, extract, 0)
  }

  /** The first read at index `i` or later that ends the loop. */
  function StopFrom(transcript: seq<Read>, extract: string -> seq<string>, i: nat): (j: nat)
    requires StopsFrom(transcript, extract, i)
    ensures i <= j < |transcript| && Stops(transcript[j], extract)
    decreases |transcript| - i
  {
    if Stops(transcript[i], extract) then i else StopFrom(transcript, extract, i + 1)
  }

  /** The index of the read that ends the loop. */
  function StopIndex(transcript: seq<Read>, extract: string -> seq<string>): (j: nat)
    requires Terminates(transcript, extract)
    ensures j < |transcript| && Stops(transcript[j], extract)
  {
    StopFrom(transcript, extract, 0)
  }

  /** No read between `i` and the one `StopFrom` finds ends the loop. */
  lemma {:induction false} StopFromIsFirst(transcript: seq<Read>, extract: string -> seq<string>, i: nat, k: nat)
    requires StopsFrom(transcript, extract, i)
    requires i <= k < StopFrom(transcript, extract, i)
    ensures !Stops(transcript[k], extract)
    decreases |transcript| - i
  {
    if k > i {
      StopFromIsFirst(transcript, extract, i + 1, k);
    }
  }

  /** A read up to the stopping one that ends the loop is the stopping one. */
  lemma StopAt(transcript: seq<Read>, extract: string -> seq<string>, j: nat)
    requires Terminates(transcript, extract) && j <= StopIndex(transcript, extract)
    requires Stops(transcript[j], extract)
    ensures j == StopIndex(transcript, extract)
  {
    if j < StopIndex(transcript, extract) {
      StopIndexIsFirst(transcript, extract, j);
    }
  }

  /** The stopping read is the first one that ends the loop. */
  lemma StopIndexIsFirst(transcript: seq<Read>, extract: string -> seq<string>, k: nat)
    requires Terminates(transcript, extract) && k < StopIndex(transcript, extract)
    ensures !Stops(transcript[k], extract)
  {
    StopFromIsFirst(transcript, extract, 0, k);
  }

  function ChunkLines(r: Read, extract: string -> seq<string>): seq<string> {
    if r.Chunk? then extract(r.text) else []
  }

  /** All data lines of the first `n` reads, in arrival order. */
  function Flat(transcript: seq<Read>, n: nat, extract: string -> seq<string>): seq<string>
    requires n <= |transcript|
  {
    if n == 0 then [] else Flat(transcript, n - 1, extract) + ChunkLines(transcript[n - 1], extract)
  }

  /** Reads that do not end the loop carry no `[DONE]` line. */
  lemma {:induction false} FlatNoSentinel(transcript: seq<Read>, n: nat, extract: string -> seq<string>)
    requires Terminates(transcript, extract) && n <= StopIndex(transcript, extract)
    ensures NoSentinel(Flat(transcript, n, extract))
  {
    if n > 0 {
      FlatNoSentinel(transcript, n - 1, extract);
      StopIndexIsFirst(transcript, extract, n - 1);
      var a := Flat(transcript, n - 1, extract);
      var b := ChunkLines(transcript[n - 1], extract);
      forall i | 0 <= i < |a + b| ensures !IsSentinel((a + b)[i]) {
        if i >= |a| { assert (a + b)[i] == b[i - |a|]; }
      }
    }
  }

  /** The lines a session processes: every data line up to the stopping read, cut at `[DONE]`. */
  function SessionLines(transcript: seq<Read>, extract: string -> seq<string>): seq<string>
    requires Terminates(transcript, extract)
  {
    UntilSentinel(Flat(transcript, StopIndex(transcript, extract) + 1, extract))
  }

  /** The body fails when the stopping read is a throw. */
  predicate ReadFails(transcript: seq<Read>, extract: string -> seq<string>)
    requires Terminates(transcript, extract)
  {
    transcript[StopIndex(transcript, extract)].ReadFailure?
  }

  predicate Succeeds(response: Response, extract: string -> seq<string>)
    requires response.Body? ==> Terminates(response.transcript, extract)
  {
    response.Body? && !ReadFails(response.transcript, extract)
  }

  function ErrorOf(response: Response, extract: string -> seq<string>): ServiceError
    requires response.Body? ==> Terminates(response.transcript, extract)
    requires !Succeeds(response, extract)
  {
    match response
    case HttpError(status, body) => ApiError(status, body)
    case RequestThrows => RequestFailed
    case Body(_) => ReadFailed
  }

  function OrZero(t: Option<real>): real {
    t.GetOr(0.0)
  }

  predicate IsPrefix(a: string, b: string) {
    |a| <= |b| && b[..|a|] == a
  }

  /** Prefixes chain: a prefix of a prefix of `c` is a prefix of `c`. */
  lemma PrefixTrans(a: string, b: string, c: string)
    requires IsPrefix(a, b) && IsPrefix(b, c)
    ensures IsPrefix(a, c)
  {
    assert c[..|a|] == c[..|b|][..|a|];
  }

  /** Each `onContent` argument is a prefix of the next one, and the newest is a prefix of `buffer`. */
  predicate ContentsGrow(log: seq<Callback>, buffer: string) {
    if log == [] then true
    else
      var last := log[|log| - 1];
      && (last.OnContent? ==> IsPrefix(last.text, buffer))
      && ContentsGrow(log[..|log| - 1], if last.OnContent? then last.text else buffer)
  }

  /** A log whose texts grow up to `b` also grows up to anything `b` is a prefix of. */
  lemma {:induction false} ContentsGrowWeaken(log: seq<Callback>, b: string, b2: string)
    requires ContentsGrow(log, b) && IsPrefix(b, b2)
    ensures ContentsGrow(log, b2)
  {
    if log != [] {
      var last := log[|log| - 1];
      if last.OnContent? {
        PrefixTrans(last.text, b, b2);
      } else {
        ContentsGrowWeaken(log[..|log| - 1], b, b2);
      }
    }
  }

  /** No callback of `log` is terminal (stated on the last one, then the rest). */
  predicate NoTerminal(log: seq<Callback>) {
    log == [] || (!log[|log| - 1].IsTerminal() && NoTerminal(log[..|log| - 1]))
  }

  /** `NoTerminal` holds exactly when no position of the log carries a terminal callback. */
  lemma {:induction false} NoTerminalAt(log: seq<Callback>)
    ensures NoTerminal(log) <==> forall i :: 0 <= i < |log| ==> !log[i].IsTerminal()
  {
    if log != [] {
      var p := log[..|log| - 1];
      NoTerminalAt(p);
      assert forall i :: 0 <= i < |p| ==> p[i] == log[i];
    }
  }

  /** Exactly one terminal callback, and it comes last. */
  predicate EndsOnce(log: seq<Callback>) {
    |log| >= 1 && log[|log| - 1].IsTerminal() && NoTerminal(log[..|log| - 1])
  }

  /**
   * How a successful run ends: the final metrics, then `onComplete(text)`. The metrics carry the
   * given first-byte and process times, node list and, as total, the time from `startAt` to
   * `endAt`; the process time is set exactly when text arrived, and `generatingTime` is what
   * remains of the total once both other phases are taken out.
   */
  predicate FinalReport(log: seq<Callback>, text: string, nodes: seq<NodeExecution>,
                        sendTime: Option<real>, processTime: Option<real>, startAt: real, endAt: real)
  {
    && |log| >= 2
    && log[|log| - 1] == OnComplete(text)
    && log[|log| - 2].OnMetrics? && log[|log| - 2].metrics.Final?
    && var m := log[|log| - 2].metrics;
       && m.sendTime == sendTime && m.processTime == processTime && m.totalTime == endAt - startAt && m.nodes == nodes
       && m.generatingTime == (endAt - startAt) - OrZero(sendTime) - OrZero(m.processTime)
       && (m.processTime.Some? <==> text != [])
  }

  /** The arguments of the `onContent` calls in `log`: what the editor receives, in order. */
  function ContentTexts(log: seq<Callback>): seq<string> {
    if log == [] then []
    else ContentTexts(log[..|log| - 1]) + (if log[|log| - 1].OnContent? then [log[|log| - 1].text] else [])
  }

  /** The texts handed to `onContent` grow one from the next and are all prefixes of `buffer`. */
  lemma {:induction false} ContentTextsGrow(log: seq<Callback>, buffer: string)
    requires ContentsGrow(log, buffer)
    ensures forall k :: 0 <= k < |ContentTexts(log)| ==> IsPrefix(ContentTexts(log)[k], buffer)
    ensures forall k, l {:trigger IsPrefix(ContentTexts(log)[k], ContentTexts(log)[l])} ::
      0 <= k < l < |ContentTexts(log)| ==> IsPrefix(ContentTexts(log)[k], ContentTexts(log)[l])
  {
    if log != [] {
      var n := |log| - 1;
      var p := log[..n];
      var ts := ContentTexts(log);
      var qs := ContentTexts(p);
      if log[n].OnContent? {
        var t := log[n].text;
        ContentTextsGrow(p, t);
        assert ts == qs + [t];
        forall k | 0 <= k < |ts| ensures IsPrefix(ts[k], buffer) {
          if k < |qs| { assert ts[k] == qs[k]; PrefixTrans(qs[k], t, buffer); }
        }
        forall k, l | 0 <= k < l < |ts| ensures IsPrefix(ts[k], ts[l]) {
          assert ts[k] == qs[k];
          if l < |qs| { assert ts[l] == qs[l]; }
        }
      } else {
        ContentTextsGrow(p, buffer);
        assert ts == qs;
      }
    }
  }

  /** Every text in the list is the argument of some `onContent` call of the log. */
  lemma {:induction false} ContentTextsFromLog(log: seq<Callback>)
    ensures forall t :: t in ContentTexts(log) ==> OnContent(t) in log
  {
    if log != [] {
      var n := |log| - 1;
      var p := log[..n];
      ContentTextsFromLog(p);
      assert log == p + [log[n]];
    }
  }

  /** Splitting a log splits the list of `onContent` arguments the same way. */
  lemma {:induction false} ContentTextsAppend(a: seq<Callback>, b: seq<Callback>)
    ensures ContentTexts(a + b) == ContentTexts(a) + ContentTexts(b)
  {
    if b == [] {
      assert a + b == a;
    } else {
      var n := |b| - 1;
      assert (a + b)[..|a + b| - 1] == a + b[..n];
      ContentTextsAppend(a, b[..n]);
    }
  }

  /**
   * The editor's view of a log: the newest `onContent` call carries `text`, which is not empty;
   * with no `onContent` call, `text` is empty.
   */
  predicate LastContentIs(log: seq<Callback>, text: string) {
    if log == [] then text == []
    else if log[|log| - 1].OnContent? then log[|log| - 1].text == text && text != []
    else LastContentIs(log[..|log| - 1], text)
  }

  /** In terms of the `onContent` arguments: none exactly when `text` is empty, else the newest is `text`. */
  lemma {:induction false} LastContentTexts(log: seq<Callback>, text: string)
    requires LastContentIs(log, text)
    ensures ContentTexts(log) == [] <==> text == []
    ensures ContentTexts(log) != [] ==> ContentTexts(log)[|ContentTexts(log)| - 1] == text
  {
    if log != [] && !log[|log| - 1].OnContent? {
      LastContentTexts(log[..|log| - 1], text);
    }
  }

  /** Splitting a log: the newest `onContent` call is in the second part if there is one there. */
  lemma {:induction false} LastContentAppend(a: seq<Callback>, b: seq<Callback>, text: string, more: string)
    requires LastContentIs(a, text) && LastContentIs(b, more)
    ensures LastContentIs(a + b, if more == [] then text else more)
  {
    if b != [] {
      var n := |b| - 1;
      assert (a + b)[..|a + b| - 1] == a + b[..n];
      if !b[n].OnContent? {
        LastContentAppend(a, b[..n], text, more);
      }
    } else {
      assert a + b == a;
    }
  }

  /** `now - tFetchStart - firstByteTime`: the process time a delta arriving at `now` fixes. */
  function ProcessOffset(now: real, start: real, firstByte: real): real {
    now - start - firstByte
  }

  /** `processTime` once text `text` has arrived, `at` being the offset it would take. */
  function ProcessTimeAfter(p: Option<real>, text: string, at: real): (r: Option<real>)
    ensures p.Some? ==> r == p
    ensures p.None? ==> (r.Some? <==> text != [])
  {
    if p.None? && text != [] then Some(at) else p
  }

  /** A callback other than `onContent` keeps the texts growing. */
  lemma ContentsGrowOther(log: seq<Callback>, buffer: string, cb: Callback)
    requires ContentsGrow(log, buffer) && !cb.OnContent?
    ensures ContentsGrow(log + [cb], buffer)
  {
    assert (log + [cb])[..|log|] == log;
  }

  /** `onContent` with the grown buffer keeps the texts growing. */
  lemma ContentsGrowContent(log: seq<Callback>, buffer: string, c: string)
    requires ContentsGrow(log, buffer)
    ensures ContentsGrow(log + [OnContent(buffer + c)], buffer + c)
  {
    assert (log + [OnContent(buffer + c)])[..|log|] == log;
    assert (buffer + c)[..|buffer|] == buffer;
    ContentsGrowWeaken(log, buffer, buffer + c);
  }

  /**
   * What the callbacks of an open session satisfy against its buffer: the `onContent` texts
   * grow up to it, the newest is the buffer itself, and nothing terminal has fired.
   */
  predicate Coherent(log: seq<Callback>, buffer: string) {
    ContentsGrow(log, buffer) && LastContentIs(log, buffer) && NoTerminal(log)
  }

  /** A progress report keeps an open log coherent. */
  lemma CoherentOther(log: seq<Callback>, buffer: string, cb: Callback)
    requires Coherent(log, buffer) && !cb.OnContent? && !cb.IsTerminal()
    ensures Coherent(log + [cb], buffer)
  {
    ContentsGrowOther(log, buffer, cb);
    assert (log + [cb])[..|log|] == log;
  }

  /** `onContent` with the grown buffer keeps an open log coherent. */
  lemma CoherentContent(log: seq<Callback>, buffer: string, c: string)
    requires Coherent(log, buffer) && c != []
    ensures Coherent(log + [OnContent(buffer + c)], buffer + c)
  {
    ContentsGrowContent(log, buffer, c);
    assert (log + [OnContent(buffer + c)])[..|log|] == log;
  }

  /** An open coherent log closed by `onError` ends once, and its texts still grow to the buffer. */
  lemma FailedLogShape(log: seq<Callback>, buffer: string, err: ServiceError)
    requires Coherent(log, buffer)
    ensures var closed := log + [OnError(err)];
      EndsOnce(closed) && ContentsGrow(closed, buffer) && LastContentIs(closed, buffer)
  {
    var closed := log + [OnError(err)];
    assert closed[..|log|] == log;
  }

  /** An open coherent log closed by final metrics and `onComplete(buffer)` ends once. */
  lemma CompletedLogShape(log: seq<Callback>, buffer: string, m: MetricsUpdate)
    requires Coherent(log, buffer) && m.Final?
    ensures var closed := log + [OnMetrics(m), OnComplete(buffer)];
      EndsOnce(closed) && ContentsGrow(closed, buffer) && LastContentIs(closed, buffer)
  {
    var closed := log + [OnMetrics(m), OnComplete(buffer)];
    CoherentOther(log, buffer, OnMetrics(m));
    assert closed[..|closed| - 1] == log + [OnMetrics(m)];
  }

  /**
   * The callbacks one line other than `[DONE]` fires, from the state before it: `onMetrics` with
   * a progress snapshot (the first-byte time, the process time so far and the upserted node
   * list) when it carries metadata, then `onContent` with the grown text when its delta is not
   * empty. A line that does not parse fires nothing.
   */
  function LineCallbacks(buffer: string, nodes: seq<NodeExecution>, sendTime: Option<real>,
                         process: Option<real>, line: string, parse: string -> Option<StreamEvent>)
    : seq<Callback>
  {
    (if LineMeta(line, parse).Some? then [OnMetrics(Progress(sendTime, process, ApplyLine(nodes, line, parse)))] else [])
    + (if LineText(line, parse) != [] then [OnContent(buffer + LineText(line, parse))] else [])
  }

  /**
   * The callbacks a run of lines fires, starting from text `buffer0`, nodes `nodes0` and process
   * time `process0`; `at` is the offset the first non-empty delta gives `processTime`.
   */
  function Callbacks(buffer0: string, nodes0: seq<NodeExecution>, sendTime: Option<real>, process0: Option<real>,
                     lines: seq<string>, parse: string -> Option<StreamEvent>, at: real): seq<Callback>
  {
    if lines == [] then []
    else
      var p := lines[..|lines| - 1];
      Callbacks(buffer0, nodes0, sendTime, process0, p, parse, at)
      + LineCallbacks(buffer0 + Text(p, parse), Nodes(nodes0, p, parse), sendTime,
                      ProcessTimeAfter(process0, Text(p, parse), at), lines[|lines| - 1], parse)
  }

  /** The callbacks of one line keep an open log coherent with the buffer grown by the line's text. */
  lemma LineCallbacksCoherent(log: seq<Callback>, buffer: string, nodes: seq<NodeExecution>, sendTime: Option<real>,
                              process: Option<real>, line: string, parse: string -> Option<StreamEvent>)
    requires Coherent(log, buffer)
    ensures Coherent(log + LineCallbacks(buffer, nodes, sendTime, process, line, parse), buffer + LineText(line, parse))
  {
    var c := LineText(line, parse);
    var cbs := LineCallbacks(buffer, nodes, sendTime, process, line, parse);
    var m := OnMetrics(Progress(sendTime, process, ApplyLine(nodes, line, parse)));
    if LineMeta(line, parse).Some? {
      CoherentOther(log, buffer, m);
      if c != [] {
        assert cbs == [m, OnContent(buffer + c)];
        CoherentContent(log + [m], buffer, c);
        assert log + cbs == (log + [m]) + [OnContent(buffer + c)];
      } else {
        assert cbs == [m] && buffer + c == buffer;
      }
    } else if c != [] {
      assert cbs == [OnContent(buffer + c)];
      CoherentContent(log, buffer, c);
    } else {
      assert cbs == [] && log + cbs == log && buffer + c == buffer;
    }
  }

  /**
   * The callbacks of a run of lines keep an open log coherent with the buffer grown by their
   * text: in particular the newest `onContent` argument is the whole text so far, and there is
   * one exactly when some text has arrived.
   */
  lemma {:induction false} CallbacksCoherent(log: seq<Callback>, buffer0: string, nodes0: seq<NodeExecution>,
                                             sendTime: Option<real>, process0: Option<real>, lines: seq<string>,
                                             parse: string -> Option<StreamEvent>, at: real)
    requires Coherent(log, buffer0)
    ensures Coherent(log + Callbacks(buffer0, nodes0, sendTime, process0, lines, parse, at), buffer0 + Text(lines, parse))
  {
    if lines == [] {
      assert log + [] == log && buffer0 + "" == buffer0;
    } else {
      var p := lines[..|lines| - 1];
      var line := lines[|lines| - 1];
      var earlier := Callbacks(buffer0, nodes0, sendTime, process0, p, parse, at);
      var last := LineCallbacks(buffer0 + Text(p, parse), Nodes(nodes0, p, parse), sendTime,
                                ProcessTimeAfter(process0, Text(p, parse), at), line, parse);
      assert log + Callbacks(buffer0, nodes0, sendTime, process0, lines, parse, at) == (log + earlier) + last;
      assert buffer0 + Text(lines, parse) == (buffer0 + Text(p, parse)) + LineText(line, parse);
      CallbacksCoherent(log, buffer0, nodes0, sendTime, process0, p, parse, at);
      LineCallbacksCoherent(log + earlier, buffer0 + Text(p, parse), Nodes(nodes0, p, parse), sendTime,
                            ProcessTimeAfter(process0, Text(p, parse), at), line, parse);
    }
  }

  /** The first read's clock reading (0 when the first read threw). */
  function FirstAt(transcript: seq<Read>): real {
    if transcript != [] && transcript[0].Chunk? then transcript[0].at else 0.0
  }

  /** The first-byte time a session records: the first read's clock reading less the start, once it arrived. */
  function FirstByte(transcript: seq<Read>, start: real): (r: Option<real>)
    requires transcript != []
    ensures r.Some? <==> transcript[0].Chunk?
    ensures r.Some? ==> r.value + start == FirstAt(transcript)
  {
    if transcript[0].Chunk? then Some(transcript[0].at - start) else None
  }

  /** The clock reading a read takes at its first non-empty delta (0 for a read that threw). */
  function ProcessAt(r: Read): real {
    if r.Chunk? then r.processAt else 0.0
  }

  /** Read `k`'s clock reading at its first non-empty delta, counted from the first read's. */
  function ReadOffset(transcript: seq<Read>, k: nat): real
    requires k < |transcript|
  {
    ProcessAt(transcript[k]) - FirstAt(transcript)
  }

  /** The lines of read `k` the loop handles, once the reads before it carried no `[DONE]`. */
  function ReadLines(transcript: seq<Read>, k: nat, extract: string -> seq<string>): seq<string>
    requires k < |transcript|
  {
    UntilSentinel(ChunkLines(transcript[k], extract))
  }

  /** The text of the lines before the first `[DONE]`, read front to back. */
  function CleanText(lines: seq<string>, parse: string -> Option<StreamEvent>): string {
    if lines == [] || IsSentinel(lines[0]) then "" else LineText(lines[0], parse) + CleanText(lines[1..], parse)
  }

  /** `CleanText` is the text of the lines `UntilSentinel` keeps. */
  lemma {:induction false} CleanTextIs(lines: seq<string>, parse: string -> Option<StreamEvent>)
    ensures CleanText(lines, parse) == Text(UntilSentinel(lines), parse)
  {
    if lines != [] && !IsSentinel(lines[0]) {
      CleanTextIs(lines[1..], parse);
      TextAppend([lines[0]], UntilSentinel(lines[1..]), parse);
      assert [lines[0]][..0] == [];
    }
  }

  /** The text read `k` contributes. */
  function ReadText(transcript: seq<Read>, k: nat, extract: string -> seq<string>,
                    parse: string -> Option<StreamEvent>): (text: string)
    requires k < |transcript|
  {
    CleanText(ChunkLines(transcript[k], extract), parse)
  }

  /**
   * `processTime` after the first `j` reads: fixed by the first read whose lines carry text, at
   * that read's clock reading less the first read's (`now - tFetchStart - firstByteTime`).
   */
  function ProcessAfter(transcript: seq<Read>, j: nat, extract: string -> seq<string>,
                        parse: string -> Option<StreamEvent>): Option<real>
    requires j <= |transcript|
  {
    if j == 0 then None
    else ProcessTimeAfter(ProcessAfter(transcript, j - 1, extract, parse),
                          ReadText(transcript, j - 1, extract, parse),
                          ReadOffset(transcript, j - 1))
  }

  /** The texts the first `j` reads contribute, one per read. */
  function ReadTexts(transcript: seq<Read>, j: nat, extract: string -> seq<string>,
                     parse: string -> Option<StreamEvent>): (texts: seq<string>)
    requires j <= |transcript|
    ensures |texts| == j
  {
    if j == 0 then [] else ReadTexts(transcript, j - 1, extract, parse) + [ReadText(transcript, j - 1, extract, parse)]
  }

  /** Entry `i` of `ReadTexts` is read `i`'s text. */
  lemma {:induction false} ReadTextsAt(transcript: seq<Read>, j: nat, extract: string -> seq<string>,
                                       parse: string -> Option<StreamEvent>, i: nat)
    requires i < j <= |transcript|
    ensures ReadTexts(transcript, j, extract, parse)[i] == ReadText(transcript, i, extract, parse)
  {
    if i < j - 1 {
      ReadTextsAt(transcript, j - 1, extract, parse, i);
    }
  }

  /** The index of the first non-empty text (`|texts|` when every one is empty). */
  function FirstNonEmpty(texts: seq<string>): (k: nat)
    ensures k <= |texts|
    ensures forall i :: 0 <= i < k ==> texts[i] == []
    ensures k < |texts| ==> texts[k] != []
  {
    if texts == [] then 0
    else
      var k := FirstNonEmpty(texts[..|texts| - 1]);
      if k < |texts| - 1 || texts[|texts| - 1] != [] then k else |texts|
  }

  /** The first of the first `j` reads whose lines carry text (`j` when none does). */
  function FirstTextRead(transcript: seq<Read>, j: nat, extract: string -> seq<string>,
                         parse: string -> Option<StreamEvent>): (k: nat)
    requires j <= |transcript|
    ensures k <= j
    ensures k < j ==> ReadText(transcript, k, extract, parse) != []
  {
    var k := FirstNonEmpty(ReadTexts(transcript, j, extract, parse));
    if k < j then ReadTextsAt(transcript, j, extract, parse, k); k else k
  }

  /** Every read before `FirstTextRead` carries no text. */
  lemma FirstTextReadBefore(transcript: seq<Read>, j: nat, extract: string -> seq<string>,
                            parse: string -> Option<StreamEvent>, i: nat)
    requires j <= |transcript| && i < FirstTextRead(transcript, j, extract, parse)
    ensures ReadText(transcript, i, extract, parse) == []
  {
    ReadTextsAt(transcript, j, extract, parse, i);
  }

  /**
   * `processTime` folded over per-read texts and offsets: fixed by the first non-empty text, at
   * its read's offset, and kept from then on.
   */
  function FoldProcess(texts: seq<string>, offsets: seq<real>): Option<real>
    requires |texts| == |offsets|
  {
    if texts == [] then None
    else ProcessTimeAfter(FoldProcess(texts[..|texts| - 1], offsets[..|offsets| - 1]),
                          texts[|texts| - 1], offsets[|offsets| - 1])
  }

  /** The fold holds the offset of the first non-empty text, and nothing when there is none. */
  lemma {:induction false} FoldProcessFirst(texts: seq<string>, offsets: seq<real>)
    requires |texts| == |offsets|
    ensures var k := FirstNonEmpty(texts);
      FoldProcess(texts, offsets) == if k < |texts| then Some(offsets[k]) else None
  {
    if texts != [] {
      var n := |texts| - 1;
      FoldProcessFirst(texts[..n], offsets[..n]);
      var k0 := FirstNonEmpty(texts[..n]);
      if k0 < n {
        assert offsets[..n][k0] == offsets[k0];
      }
    }
  }

  /** The offsets of the first `j` reads, one per read. */
  function ReadOffsets(transcript: seq<Read>, j: nat): (offsets: seq<real>)
    requires j <= |transcript|
    ensures |offsets| == j
  {
    if j == 0 then [] else ReadOffsets(transcript, j - 1) + [ReadOffset(transcript, j - 1)]
  }

  /** Entry `i` of `ReadOffsets` is read `i`'s offset. */
  lemma {:induction false} ReadOffsetsAt(transcript: seq<Read>, j: nat, i: nat)
    requires i < j <= |transcript|
    ensures ReadOffsets(transcript, j)[i] == ReadOffset(transcript, i)
  {
    if i < j - 1 {
      ReadOffsetsAt(transcript, j - 1, i);
    }
  }

  /** `ProcessAfter` is the fold over the reads' texts and offsets. */
  lemma {:induction false} ProcessAfterIsFold(transcript: seq<Read>, j: nat, extract: string -> seq<string>,
                                              parse: string -> Option<StreamEvent>)
    requires j <= |transcript|
    ensures ProcessAfter(transcript, j, extract, parse)
         == FoldProcess(ReadTexts(transcript, j, extract, parse), ReadOffsets(transcript, j))
  {
    if j > 0 {
      ProcessAfterIsFold(transcript, j - 1, extract, parse);
      var texts := ReadTexts(transcript, j, extract, parse);
      var offsets := ReadOffsets(transcript, j);
      assert texts[..j - 1] == ReadTexts(transcript, j - 1, extract, parse);
      assert offsets[..j - 1] == ReadOffsets(transcript, j - 1);
    }
  }

  /**
   * `processTime` is set exactly when some read among the first `j` carried text, and then holds
   * the offset of the first such read.
   */
  lemma ProcessAfterFirstText(transcript: seq<Read>, j: nat, extract: string -> seq<string>,
                              parse: string -> Option<StreamEvent>)
    requires j <= |transcript|
    ensures var k := FirstTextRead(transcript, j, extract, parse);
      ProcessAfter(transcript, j, extract, parse)
      == if k < j then Some(ReadOffset(transcript, k)) else None
  {
    ProcessAfterIsFold(transcript, j, extract, parse);
    FoldProcessFirst(ReadTexts(transcript, j, extract, parse), ReadOffsets(transcript, j));
    var k := FirstTextRead(transcript, j, extract, parse);
    if k < j {
      ReadOffsetsAt(transcript, j, k);
    }
  }

  /** The callbacks fired while handling the first `j` reads of a session started at `start`. */
  function Emitted(transcript: seq<Read>, j: nat, extract: string -> seq<string>,
                   parse: string -> Option<StreamEvent>, start: real): seq<Callback>
    requires j <= |transcript|
  {
    if j == 0 then [] else Emitted(transcript, j - 1, extract, parse, start) + ReadCallbacks(transcript, j - 1, extract, parse, start)
  }

  /**
   * The callbacks read `k` fires: its lines run from the text and nodes of the reads before it,
   * with the first read's offset as send time.
   */
  function ReadCallbacks(transcript: seq<Read>, k: nat, extract: string -> seq<string>,
                         parse: string -> Option<StreamEvent>, start: real): seq<Callback>
    requires k < |transcript|
  {
    var seen := UntilSentinel(Flat(transcript, k, extract));
    Callbacks(Text(seen, parse), Nodes([], seen, parse), Some(FirstAt(transcript) - start),
              ProcessAfter(transcript, k, extract, parse), ReadLines(transcript, k, extract),
              parse, ReadOffset(transcript, k))
  }

  /**
   * One more successful read, in the terms the read loop states it: from the text, nodes, process
   * time and first-byte offset of the reads before it, read `j` fires `ReadCallbacks` and moves
   * the process time to `ProcessAfter` of `j + 1` reads.
   */
  lemma EmittedStep(transcript: seq<Read>, j: nat, extract: string -> seq<string>,
                    parse: string -> Option<StreamEvent>, start: real,
                    buffer: string, nodes: seq<NodeExecution>, process: Option<real>, firstByte: Option<real>)
    requires j < |transcript| && transcript[j].Chunk? && transcript[0].Chunk?
    requires buffer == Text(UntilSentinel(Flat(transcript, j, extract)), parse)
    requires nodes == Nodes([], UntilSentinel(Flat(transcript, j, extract)), parse)
    requires process == ProcessAfter(transcript, j, extract, parse)
    requires firstByte == Some(transcript[0].at - start)
    ensures var lines := UntilSentinel(extract(transcript[j].text));
      var at := ProcessOffset(transcript[j].processAt, start, firstByte.value);
      && ProcessAfter(transcript, j + 1, extract, parse) == ProcessTimeAfter(process, Text(lines, parse), at)
      && Callbacks(buffer, nodes, firstByte, process, lines, parse, at) == ReadCallbacks(transcript, j, extract, parse, start)
      && Emitted(transcript, j + 1, extract, parse, start)
         == Emitted(transcript, j, extract, parse, start) + ReadCallbacks(transcript, j, extract, parse, start)
  {
    EmittedStepProcess(transcript, j, extract, parse, start, process, firstByte);
    EmittedStepCallbacks(transcript, j, extract, parse, start, buffer, nodes, process, firstByte);
  }

  /** The process-time half of `EmittedStep`. */
  lemma EmittedStepProcess(transcript: seq<Read>, j: nat, extract: string -> seq<string>,
                           parse: string -> Option<StreamEvent>, start: real,
                           process: Option<real>, firstByte: Option<real>)
    requires j < |transcript| && transcript[j].Chunk? && transcript[0].Chunk?
    requires process == ProcessAfter(transcript, j, extract, parse)
    requires firstByte == Some(transcript[0].at - start)
    ensures var lines := UntilSentinel(extract(transcript[j].text));
      var at := ProcessOffset(transcript[j].processAt, start, firstByte.value);
      ProcessAfter(transcript, j + 1, extract, parse) == ProcessTimeAfter(process, Text(lines, parse), at)
  {
    var lines := UntilSentinel(extract(transcript[j].text));
    assert ReadLines(transcript, j, extract) == lines;
    CleanTextIs(extract(transcript[j].text), parse);
    assert ProcessOffset(transcript[j].processAt, start, firstByte.value) == ReadOffset(transcript, j);
    assert firstByte == Some(FirstAt(transcript) - start);
  }

  /** The callback half of `EmittedStep`. */
  lemma EmittedStepCallbacks(transcript: seq<Read>, j: nat, extract: string -> seq<string>,
                             parse: string -> Option<StreamEvent>, start: real,
                             buffer: string, nodes: seq<NodeExecution>, process: Option<real>, firstByte: Option<real>)
    requires j < |transcript| && transcript[j].Chunk? && transcript[0].Chunk?
    requires buffer == Text(UntilSentinel(Flat(transcript, j, extract)), parse)
    requires nodes == Nodes([], UntilSentinel(Flat(transcript, j, extract)), parse)
    requires process == ProcessAfter(transcript, j, extract, parse)
    requires firstByte == Some(transcript[0].at - start)
    ensures var lines := UntilSentinel(extract(transcript[j].text));
      var at := ProcessOffset(transcript[j].processAt, start, firstByte.value);
      && Callbacks(buffer, nodes, firstByte, process, lines, parse, at) == ReadCallbacks(transcript, j, extract, parse, start)
      && Emitted(transcript, j + 1, extract, parse, start)
         == Emitted(transcript, j, extract, parse, start) + ReadCallbacks(transcript, j, extract, parse, start)
  {
    var lines := UntilSentinel(extract(transcript[j].text));
    assert ReadLines(transcript, j, extract) == lines;
    assert ProcessOffset(transcript[j].processAt, start, firstByte.value) == ReadOffset(transcript, j);
    assert firstByte == Some(FirstAt(transcript) - start);
  }

  /** How many reads the loop handles: up to the stopping read, without it when it threw. */
  function SessionReads(transcript: seq<Read>, extract: string -> seq<string>): (n: nat)
    requires Terminates(transcript, extract)
    ensures n <= |transcript|
  {
    if ReadFails(transcript, extract) then StopIndex(transcript, extract) else StopIndex(transcript, extract) + 1
  }

  /** `processTime` when the loop ends. */
  function SessionProcess(transcript: seq<Read>, extract: string -> seq<string>,
                          parse: string -> Option<StreamEvent>): Option<real>
    requires Terminates(transcript, extract)
  {
    ProcessAfter(transcript, SessionReads(transcript, extract), extract, parse)
  }

  /**
   * Every callback of a session on an accepted response, in order: what the loop fires, then
   * either the final metrics and `onComplete(text)` or `onError`.
   */
  function SessionCallbacks(transcript: seq<Read>, extract: string -> seq<string>,
                            parse: string -> Option<StreamEvent>, startAt: real, endAt: real): seq<Callback>
    requires Terminates(transcript, extract)
  {
    var lines := SessionLines(transcript, extract);
    Closed(Emitted(transcript, SessionReads(transcript, extract), extract, parse, startAt),
           ReadFails(transcript, extract), FirstByte(transcript, startAt),
           SessionProcess(transcript, extract, parse), startAt, endAt, Nodes([], lines, parse), Text(lines, parse))
  }

  /**
   * The final metrics object: the total, the two milestones, and as generating time what is left
   * of the total once the send and process times (zero when unset) are taken out.
   */
  function FinalMetrics(send: Option<real>, process: Option<real>, total: real, nodes: seq<NodeExecution>)
    : (m: MetricsUpdate)
    ensures m.Final? && m.sendTime == send && m.processTime == process && m.totalTime == total && m.nodes == nodes
    ensures OrZero(m.sendTime) + OrZero(m.processTime) + m.generatingTime == m.totalTime
  {
    Final(send, process, total - OrZero(send) - OrZero(process), total, nodes)
  }

  /**
   * A log closed by `onError(ReadFailed)`, or by the final metrics (with the time from `startAt`
   * to `endAt` as the total) and `onComplete(text)`.
   */
  function Closed(emitted: seq<Callback>, failed: bool, send: Option<real>, process: Option<real>,
                  startAt: real, endAt: real, nodes: seq<NodeExecution>, text: string): seq<Callback>
  {
    if failed then emitted + [OnError(ReadFailed)]
    else emitted + [OnMetrics(FinalMetrics(send, process, endAt - startAt, nodes)), OnComplete(text)]
  }

  /** The callbacks of read `k` keep an open log coherent with the text grown by that read's lines. */
  lemma ReadCallbacksCoherent(transcript: seq<Read>, k: nat, extract: string -> seq<string>,
                              parse: string -> Option<StreamEvent>, start: real, log: seq<Callback>)
    requires k < |transcript| && Coherent(log, Text(UntilSentinel(Flat(transcript, k, extract)), parse))
    ensures Coherent(log + ReadCallbacks(transcript, k, extract, parse, start),
                     Text(UntilSentinel(Flat(transcript, k, extract)), parse) + Text(ReadLines(transcript, k, extract), parse))
  {
    var seen := UntilSentinel(Flat(transcript, k, extract));
    CallbacksCoherent(log, Text(seen, parse), Nodes([], seen, parse), Some(FirstAt(transcript) - start),
                      ProcessAfter(transcript, k, extract, parse), ReadLines(transcript, k, extract), parse,
                      ReadOffset(transcript, k));
  }

  /** A read the loop handles adds the text of its lines to the text of the reads before it. */
  lemma SessionTextStep(transcript: seq<Read>, k: nat, extract: string -> seq<string>,
                        parse: string -> Option<StreamEvent>)
    requires Terminates(transcript, extract) && k < SessionReads(transcript, extract)
    ensures Text(UntilSentinel(Flat(transcript, k + 1, extract)), parse)
         == Text(UntilSentinel(Flat(transcript, k, extract)), parse) + Text(ReadLines(transcript, k, extract), parse)
  {
    if k < StopIndex(transcript, extract) {
      StopIndexIsFirst(transcript, extract, k);
    }
    ReadStep(transcript, k, extract);
    CleanAppend(Flat(transcript, k, extract), extract(transcript[k].text), parse);
    assert ReadLines(transcript, k, extract) == UntilSentinel(extract(transcript[k].text));
  }

  /**
   * The callbacks of the first `j` reads of a session, up to those the loop handles, are
   * coherent with the text those reads delivered.
   */
  lemma EmittedCoherent(transcript: seq<Read>, j: nat, extract: string -> seq<string>,
                        parse: string -> Option<StreamEvent>, start: real)
    requires Terminates(transcript, extract) && j <= SessionReads(transcript, extract)
    ensures Coherent(Emitted(transcript, j, extract, parse, start), Text(UntilSentinel(Flat(transcript, j, extract)), parse))
  {
    assert Flat(transcript, 0, extract) == [];
    var i := 0;
    while i < j
      invariant i <= j
      invariant Coherent(Emitted(transcript, i, extract, parse, start), Text(UntilSentinel(Flat(transcript, i, extract)), parse))
    {
      SessionTextStep(transcript, i, extract, parse);
      EmittedCoherentStep(transcript, i, extract, parse, start);
      i := i + 1;
    }
  }

  /** One more read keeps the emitted callbacks coherent, once its lines extend the text. */
  lemma EmittedCoherentStep(transcript: seq<Read>, k: nat, extract: string -> seq<string>,
                            parse: string -> Option<StreamEvent>, start: real)
    requires k < |transcript|
    requires Coherent(Emitted(transcript, k, extract, parse, start), Text(UntilSentinel(Flat(transcript, k, extract)), parse))
    requires Text(UntilSentinel(Flat(transcript, k + 1, extract)), parse)
         == Text(UntilSentinel(Flat(transcript, k, extract)), parse) + Text(ReadLines(transcript, k, extract), parse)
    ensures Coherent(Emitted(transcript, k + 1, extract, parse, start), Text(UntilSentinel(Flat(transcript, k + 1, extract)), parse))
  {
    assert Emitted(transcript, k + 1, extract, parse, start)
        == Emitted(transcript, k, extract, parse, start) + ReadCallbacks(transcript, k, extract, parse, start);
    ReadCallbacksCoherent(transcript, k, extract, parse, start, Emitted(transcript, k, extract, parse, start));
  }

  /**
   * Every session on an accepted response fires exactly one terminal callback, last; its
   * `onContent` texts grow, and the newest is the session's whole text (none when no text came).
   */
  lemma SessionCallbacksShape(transcript: seq<Read>, extract: string -> seq<string>,
                              parse: string -> Option<StreamEvent>, startAt: real, endAt: real)
    requires Terminates(transcript, extract)
    ensures var log := SessionCallbacks(transcript, extract, parse, startAt, endAt);
      var text := Text(SessionLines(transcript, extract), parse);
      && EndsOnce(log) && ContentsGrow(log, text) && LastContentIs(log, text)
      && (log[|log| - 1].OnComplete? <==> !ReadFails(transcript, extract))
  {
    var lines := SessionLines(transcript, extract);
    SessionOutcome(transcript, extract, parse, startAt, endAt, ReadFails(transcript, extract),
                   Emitted(transcript, SessionReads(transcript, extract), extract, parse, startAt),
                   Text(lines, parse), Nodes([], lines, parse), FirstByte(transcript, startAt),
                   SessionProcess(transcript, extract, parse));
  }

  /** Processing one more line extends the text, the nodes, the process time and the callbacks. */
  lemma LinesStep(before: seq<string>, line: string, after: seq<string>, parse: string -> Option<StreamEvent>,
                  at: real, sendTime: Option<real>,
                  buffer0: string, nodes0: seq<NodeExecution>, process0: Option<real>, log0: seq<Callback>,
                  buffer: string, nodes: seq<NodeExecution>, process: Option<real>, log: seq<Callback>)
    requires after == before + [line]
    requires buffer == buffer0 + Text(before, parse)
    requires nodes == Nodes(nodes0, before, parse)
    requires process == ProcessTimeAfter(process0, Text(before, parse), at)
    requires log == log0 + Callbacks(buffer0, nodes0, sendTime, process0, before, parse, at)
    ensures log + LineCallbacks(buffer, nodes, sendTime, process, line, parse)
         == log0 + Callbacks(buffer0, nodes0, sendTime, process0, after, parse, at)
    ensures buffer + LineText(line, parse) == buffer0 + Text(after, parse)
    ensures ApplyLine(nodes, line, parse) == Nodes(nodes0, after, parse)
    ensures ProcessTimeAfter(process, LineText(line, parse), at)
         == ProcessTimeAfter(process0, Text(after, parse), at)
  {
    SnocStep(buffer0, nodes0, sendTime, process0, before, line, parse, at);
    ProcessTimeStep(process0, Text(before, parse), LineText(line, parse), at);
    AppendAssoc(buffer0, Text(before, parse), LineText(line, parse));
    AppendAssoc(log0, Callbacks(buffer0, nodes0, sendTime, process0, before, parse, at),
                LineCallbacks(buffer, nodes, sendTime, process, line, parse));
  }

  lemma AppendAssoc<T>(a: seq<T>, b: seq<T>, c: seq<T>)
    ensures (a + b) + c == a + (b + c)
  {
  }

  /** One more line at the end: its text, its metadata and its callbacks are added last. */
  lemma SnocStep(buffer0: string, nodes0: seq<NodeExecution>, sendTime: Option<real>, process0: Option<real>,
                 before: seq<string>, line: string, parse: string -> Option<StreamEvent>, at: real)
    ensures Text(before + [line], parse) == Text(before, parse) + LineText(line, parse)
    ensures Nodes(nodes0, before + [line], parse) == ApplyLine(Nodes(nodes0, before, parse), line, parse)
    ensures Callbacks(buffer0, nodes0, sendTime, process0, before + [line], parse, at)
         == Callbacks(buffer0, nodes0, sendTime, process0, before, parse, at)
            + LineCallbacks(buffer0 + Text(before, parse), Nodes(nodes0, before, parse), sendTime,
                            ProcessTimeAfter(process0, Text(before, parse), at), line, parse)
  {
    assert (before + [line])[..|before + [line]| - 1] == before;
  }

  /** Setting the process time line by line agrees with setting it once for the joined text. */
  lemma ProcessTimeStep(p: Option<real>, text: string, more: string, at: real)
    ensures ProcessTimeAfter(ProcessTimeAfter(p, text, at), more, at) == ProcessTimeAfter(p, text + more, at)
  {
    if text == [] { assert text + more == more; }
  }

  /** A sentinel-free prefix stays sentinel-free when the next line is not the sentinel. */
  lemma NoSentinelExtend(lines: seq<string>, n: nat)
    requires n < |lines| && NoSentinel(lines[..n]) && !IsSentinel(lines[n])
    ensures NoSentinel(lines[..n + 1])
  {
    var after := lines[..n + 1];
    forall k | 0 <= k < |after| ensures !IsSentinel(after[k]) {
      if k < n { assert after[k] == lines[..n][k]; }
    }
  }

  /** `firstByteTime` once a read arrives at `now`: set by the first read, kept afterwards. */
  function Mark(first: Option<real>, now: real, start: real): (r: Option<real>)
    ensures r.Some? && (first.Some? ==> r == first)
    ensures first.None? ==> r.value + start == now
  {
    if first.None? then Some(now - start) else first
  }

  /** The mutable locals of one `generateCompletion` call. */
  class CompletionSession {
    const startTime: real
    var firstByteTime: Option<real>
    var processTime: Option<real>
    var buffer: string
    var nodes: seq<NodeExecution>
    var done: bool
    var log: seq<Callback>

    /** Invariant while streaming. */
    ghost predicate Valid()
      reads this
    {
      && (processTime.Some? ==> firstByteTime.Some?)
      && (processTime.Some? <==> buffer != [])
    }

    constructor (start: real)
      ensures Valid()
      ensures startTime == start && firstByteTime == None && processTime == None
      ensures buffer == [] && nodes == [] && !done && log == []
    {
      startTime := start;
      firstByteTime, processTime := None, None;
      buffer, nodes, done, log := [], [], false, [];
    }

    /** The first read, whatever it holds, fixes `firstByteTime`; later reads leave it. */
    method MarkRead(now: real)
      requires Valid()
      modifies this
      ensures Valid()
      ensures firstByteTime == Mark(old(firstByteTime), now, startTime)
      ensures processTime == old(processTime) && buffer == old(buffer) && nodes == old(nodes)
      ensures done == old(done) && log == old(log)
    {
      if firstByteTime.None? {
        firstByteTime := Some(now - startTime);
      }
    }

    /** Upserts the entry for `m` and reports a progress snapshot. */
    method RecordMeta(m: NodeMeta)
      requires Valid()
      modifies this
      ensures Valid()
      ensures nodes == Upsert(old(nodes), Entry(m))
      ensures log == old(log) + [OnMetrics(Progress(firstByteTime, processTime, nodes))]
      ensures firstByteTime == old(firstByteTime) && processTime == old(processTime)
      ensures buffer == old(buffer) && done == old(done)
    {
      var entry := Entry(m);
      nodes := Upsert(nodes, entry);
      log := log + [OnMetrics(Progress(firstByteTime, processTime, nodes))];
    }

    /** Appends a non-empty delta; the first one fixes `processTime`. */
    method AppendContent(c: string, now: real)
      requires Valid() && firstByteTime.Some? && c != []
      modifies this
      ensures Valid()
      ensures buffer == old(buffer) + c
      ensures processTime == ProcessTimeAfter(old(processTime), c, ProcessOffset(now, startTime, firstByteTime.value))
      ensures log == old(log) + [OnContent(buffer)]
      ensures firstByteTime == old(firstByteTime) && nodes == old(nodes) && done == old(done)
    {
      if processTime.None? && firstByteTime.Some? {
        processTime := Some(ProcessOffset(now, startTime, firstByteTime.value));
      }
      buffer := buffer + c;
      log := log + [OnContent(buffer)];
    }

    /** One line of a chunk (the body of the inner `for`). */
    method ProcessLine(line: string, parse: string -> Option<StreamEvent>, now: real)
      requires Valid() && firstByteTime.Some?
      modifies this
      ensures Valid()
      ensures firstByteTime == old(firstByteTime)
      ensures done == (old(done) || IsSentinel(line))
      ensures IsSentinel(line) ==>
        buffer == old(buffer) && nodes == old(nodes) && processTime == old(processTime) && log == old(log)
      ensures !IsSentinel(line) ==>
        && buffer == old(buffer) + LineText(line, parse)
        && nodes == ApplyLine(old(nodes), line, parse)
        && processTime == ProcessTimeAfter(old(processTime), LineText(line, parse),
                                           ProcessOffset(now, startTime, firstByteTime.value))
        && log == old(log) + LineCallbacks(old(buffer), old(nodes), firstByteTime, old(processTime), line, parse)
    {
      var data := Payload(line);
      SentinelPayload(line);
      if data == "[DONE]" {
        done := true;
        return;
      }
      var parsed := parse(data);
      if parsed.None? {
        return;  // the parse error is logged and the line skipped
      }
      var meta := parsed.value.meta;
      if meta.Some? {
        RecordMeta(meta.value);
      }
      ghost var afterMeta := log;
      if parsed.value.delta.None? {
        assert log == afterMeta + [];
        return;  // `choices[0].delta` threw: caught, logged, line skipped
      }
      var content := parsed.value.delta.value;
      if content != [] {
        AppendContent(content, now);
      } else {
        assert log == afterMeta + [];
      }
    }

    /** The inner `for` over the data lines of one chunk; stops at `[DONE]`. */
    method ProcessLines(lines: seq<string>, parse: string -> Option<StreamEvent>, now: real,
                        ghost buffer0: string, ghost nodes0: seq<NodeExecution>, ghost process0: Option<real>,
                        ghost log0: seq<Callback>)
      requires Valid() && firstByteTime.Some?
      requires buffer == buffer0 && nodes == nodes0 && processTime == process0 && log == log0
      modifies this
      ensures Valid()
      ensures firstByteTime == old(firstByteTime)
      ensures done == (old(done) || !NoSentinel(lines))
      ensures buffer == buffer0 + Text(UntilSentinel(lines), parse)
      ensures nodes == Nodes(nodes0, UntilSentinel(lines), parse)
      ensures processTime == ProcessTimeAfter(process0, Text(UntilSentinel(lines), parse),
                                              ProcessOffset(now, startTime, firstByteTime.value))
      ensures log == log0 + Callbacks(buffer0, nodes0, firstByteTime, process0,
                                      UntilSentinel(lines), parse, ProcessOffset(now, startTime, firstByteTime.value))
    {
      var i := ProcessUntilSentinel(lines, parse, now, ProcessOffset(now, startTime, firstByteTime.value),
                                    buffer0, nodes0, process0, log0);
      if i < |lines| {
        ProcessLine(lines[i], parse, now);  // the `[DONE]` line: sets `done` and leaves the loop
      } else {
        assert lines[..i] == lines;
      }
      UntilSentinelAt(lines, i);
    }

    /**
     * The loop of `ProcessLines` up to (not including) the first `[DONE]` line, whose index it
     * returns; `at` is the offset a first delta gives `processTime`.
     */
    method ProcessUntilSentinel(lines: seq<string>, parse: string -> Option<StreamEvent>, now: real,
                                ghost at: real, ghost buffer0: string, ghost nodes0: seq<NodeExecution>,
                                ghost process0: Option<real>, ghost log0: seq<Callback>)
      returns (i: nat)
      requires Valid() && firstByteTime.Some? && at == ProcessOffset(now, startTime, firstByteTime.value)
      requires buffer == buffer0 && nodes == nodes0 && processTime == process0 && log == log0
      modifies this
      ensures i <= |lines| && NoSentinel(lines[..i]) && (i < |lines| ==> IsSentinel(lines[i]))
      ensures Valid() && firstByteTime == old(firstByteTime) && done == old(done)
      ensures buffer == buffer0 + Text(lines[..i], parse)
      ensures nodes == Nodes(nodes0, lines[..i], parse)
      ensures processTime == ProcessTimeAfter(process0, Text(lines[..i], parse), at)
      ensures log == log0 + Callbacks(buffer0, nodes0, firstByteTime, process0, lines[..i], parse, at)
    {
      i := 0;
      assert lines[..0] == [];
      while i < |lines| && !IsSentinel(lines[i])
        invariant 0 <= i <= |lines|
        invariant Valid() && firstByteTime == old(firstByteTime) && done == old(done)
        invariant NoSentinel(lines[..i])
        invariant buffer == buffer0 + Text(lines[..i], parse)
        invariant nodes == Nodes(nodes0, lines[..i], parse)
        invariant processTime == ProcessTimeAfter(process0, Text(lines[..i], parse), at)
        invariant log == log0 + Callbacks(buffer0, nodes0, firstByteTime, process0, lines[..i], parse, at)
      {
        ProcessNext(lines, i, parse, now, at, buffer0, nodes0, process0, log0);
        i := i + 1;
      }
    }

    /** One pass of that loop: handles `lines[n]`, which is not `[DONE]`, extending the prefix handled. */
    method ProcessNext(lines: seq<string>, n: nat, parse: string -> Option<StreamEvent>, now: real,
                       ghost at: real, ghost buffer0: string, ghost nodes0: seq<NodeExecution>,
                       ghost process0: Option<real>, ghost log0: seq<Callback>)
      requires Valid() && firstByteTime.Some? && at == ProcessOffset(now, startTime, firstByteTime.value)
      requires n < |lines| && NoSentinel(lines[..n]) && !IsSentinel(lines[n])
      requires buffer == buffer0 + Text(lines[..n], parse)
      requires nodes == Nodes(nodes0, lines[..n], parse)
      requires processTime == ProcessTimeAfter(process0, Text(lines[..n], parse), at)
      requires log == log0 + Callbacks(buffer0, nodes0, firstByteTime, process0, lines[..n], parse, at)
      modifies this
      ensures Valid() && firstByteTime == old(firstByteTime) && done == old(done)
      ensures NoSentinel(lines[..n + 1])
      ensures buffer == buffer0 + Text(lines[..n + 1], parse)
      ensures nodes == Nodes(nodes0, lines[..n + 1], parse)
      ensures processTime == ProcessTimeAfter(process0, Text(lines[..n + 1], parse), at)
      ensures log == log0 + Callbacks(buffer0, nodes0, firstByteTime, process0, lines[..n + 1], parse, at)
    {
      assert lines[..n + 1] == lines[..n] + [lines[n]];
      LinesStep(lines[..n], lines[n], lines[..n + 1], parse, at, firstByteTime, buffer0, nodes0, process0, log0,
                buffer, nodes, processTime, log);
      NoSentinelExtend(lines, n);
      ProcessLine(lines[n], parse, now);
    }

    /**
     * One successful read: its clock reading, its `done` flag, then its data lines. `send` is
     * the first-byte offset once this read is marked.
     */
    method ReadChunk(ghost seen: seq<string>, r: Read, extract: string -> seq<string>,
                     parse: string -> Option<StreamEvent>, ghost buffer0: string, ghost nodes0: seq<NodeExecution>,
                     ghost process0: Option<real>, ghost log0: seq<Callback>, ghost send: Option<real>)
      requires r.Chunk? && NoSentinel(seen)
      requires Valid() && !done
      requires buffer == buffer0 && nodes == nodes0 && processTime == process0 && log == log0
      requires buffer0 == Text(UntilSentinel(seen), parse)
      requires nodes0 == Nodes([], UntilSentinel(seen), parse)
      requires send == Mark(firstByteTime, r.at, startTime)
      modifies this
      ensures Valid()
      ensures buffer == Text(UntilSentinel(seen + extract(r.text)), parse)
      ensures nodes == Nodes([], UntilSentinel(seen + extract(r.text)), parse)
      ensures done == Stops(r, extract)
      ensures firstByteTime == send
      ensures processTime == ProcessTimeAfter(process0, Text(UntilSentinel(extract(r.text)), parse),
                                              ProcessOffset(r.processAt, startTime, send.value))
      ensures log == log0 + Callbacks(buffer0, nodes0, send, process0, UntilSentinel(extract(r.text)), parse,
                                      ProcessOffset(r.processAt, startTime, send.value))
    {
      CleanAppend(seen, extract(r.text), parse);
      MarkRead(r.at);
      done := r.doneReading;
      ProcessLines(extract(r.text), parse, r.processAt, buffer0, nodes0, process0, log0);
    }

    /** The state once the first `j` reads are handled and none was the stopping one. */
    ghost predicate AfterReads(transcript: seq<Read>, j: nat, extract: string -> seq<string>,
                               parse: string -> Option<StreamEvent>)
      requires j <= |transcript|
      reads this
    {
      StateAfter(transcript, j, extract, parse, startTime, firstByteTime, buffer, nodes, processTime, log)
    }

    /**
     * The outer `while (!done)`: reads until the transport is done, a chunk carries `[DONE]`,
     * or a read throws (`failed`). `extract` turns a chunk into its data lines.
     */
    method ReadAll(transcript: seq<Read>, extract: string -> seq<string>, parse: string -> Option<StreamEvent>)
      returns (failed: bool)
      requires Terminates(transcript, extract)
      requires Valid() && !done && firstByteTime.None? && buffer == [] && nodes == [] && log == []
      modifies this
      ensures Valid()
      ensures failed == ReadFails(transcript, extract)
      ensures buffer == Text(SessionLines(transcript, extract), parse)
      ensures nodes == Nodes([], SessionLines(transcript, extract), parse)
      ensures firstByteTime == FirstByte(transcript, startTime)
      ensures processTime == SessionProcess(transcript, extract, parse)
      ensures log == Emitted(transcript, SessionReads(transcript, extract), extract, parse, startTime)
    {
      ghost var stop := StopIndex(transcript, extract);
      var j := 0;
      assert Flat(transcript, 0, extract) == [];
      while !done
        invariant j <= stop + 1
        invariant Valid()
        invariant if done then j == stop + 1 && transcript[stop].Chunk? else j <= stop
        invariant AfterReads(transcript, j, extract, parse)
        decreases stop + 1 - j
      {
        var r := transcript[j];
        if r.ReadFailure? {
          StopAt(transcript, extract, j);
          SessionEnd(transcript, extract, j);
          assert j == SessionReads(transcript, extract);
          return true;
        }
        ReadNext(transcript, j, extract, parse);
        j := j + 1;
      }
      SessionEnd(transcript, extract, j);
      assert j == SessionReads(transcript, extract);
      failed := false;
    }

    /** One pass of the outer loop on a read that did not throw, up to and including the stopping one. */
    method ReadNext(transcript: seq<Read>, j: nat, extract: string -> seq<string>,
                    parse: string -> Option<StreamEvent>)
      requires Terminates(transcript, extract) && j <= StopIndex(transcript, extract) && transcript[j].Chunk?
      requires Valid() && !done && AfterReads(transcript, j, extract, parse)
      modifies this
      ensures Valid() && AfterReads(transcript, j + 1, extract, parse)
      ensures done <==> j == StopIndex(transcript, extract)
    {
      ghost var first, buffer0, nodes0, process0, log0 := firstByteTime, buffer, nodes, processTime, log;
      ReadStep(transcript, j, extract);
      ghost var send := Some(transcript[0].at - startTime);
      ReadChunk(Flat(transcript, j, extract), transcript[j], extract, parse, buffer0, nodes0, process0, log0, send);
      StateAfterStep(transcript, j, extract, parse, startTime, first, buffer0, nodes0, process0, log0,
                     firstByteTime, buffer, nodes, processTime, log);
    }

    /** Appends the final metrics and `onComplete(buffer)`. */
    method Complete(endAt: real)
      requires Valid() && Coherent(log, buffer)
      modifies this
      ensures EndsOnce(log) && ContentsGrow(log, buffer) && LastContentIs(log, buffer)
      ensures FinalReport(log, buffer, nodes, firstByteTime, processTime, startTime, endAt)
      ensures buffer == old(buffer) && nodes == old(nodes)
      ensures firstByteTime == old(firstByteTime) && processTime == old(processTime)
      ensures log == Closed(old(log), false, firstByteTime, processTime, startTime, endAt, nodes, buffer)
    {
      var total := endAt - startTime;
      var m := FinalMetrics(firstByteTime, processTime, total, nodes);
      CompletedLogShape(log, buffer, m);
      log := log + [OnMetrics(m), OnComplete(buffer)];
    }

    /** Appends `onError(err)`. */
    method Fail(err: ServiceError)
      requires Valid() && Coherent(log, buffer)
      modifies this
      ensures EndsOnce(log) && ContentsGrow(log, buffer) && LastContentIs(log, buffer)
      ensures buffer == old(buffer) && nodes == old(nodes)
      ensures firstByteTime == old(firstByteTime) && processTime == old(processTime)
      ensures log == old(log) + [OnError(err)]
    {
      FailedLogShape(log, buffer, err);
      log := log + [OnError(err)];
    }
  }

  /** When the loop ends, the callbacks it fired are coherent with the session's whole text. */
  lemma SessionCoherent(transcript: seq<Read>, extract: string -> seq<string>,
                        parse: string -> Option<StreamEvent>, start: real)
    requires Terminates(transcript, extract)
    ensures Coherent(Emitted(transcript, SessionReads(transcript, extract), extract, parse, start),
                     Text(SessionLines(transcript, extract), parse))
  {
    var n := SessionReads(transcript, extract);
    EmittedCoherent(transcript, n, extract, parse, start);
    SessionEnd(transcript, extract, n);
    CoherentTransport(Emitted(transcript, n, extract, parse, start),
                      Emitted(transcript, n, extract, parse, start),
                      Text(UntilSentinel(Flat(transcript, n, extract)), parse),
                      Text(SessionLines(transcript, extract), parse));
  }

  /** The arguments of a session's `onContent` calls, in order: what an editor following it receives. */
  function SessionTexts(transcript: seq<Read>, extract: string -> seq<string>,
                        parse: string -> Option<StreamEvent>, start: real): seq<string>
    requires Terminates(transcript, extract)
  {
    ContentTexts(Emitted(transcript, SessionReads(transcript, extract), extract, parse, start))
  }

  /**
   * The editor of a session sees texts that grow one from the next, each a prefix of the
   * session's text; it sees none exactly when no text arrived, and otherwise the last is the
   * whole text.
   */
  lemma SessionTextsShape(transcript: seq<Read>, extract: string -> seq<string>,
                          parse: string -> Option<StreamEvent>, start: real)
    requires Terminates(transcript, extract)
    ensures var texts := SessionTexts(transcript, extract, parse, start);
      var text := Text(SessionLines(transcript, extract), parse);
      && (texts == [] <==> text == [])
      && (texts != [] ==> texts[|texts| - 1] == text)
      && (forall k :: 0 <= k < |texts| ==> IsPrefix(texts[k], text))
      && (forall k, l {:trigger IsPrefix(texts[k], texts[l])} ::
            0 <= k < l < |texts| ==> IsPrefix(texts[k], texts[l]))
  {
    var log := Emitted(transcript, SessionReads(transcript, extract), extract, parse, start);
    var text := Text(SessionLines(transcript, extract), parse);
    SessionCoherent(transcript, extract, parse, start);
    LastContentTexts(log, text);
    ContentTextsGrow(log, text);
  }

  /** The editor of a session gets exactly the loop's `onContent` texts: the closing callbacks add none. */
  lemma SessionCallbackTexts(transcript: seq<Read>, extract: string -> seq<string>,
                             parse: string -> Option<StreamEvent>, startAt: real, endAt: real)
    requires Terminates(transcript, extract)
    ensures ContentTexts(SessionCallbacks(transcript, extract, parse, startAt, endAt))
         == SessionTexts(transcript, extract, parse, startAt)
  {
    var emitted := Emitted(transcript, SessionReads(transcript, extract), extract, parse, startAt);
    var log := SessionCallbacks(transcript, extract, parse, startAt, endAt);
    var tail := log[|emitted|..];
    assert log == emitted + tail;
    ContentTextsAppend(emitted, tail);
    if ReadFails(transcript, extract) {
      assert tail[..0] == [];
    } else {
      assert |tail| == 2 && !tail[0].OnContent? && !tail[1].OnContent?;
      assert tail[..1] == [tail[0]] && tail[..1][..0] == [];
      assert ContentTexts(tail[..1]) == [];
    }
  }

  /** Coherence depends only on the log and the buffer, not on how they are written. */
  lemma CoherentTransport(log: seq<Callback>, log': seq<Callback>, buffer: string, buffer': string)
    requires Coherent(log, buffer) && log == log' && buffer == buffer'
    ensures Coherent(log', buffer')
  {
  }

  /**
   * What a session on an accepted response leaves, from the values the read loop ends with:
   * closed by `onError` or by the final metrics and `onComplete`, it is exactly
   * `SessionCallbacks`, ends once, and its `onContent` texts grow to the whole text.
   */
  lemma SessionOutcome(transcript: seq<Read>, extract: string -> seq<string>, parse: string -> Option<StreamEvent>,
                       startAt: real, endAt: real, failed: bool, emitted: seq<Callback>, buffer: string,
                       nodes: seq<NodeExecution>, firstByte: Option<real>, process: Option<real>)
    requires Terminates(transcript, extract) && failed == ReadFails(transcript, extract)
    requires emitted == Emitted(transcript, SessionReads(transcript, extract), extract, parse, startAt)
    requires buffer == Text(SessionLines(transcript, extract), parse)
    requires nodes == Nodes([], SessionLines(transcript, extract), parse)
    requires firstByte == FirstByte(transcript, startAt)
    requires process == SessionProcess(transcript, extract, parse)
    ensures Closed(emitted, failed, firstByte, process, startAt, endAt, nodes, buffer)
         == SessionCallbacks(transcript, extract, parse, startAt, endAt)
    ensures var log := Closed(emitted, failed, firstByte, process, startAt, endAt, nodes, buffer);
      && EndsOnce(log) && ContentsGrow(log, buffer) && LastContentIs(log, buffer)
      && (log[|log| - 1].OnComplete? <==> !failed)
  {
    var log := Closed(emitted, failed, firstByte, process, startAt, endAt, nodes, buffer);
    assert log == SessionCallbacks(transcript, extract, parse, startAt, endAt) by {
      if !failed {
        FirstReadArrives(transcript, extract);
      }
    }
    SessionCoherent(transcript, extract, parse, startAt);
    if failed {
      FailedLogShape(emitted, buffer, ReadFailed);
    } else {
      CompletedLogShape(emitted, buffer, FinalMetrics(firstByte, process, endAt - startAt, nodes));
    }
  }

  /** A body that does not fail delivered its first read. */
  lemma FirstReadArrives(transcript: seq<Read>, extract: string -> seq<string>)
    requires Terminates(transcript, extract) && !ReadFails(transcript, extract)
    ensures transcript[0].Chunk?
  {
    if StopIndex(transcript, extract) > 0 {
      StopIndexIsFirst(transcript, extract, 0);
    }
  }

  /** One read step: the reads so far did not stop, so the new chunk's lines follow theirs. */
  /** The session state, as values, once the first `j` reads are handled and none was the stopping one. */
  ghost predicate StateAfter(transcript: seq<Read>, j: nat, extract: string -> seq<string>,
                             parse: string -> Option<StreamEvent>, start: real, firstByte: Option<real>,
                             buffer: string, nodes: seq<NodeExecution>, process: Option<real>, log: seq<Callback>)
    requires j <= |transcript|
  {
    && (j == 0 ==> firstByte.None?)
    && (j > 0 ==> transcript[0].Chunk? && firstByte == Some(transcript[0].at - start))
    && buffer == Text(UntilSentinel(Flat(transcript, j, extract)), parse)
    && nodes == Nodes([], UntilSentinel(Flat(transcript, j, extract)), parse)
    && process == ProcessAfter(transcript, j, extract, parse)
    && log == Emitted(transcript, j, extract, parse, start)
  }

  /**
   * What one more read that does not throw does to that state: the values the read loop leaves
   * (first-byte offset, buffer, nodes, process time and log after `ReadChunk`) are the state after
   * `j + 1` reads.
   */
  lemma StateAfterStep(transcript: seq<Read>, j: nat, extract: string -> seq<string>,
                       parse: string -> Option<StreamEvent>, start: real, firstByte: Option<real>,
                       buffer: string, nodes: seq<NodeExecution>, process: Option<real>, log: seq<Callback>,
                       firstByte1: Option<real>, buffer1: string, nodes1: seq<NodeExecution>,
                       process1: Option<real>, log1: seq<Callback>)
    requires Terminates(transcript, extract) && j <= StopIndex(transcript, extract) && transcript[j].Chunk?
    requires StateAfter(transcript, j, extract, parse, start, firstByte, buffer, nodes, process, log)
    requires var send := if firstByte.None? then Some(transcript[j].at - start) else firstByte;
      var lines := UntilSentinel(extract(transcript[j].text));
      var at := ProcessOffset(transcript[j].processAt, start, send.value);
      && firstByte1 == send
      && buffer1 == Text(UntilSentinel(Flat(transcript, j, extract) + extract(transcript[j].text)), parse)
      && nodes1 == Nodes([], UntilSentinel(Flat(transcript, j, extract) + extract(transcript[j].text)), parse)
      && process1 == ProcessTimeAfter(process, Text(lines, parse), at)
      && log1 == log + Callbacks(buffer, nodes, send, process, lines, parse, at)
    ensures StateAfter(transcript, j + 1, extract, parse, start, firstByte1, buffer1, nodes1, process1, log1)
  {
    ReadStep(transcript, j, extract);
    EmittedStep(transcript, j, extract, parse, start, buffer, nodes, process, firstByte1);
  }

  lemma ReadStep(transcript: seq<Read>, j: nat, extract: string -> seq<string>)
    requires Terminates(transcript, extract) && j <= StopIndex(transcript, extract) && transcript[j].Chunk?
    ensures NoSentinel(Flat(transcript, j, extract))
    ensures Flat(transcript, j + 1, extract) == Flat(transcript, j, extract) + extract(transcript[j].text)
    ensures Stops(transcript[j], extract) <==> j == StopIndex(transcript, extract)
  {
    FlatNoSentinel(transcript, j, extract);
    if Stops(transcript[j], extract) {
      StopAt(transcript, extract, j);
    }
  }

  /** The loop ends after the stopping read, or at it when that read fails. */
  lemma SessionEnd(transcript: seq<Read>, extract: string -> seq<string>, j: nat)
    requires Terminates(transcript, extract)
    requires var stop := StopIndex(transcript, extract);
      j == stop + 1 || (j == stop && transcript[stop].ReadFailure?)
    ensures SessionLines(transcript, extract) == UntilSentinel(Flat(transcript, j, extract))
  {
    var stop := StopIndex(transcript, extract);
    assert SessionLines(transcript, extract) == UntilSentinel(Flat(transcript, stop + 1, extract));
    if j == stop {
      assert ChunkLines(transcript[stop], extract) == [];
      assert Flat(transcript, stop + 1, extract) == Flat(transcript, stop, extract) + [];
      assert Flat(transcript, stop, extract) + [] == Flat(transcript, stop, extract);
    }
  }

  /** After a run without sentinel, processing `chunk` continues the text and the node list. */
  lemma CleanAppend(seen: seq<string>, chunk: seq<string>, parse: string -> Option<StreamEvent>)
    requires NoSentinel(seen)
    ensures Text(UntilSentinel(seen + chunk), parse) == Text(UntilSentinel(seen), parse) + Text(UntilSentinel(chunk), parse)
    ensures Nodes([], UntilSentinel(seen + chunk), parse)
         == Nodes(Nodes([], UntilSentinel(seen), parse), UntilSentinel(chunk), parse)
  {
    UntilSentinelAppend(seen, chunk);
    assert seen[..|seen|] == seen;
    UntilSentinelAt(seen, |seen|);
    TextAppend(seen, UntilSentinel(chunk), parse);
    NodesAppend([], seen, UntilSentinel(chunk), parse);
  }

  /**
   * The state the hook exposes, and the `generateCompletion` operation. `extract` is how a chunk
   * becomes the lines the loop handles; the hook always uses `DataLines`.
   */
  class CompletionService {
    const extract: string -> seq<string>
    var isGenerating: bool
    var connectionStatus: ConnectionStatus
    var content: string
    var error: Option<ServiceError>

    constructor ()
      ensures extract == DataLines
      ensures !isGenerating && connectionStatus == Connected && content == [] && error == None
    {
      extract := DataLines;
      isGenerating, connectionStatus, content, error := false, Connected, [], None;
    }

    /**
     * One completion request. `startAt` and `endAt` are the clock readings before the fetch and
     * after the loop. Returns the callbacks fired, in order.
     */
    method GenerateCompletion(response: Response, parse: string -> Option<StreamEvent>,
                              startAt: real, endAt: real)
      returns (log: seq<Callback>)
      requires response.Body? ==> Terminates(response.transcript, extract)
      modifies this
      ensures !isGenerating
      ensures EndsOnce(log)
      ensures log[|log| - 1].OnComplete? <==> Succeeds(response, extract)
      ensures Succeeds(response, extract) ==>
        && response.transcript[0].Chunk?
        && FinalReport(log, content, Nodes([], SessionLines(response.transcript, extract), parse),
                       FirstByte(response.transcript, startAt), SessionProcess(response.transcript, extract, parse),
                       startAt, endAt)
        && connectionStatus == Connected && error == None
      ensures !Succeeds(response, extract) ==>
        && log[|log| - 1] == OnError(ErrorOf(response, extract))
        && connectionStatus == Disconnected && error == Some(ErrorOf(response, extract))
      ensures response.Body? ==>
        content == Text(SessionLines(response.transcript, extract), parse) && ContentsGrow(log, content)
      ensures !response.Body? ==> log == [OnError(ErrorOf(response, extract))] && content == []
      ensures response.Body? ==> LastContentIs(log, content)
      ensures response.Body? ==> log == SessionCallbacks(response.transcript, extract, parse, startAt, endAt)
    {
      isGenerating, connectionStatus, content, error := true, Connecting, [], None;
      connectionStatus := Connected;
      match response {
        case HttpError(status, body) =>
          log := [OnError(ApiError(status, body))];
          connectionStatus, error := Disconnected, Some(ApiError(status, body));
          isGenerating := false;
        case RequestThrows =>
          log := [OnError(RequestFailed)];
          connectionStatus, error := Disconnected, Some(RequestFailed);
          isGenerating := false;
        case Body(transcript) =>
          log := ConsumeBody(transcript, parse, startAt, endAt);
          isGenerating := false;
      }
    }

    /** The response was accepted: streams the body, then reports completion or the read error. */
    method ConsumeBody(transcript: seq<Read>, parse: string -> Option<StreamEvent>,
                       startAt: real, endAt: real)
      returns (log: seq<Callback>)
      requires Terminates(transcript, extract)
      requires connectionStatus == Connected && error == None
      modifies this
      ensures isGenerating == old(isGenerating)
      ensures EndsOnce(log)
      ensures content == Text(SessionLines(transcript, extract), parse)
      ensures ContentsGrow(log, content)
      ensures log[|log| - 1].OnComplete? <==> !ReadFails(transcript, extract)
      ensures !ReadFails(transcript, extract) ==>
        transcript[0].Chunk? &&
        FinalReport(log, content, Nodes([], SessionLines(transcript, extract), parse),
                    FirstByte(transcript, startAt), SessionProcess(transcript, extract, parse), startAt, endAt) &&
        connectionStatus == Connected && error == None
      ensures ReadFails(transcript, extract) ==>
        log[|log| - 1] == OnError(ReadFailed) &&
        connectionStatus == Disconnected && error == Some(ReadFailed)
      ensures log == SessionCallbacks(transcript, extract, parse, startAt, endAt) && LastContentIs(log, content)
    {
      var text, failed;
      log, text, failed := RunSession(transcript, extract, parse, startAt, endAt);
      if failed {
        content, connectionStatus, error := text, Disconnected, Some(ReadFailed);
      } else {
        content := text;
      }
    }
  }

  /**
   * The read loop of one accepted response on a fresh session, then `onComplete` or `onError`:
   * the callbacks fired, the accumulated text, and whether a read failed.
   */
  method RunSession(transcript: seq<Read>, extract: string -> seq<string>,
                    parse: string -> Option<StreamEvent>, startAt: real, endAt: real)
    returns (log: seq<Callback>, content: string, failed: bool)
    requires Terminates(transcript, extract)
    ensures failed == ReadFails(transcript, extract)
    ensures EndsOnce(log)
    ensures content == Text(SessionLines(transcript, extract), parse)
    ensures ContentsGrow(log, content)
    ensures log[|log| - 1].OnComplete? <==> !failed
    ensures !failed ==>
      transcript[0].Chunk? &&
      FinalReport(log, content, Nodes([], SessionLines(transcript, extract), parse),
                  FirstByte(transcript, startAt), SessionProcess(transcript, extract, parse), startAt, endAt)
    ensures failed ==> log[|log| - 1] == OnError(ReadFailed)
    ensures LastContentIs(log, content)
    ensures log == SessionCallbacks(transcript, extract, parse, startAt, endAt)
  {
    var session := new CompletionSession(startAt);
    failed := session.ReadAll(transcript, extract, parse);
    ghost var emitted := session.log;
    SessionCoherent(transcript, extract, parse, startAt);
    if failed {
      session.Fail(ReadFailed);
      log, content := session.log, session.buffer;
      assert log == Closed(emitted, true, session.firstByteTime, session.processTime, startAt, endAt, session.nodes, content);
      SessionOutcome(transcript, extract, parse, startAt, endAt, failed, emitted, content, session.nodes,
                     session.firstByteTime, session.processTime);
    } else {
      FirstReadArrives(transcript, extract);
      session.Complete(endAt);
      log, content := session.log, session.buffer;
      assert log == Closed(emitted, false, session.firstByteTime, session.processTime, startAt, endAt, session.nodes, content);
      SessionOutcome(transcript, extract, parse, startAt, endAt, failed, emitted, content, session.nodes,
                     session.firstByteTime, session.processTime);
    }

  }
}

=== FILE: strings.dfy ===
/**
 * The JavaScript string operations the components rely on (`trim`, `split`, `includes`,
 * `startsWith`, `replace`, `toLowerCase`, number-to-string), defined over `seq<char>` and
 * proved against independent characterisations.
 */
module Strings {
  import Seqs

  /** JavaScript's white-space class: what `\s` matches and what `trim` removes. */
  predicate IsSpace(c: char) {
    || c == ' ' || c == '\t' || c == '\n' || c == '\r' || c == '\U{000B}' || c == '\U{000C}'
    || c == '\U{00A0}' || c == '\U{1680}' || ('\U{2000}' <= c <= '\U{200A}')
    || c == '\U{2028}' || c == '\U{2029}' || c == '\U{202F}' || c == '\U{205F}'
    || c == '\U{3000}' || c == '\U{FEFF}'
  }

  predicate NoSpace(s: string) {
    forall i :: 0 <= i < |s| ==> !IsSpace(s[i])
  }

  predicate AllSpace(s: string) {
    forall i :: 0 <= i < |s| ==> IsSpace(s[i])
  }

  /** A string that `trim` leaves unchanged. */
  predicate IsTrimmed(s: string) {
    s == [] || (!IsSpace(s[0]) && !IsSpace(s[|s| - 1]))
  }

  /** `s.trimStart()`: the suffix left after the leading white space. */
  function TrimStart(s: string): (r: string)
    ensures |r| <= |s|
  {
    if s != [] && IsSpace(s[0]) then TrimStart(s[1..]) else s
  }

  /** What `trimStart` removes is white space, and what it keeps starts with a non-space. */
  lemma {:induction false} TrimStartSpec(s: string)
    ensures var r := TrimStart(s);
      && r == s[|s| - |r|..]
      && AllSpace(s[..|s| - |r|])
      && (r != [] ==> !IsSpace(r[0]))
  {
    if s != [] && IsSpace(s[0]) {
      TrimStartSpec(s[1..]);
      var r := TrimStart(s);
      assert s[1..][|s| - 1 - |r|..] == s[|s| - |r|..];
      assert s[..|s| - |r|] == [s[0]] + s[1..][..|s| - 1 - |r|];
    }
  }

  /** `s.trimEnd()`: the prefix left before the trailing white space. */
  function TrimEnd(s: string): (r: string)
    ensures |r| <= |s|
  {
    if s != [] && IsSpace(s[|s| - 1]) then TrimEnd(s[..|s| - 1]) else s
  }

  /** What `trimEnd` removes is white space, and what it keeps ends with a non-space. */
  lemma {:induction false} TrimEndSpec(s: string)
    ensures var r := TrimEnd(s);
      && r == s[..|r|]
      && AllSpace(s[|r|..])
      && (r != [] ==> !IsSpace(r[|r| - 1]))
  {
    if s != [] && IsSpace(s[|s| - 1]) {
      var p := s[..|s| - 1];
      TrimEndSpec(p);
      var r := TrimEnd(s);
      assert p[..|r|] == s[..|r|];
      assert s[|r|..] == p[|r|..] + [s[|s| - 1]];
    }
  }

  /** `s.trim()`: `s` with white space removed at both ends. */
  function Trim(s: string): (r: string)
    ensures |r| <= |s|
  {
    TrimEnd(TrimStart(s))
  }

  /**
   * `trim` keeps a piece of `s` with no white space at either end, and what it drops on each
   * side is white space: nothing else changes.
   */
  lemma TrimSpec(s: string)
    ensures IsTrimmed(Trim(s))
    ensures var k := |s| - |TrimStart(s)|; var r := Trim(s);
      && k + |r| <= |s| && r == s[k..k + |r|]
      && AllSpace(s[..k]) && AllSpace(s[k + |r|..])
  {
    var t := TrimStart(s);
    var r := TrimEnd(t);
    TrimStartSpec(s);
    TrimEndSpec(t);
    var k := |s| - |t|;
    assert r != [] ==> r[0] == t[0];
    assert s[k + |r|..] == t[|r|..];
  }

  /** `trim()` gives a piece of `s` with no white space at its ends and only white space around it. */
  lemma TrimIsPiece(s: string)
    ensures var r := Trim(s);
      && IsTrimmed(r)
      && exists a :: 0 <= a && a + |r| <= |s| && r == s[a..a + |r|]
                       && AllSpace(s[..a]) && AllSpace(s[a + |r|..])
  {
    TrimSpec(s);
    var a := |s| - |TrimStart(s)|;
    var r := Trim(s);
    assert 0 <= a && a + |r| <= |s| && r == s[a..a + |r|] && AllSpace(s[..a]) && AllSpace(s[a + |r|..]);
  }

  lemma TrimStartOfTrimmed(s: string)
    requires s == [] || !IsSpace(s[0])
    ensures TrimStart(s) == s
  {
  }

  /** A string without white space at either end is its own trimmed form. */
  lemma TrimOfTrimmed(s: string)
    requires IsTrimmed(s)
    ensures Trim(s) == s
  {
    TrimStartOfTrimmed(s);
  }

  /** `s.startsWith(p)`. */
  predicate StartsWith(s: string, p: string) {
    |p| <= |s| && s[..|p|] == p
  }

  /** `s.includes(t)`: some position of `s` starts an occurrence of `t`. */
  predicate Contains(s: string, t: string)
    decreases |s|
  {
    StartsWith(s, t) || (|s| > 0 && Contains(s[1..], t))
  }

  /** An occurrence of `t` at position `i` of `s` makes `s.includes(t)` true. */
  lemma {:induction false} ContainsAt(s: string, t: string, i: nat)
    requires i + |t| <= |s| && s[i..i + |t|] == t
    ensures Contains(s, t)
  {
    if i > 0 {
      assert s[1..][i - 1..i - 1 + |t|] == t;
      ContainsAt(s[1..], t, i - 1);
    }
  }

  /** `s.includes(t)` only when some position of `s` starts an occurrence of `t`. */
  lemma {:induction false} ContainsWitness(s: string, t: string) returns (i: nat)
    requires Contains(s, t)
    ensures i + |t| <= |s| && s[i..i + |t|] == t
    decreases |s|
  {
    if StartsWith(s, t) {
      i := 0;
    } else {
      var j := ContainsWitness(s[1..], t);
      assert s[1..][j..j + |t|] == s[j + 1..j + 1 + |t|];
      i := j + 1;
    }
  }

  lemma ContainsInfix(a: string, t: string, b: string)
    ensures Contains(a + t + b, t)
  {
    assert (a + t + b)[|a|..|a| + |t|] == t;
    ContainsAt(a + t + b, t, |a|);
  }

  /** What `s` contains it keeps when more text follows it. */
  lemma ContainsExtend(s: string, t: string, u: string)
    requires Contains(s, t)
    ensures Contains(s + u, t)
  {
    var i := ContainsWitness(s, t);
    assert (s + u)[i..i + |t|] == s[i..i + |t|];
    ContainsAt(s + u, t, i);
  }

  /** Every character of a contained string occurs in the containing one. */
  lemma ContainsChars(s: string, t: string, c: char)
    requires Contains(s, t) && c in t
    ensures c in s
  {
    var i := ContainsWitness(s, t);
    var k :| 0 <= k < |t| && t[k] == c;
    assert s[i + k] == s[i..i + |t|][k];
  }

  /** The ASCII letters `A`-`Z` lowered; every other character unchanged. */
  function LowerChar(c: char): char {
    if 'A' <= c <= 'Z' then (c as int + 32) as char else c
  }

  /** `s.toLowerCase()` (ASCII letters only). */
  function ToLower(s: string): (r: string)
    ensures |r| == |s|
    ensures forall i :: 0 <= i < |s| ==> r[i] == LowerChar(s[i])
  {
    seq(|s|, i requires 0 <= i < |s| => LowerChar(s[i]))
  }

  /** `s.toLowerCase().includes(t.toLowerCase())`. */
  predicate ContainsIgnoreCase(s: string, t: string) {
    Contains(ToLower(s), ToLower(t))
  }

  /** Every string includes the empty string, so an empty query matches everything. */
  lemma {:induction false} ContainsEmpty(s: string)
    ensures ContainsIgnoreCase(s, "")
  {
    assert ToLower("") == "";
    assert StartsWith(ToLower(s), "");
  }

  /** The number of occurrences of `c` in `s`. */
  function Count(s: string, c: char): nat {
    if s == [] then 0 else (if s[0] == c then 1 else 0) + Count(s[1..], c)
  }

  /** `s.split(c)` for a one-character separator: the pieces between the occurrences of `c`. */
  function SplitOn(s: string, c: char): (r: seq<string>)
    ensures |r| >= 1
  {
    if s == [] then [[]]
    else
      var rest := SplitOn(s[1..], c);
      if s[0] == c then [[]] + rest else [[s[0]] + rest[0]] + rest[1..]
  }

  /** The split has one more piece than `s` has separators, and no piece holds a separator. */
  lemma {:induction false} SplitOnSpec(s: string, c: char)
    ensures |SplitOn(s, c)| == 1 + Count(s, c)
    ensures forall i :: 0 <= i < |SplitOn(s, c)| ==> c !in SplitOn(s, c)[i]
  {
    if s != [] {
      SplitOnSpec(s[1..], c);
      var rest := SplitOn(s[1..], c);
      var r := SplitOn(s, c);
      if s[0] != c {
        assert r[0] == [s[0]] + rest[0];
        forall i | 1 <= i < |r| ensures c !in r[i] {
          assert r[i] == rest[i];
        }
      } else {
        forall i | 1 <= i < |r| ensures c !in r[i] {
          assert r[i] == rest[i - 1];
        }
      }
    }
  }

  /** `parts.join(sep)`. */
  function Join(parts: seq<string>, sep: string): string {
    if |parts| == 0 then []
    else if |parts| == 1 then parts[0]
    else parts[0] + sep + Join(parts[1..], sep)
  }

  /** The five pieces of `a + d + m + t + c` can be cut back out of it, measuring from either end. */
  lemma Pieces(a: string, d: string, m: string, t: string, c: string)
    ensures var r := a + d + m + t + c; var k := |r| - |c| - |t| - |m|;
      && k == |a| + |d|
      && r[..|a|] == a && r[|a|..k] == d && r[k..k + |m|] == m
      && r[k + |m|..|r| - |c|] == t && r[|r| - |c|..] == c
  {
    var r := a + d + m + t + c;
    assert r == a + (d + (m + (t + c)));
  }

  /** A join starts with the first part and ends with the last. */
  lemma {:induction false} JoinEnds(parts: seq<string>, sep: string)
    requires parts != []
    ensures var j := Join(parts, sep); var last := parts[|parts| - 1];
      && |parts[0]| <= |j| && j[..|parts[0]|] == parts[0]
      && |last| <= |j| && j[|j| - |last|..] == last
  {
    if |parts| > 1 {
      JoinEnds(parts[1..], sep);
      var rest := Join(parts[1..], sep);
      assert Join(parts, sep) == parts[0] + sep + rest;
      assert parts[1..][|parts[1..]| - 1] == parts[|parts| - 1];
    }
  }

  /** Joining the pieces of a split with the separator gives back the original string. */
  lemma {:induction false} JoinSplitOn(s: string, c: char)
    ensures Join(SplitOn(s, c), [c]) == s
  {
    if s != [] {
      var rest := SplitOn(s[1..], c);
      JoinSplitOn(s[1..], c);
      if s[0] == c {
        assert SplitOn(s, c) == [[]] + rest;
        assert ([[]] + rest)[1..] == rest;
      } else {
        var r := SplitOn(s, c);
        assert r == [[s[0]] + rest[0]] + rest[1..];
        if |rest| == 1 {
          assert Join(rest, [c]) == rest[0];
        } else {
          assert r[1..] == rest[1..];
          assert Join(rest, [c]) == rest[0] + [c] + Join(rest[1..], [c]);
          assert Join(r, [c]) == [s[0]] + rest[0] + [c] + Join(rest[1..], [c]);
        }
      }
    }
  }

  /** A string without the separator splits into itself alone. */
  lemma {:induction false} SplitOnNoSeparator(s: string, c: char)
    requires c !in s
    ensures SplitOn(s, c) == [s]
  {
    if s != [] {
      SplitOnNoSeparator(s[1..], c);
      assert [s[0]] + s[1..] == s;
    }
  }

  /** A separator after a separator-free prefix ends the first piece there. */
  lemma {:induction false} SplitOnAfter(a: string, c: char, b: string)
    requires c !in a
    ensures SplitOn(a + [c] + b, c) == [a] + SplitOn(b, c)
  {
    var s := a + [c] + b;
    if a == [] {
      assert s[1..] == b;
    } else {
      assert s[1..] == a[1..] + [c] + b;
      SplitOnAfter(a[1..], c, b);
      assert [a[0]] + a[1..] == a;
    }
  }

  /** Splitting undoes joining when no piece holds the separator. */
  lemma {:induction false} SplitOnJoin(parts: seq<string>, c: char)
    requires parts != []
    requires forall i :: 0 <= i < |parts| ==> c !in parts[i]
    ensures SplitOn(Join(parts, [c]), c) == parts
  {
    if |parts| == 1 {
      SplitOnNoSeparator(parts[0], c);
    } else {
      SplitOnJoin(parts[1..], c);
      SplitOnAfter(parts[0], c, Join(parts[1..], [c]));
      assert [parts[0]] + parts[1..] == parts;
    }
  }

  /** Text in front of a join belongs to its first piece. */
  lemma JoinPrependFirst(u: string, parts: seq<string>, sep: string)
    requires parts != []
    ensures u + Join(parts, sep) == Join([u + parts[0]] + parts[1..], sep)
  {
    var q := [u + parts[0]] + parts[1..];
    assert q[1..] == parts[1..];
  }

  /** Each part with a space in front. */
  function LeadingSpace(parts: seq<string>): (r: seq<string>)
    ensures |r| == |parts| && forall i :: 0 <= i < |parts| ==> r[i] == " " + parts[i]
  {
    seq(|parts|, i requires 0 <= i < |parts| => " " + parts[i])
  }

  /** Joining with `c` and a space is joining with `c` after a space in front of every part but the first. */
  lemma {:induction false} JoinSpaced(parts: seq<string>, c: char)
    requires parts != []
    ensures Join(parts, [c, ' ']) == Join([parts[0]] + LeadingSpace(parts[1..]), [c])
  {
    if |parts| > 1 {
      var rest := parts[1..];
      JoinSpaced(rest, c);
      var tail := [rest[0]] + LeadingSpace(rest[1..]);
      JoinPrependFirst(" ", tail, [c]);
      assert [" " + tail[0]] + tail[1..] == LeadingSpace(rest);
      var spaced := [parts[0]] + LeadingSpace(rest);
      assert spaced[1..] == LeadingSpace(rest);
      assert Join(spaced, [c]) == parts[0] + [c] + Join(LeadingSpace(rest), [c]);
    }
  }

  /** Splitting parts joined by `c` and a space on `c` leaves a space in front of all but the first. */
  lemma SplitSpaced(parts: seq<string>, c: char) returns (spaced: seq<string>)
    requires parts != [] && c != ' '
    requires forall i :: 0 <= i < |parts| ==> c !in parts[i]
    ensures spaced == [parts[0]] + LeadingSpace(parts[1..])
    ensures SplitOn(Join(parts, [c, ' ']), c) == spaced
  {
    spaced := [parts[0]] + LeadingSpace(parts[1..]);
    forall i | 0 <= i < |spaced| ensures c !in spaced[i] {
      if i > 0 { assert spaced[i] == " " + parts[i]; }
    }
    JoinSpaced(parts, c);
    SplitOnJoin(spaced, c);
  }

  /** Trimming only removes characters. */
  lemma TrimKeeps(s: string, c: char)
    ensures c in Trim(s) ==> c in s
  {
    TrimSpec(s);
    if c in Trim(s) {
      var k := |s| - |TrimStart(s)|;
      var i :| 0 <= i < |Trim(s)| && Trim(s)[i] == c;
      assert s[k + i] == c;
    }
  }

  /** Every character of a piece of a split comes from the string split. */
  lemma {:induction false} SplitOnKeeps(s: string, c: char, i: nat, x: char)
    requires i < |SplitOn(s, c)|
    ensures x in SplitOn(s, c)[i] ==> x in s
  {
    if s != [] {
      var rest := SplitOn(s[1..], c);
      if s[0] == c {
        if i > 0 {
          assert SplitOn(s, c)[i] == rest[i - 1];
          SplitOnKeeps(s[1..], c, i - 1, x);
        }
      } else if i == 0 {
        SplitOnKeeps(s[1..], c, 0, x);
      } else {
        assert SplitOn(s, c)[i] == rest[i];
        SplitOnKeeps(s[1..], c, i, x);
      }
    }
  }

  /** The last piece of a split only holds characters of the string. */
  lemma LastPieceKeeps(s: string, c: char, x: char)
    ensures x in LastPiece(s, c) ==> x in s
  {
    LastPieceIsSuffix(s, c);
  }

  /** The last piece of `s.split(c)`, which `pop()` returns. */
  function LastPiece(s: string, c: char): (r: string)
    ensures c !in r
  {
    var parts := SplitOn(s, c);
    SplitOnSpec(s, c);
    parts[|parts| - 1]
  }

  /** The last piece of a split is the part of `s` after its last `c` (all of `s` if none). */
  lemma LastPieceIsSuffix(s: string, c: char)
    ensures |LastPiece(s, c)| <= |s| && LastPiece(s, c) == s[|s| - |LastPiece(s, c)|..]
    ensures |LastPiece(s, c)| < |s| ==> s[|s| - |LastPiece(s, c)| - 1] == c
  {
    SplitOnLast(s, c);
  }

  lemma {:induction false} SplitOnLast(s: string, c: char)
    ensures var r := SplitOn(s, c); var p := r[|r| - 1];
      && (|r| == 1 ==> p == s) && (|r| > 1 ==> |p| < |s|)
      && |p| <= |s| && p == s[|s| - |p|..]
      && (|p| < |s| ==> s[|s| - |p| - 1] == c)
  {
    if s != [] {
      var t := s[1..];
      SplitOnLast(t, c);
      var rest := SplitOn(t, c);
      var p := rest[|rest| - 1];
      var r := SplitOn(s, c);
      assert t[|t| - |p|..] == s[|s| - |p|..];
      if |p| < |t| {
        assert t[|t| - |p| - 1] == s[|s| - |p| - 1];
      }
      if s[0] == c {
        assert r == [[]] + rest;
        assert r[|r| - 1] == p;
      } else {
        assert r == [[s[0]] + rest[0]] + rest[1..];
        if |rest| == 1 {
          assert r[|r| - 1] == [s[0]] + t == s;
        } else {
          assert r[|r| - 1] == p;
        }
      }
    }
  }

  /** The index of the first white-space character, or `|s|` when there is none. */
  function FirstSpace(s: string): (k: nat)
    ensures k <= |s| && NoSpace(s[..k])
    ensures k < |s| ==> IsSpace(s[k])
  {
    if s == [] || IsSpace(s[0]) then 0 else 1 + FirstSpace(s[1..])
  }

  /** `s.split(/\s+/)`: the pieces between maximal runs of white space, empty ones included. */
  function SplitWs(s: string): (r: seq<string>)
    ensures |r| >= 1
    ensures forall i :: 0 <= i < |r| ==> NoSpace(r[i])
    decreases |s|
  {
    var k := FirstSpace(s);
    if k == |s| then [s]
    else
      var t := TrimStart(s[k..]);
      [s[..k]] + SplitWs(t)
  }

  /** The number of non-empty strings in `parts`. */
  function CountNonEmpty(parts: seq<string>): (n: nat)
    ensures n <= |parts|
  {
    if parts == [] then 0 else (if parts[0] != [] then 1 else 0) + CountNonEmpty(parts[1..])
  }

  /** `s.split(/\s+/).filter(w => w.length > 0).length`: the word count used across the UI. */
  function WordCount(s: string): nat {
    CountNonEmpty(SplitWs(s))
  }

  /** Reference definition of a word count: skip white space, consume a word, repeat. */
  function WordRuns(s: string): nat
    decreases |s|
  {
    var t := TrimStart(s);
    if t == [] then 0 else 1 + WordRuns(t[FirstSpace(t)..])
  }

  lemma WordRunsTrimStart(s: string)
    ensures WordRuns(TrimStart(s)) == WordRuns(s)
  {
    TrimStartOfTrimmed(TrimStart(s));
  }

  /** The split-based word count equals the number of maximal runs of non-space characters. */
  lemma {:induction false} WordCountIsRuns(s: string)
    ensures WordCount(s) == WordRuns(s)
    decreases |s|
  {
    var k := FirstSpace(s);
    if k == |s| {
      WordRunsOfWord(s);
    } else {
      var t := TrimStart(s[k..]);
      SplitWsStep(s);
      WordCountIsRuns(t);
      WordRunsTrimStart(s[k..]);
      if k > 0 {
        TrimStartOfTrimmed(s);
      }
    }
  }

  lemma WordRunsOfWord(s: string)
    requires NoSpace(s)
    ensures WordCount(s) == WordRuns(s) == (if s == [] then 0 else 1)
  {
    assert FirstSpace(s) == |s|;
    assert SplitWs(s) == [s];
    if s != [] {
      TrimStartOfTrimmed(s);
      assert s[|s|..] == [];
    }
  }

  lemma SplitWsStep(s: string)
    requires FirstSpace(s) < |s|
    ensures var k := FirstSpace(s);
      WordCount(s) == (if k > 0 then 1 else 0) + WordCount(TrimStart(s[k..]))
  {
    var k := FirstSpace(s);
    var t := TrimStart(s[k..]);
    assert SplitWs(s) == [s[..k]] + SplitWs(t);
    assert ([s[..k]] + SplitWs(t))[1..] == SplitWs(t);
  }

  /** Appending white space does not change the number of words. */
  lemma {:induction false} WordRunsAppendSpace(x: string, w: string)
    requires AllSpace(w)
    ensures WordRuns(x + w) == WordRuns(x)
    decreases |x|
  {
    var t := TrimStart(x);
    if t == [] {
      TrimStartSpec(x);
      assert x[..|x|] == x;
      TrimStartAllSpace(x + w);
    } else {
      TrimStartAppend(x, w);
      var f := FirstSpace(t);
      FirstSpaceAppend(t, w);
      assert (t + w)[f..] == t[f..] + w;
      WordRunsAppendSpace(t[f..], w);
    }
  }

  lemma {:induction false} TrimStartAllSpace(s: string)
    requires AllSpace(s)
    ensures TrimStart(s) == []
  {
    if s != [] { TrimStartAllSpace(s[1..]); }
  }

  lemma {:induction false} TrimStartAppend(x: string, w: string)
    requires AllSpace(w) && TrimStart(x) != []
    ensures TrimStart(x + w) == TrimStart(x) + w
  {
    assert (x + w)[0] == x[0];
    if IsSpace(x[0]) {
      assert (x + w)[1..] == x[1..] + w;
      TrimStartAppend(x[1..], w);
    } else {
      assert TrimStart(x) == x;
    }
  }

  lemma {:induction false} FirstSpaceAppend(t: string, w: string)
    requires AllSpace(w)
    ensures FirstSpace(t + w) == FirstSpace(t)
  {
    if t == [] {
      assert t + w == w;
    } else if !IsSpace(t[0]) {
      assert (t + w)[1..] == t[1..] + w;
      FirstSpaceAppend(t[1..], w);
    }
  }

  /** Leading and trailing white space do not change the word count. */
  lemma WordCountOfTrim(s: string)
    ensures WordCount(Trim(s)) == WordCount(s)
  {
    var t := TrimStart(s);
    var r := TrimEnd(t);
    TrimEndSpec(t);
    assert t == r + t[|r|..];
    WordRunsAppendSpace(r, t[|r|..]);
    WordRunsTrimStart(s);
    WordCountIsRuns(s);
    WordCountIsRuns(Trim(s));
  }

  /**
   * On trimmed, non-empty text `split(/\s+/)` yields only words: its length is the word
   * count, and that is at least one.
   */
  lemma {:induction false} SplitWsOfTrimmed(t: string)
    requires IsTrimmed(t) && t != []
    ensures |SplitWs(t)| == WordCount(t) >= 1
    decreases |t|
  {
    var k := FirstSpace(t);
    if k < |t| {
      var u := TrimStart(t[k..]);
      TrimStartSpec(t[k..]);
      assert u != [] && u[|u| - 1] == t[|t| - 1];
      assert SplitWs(t) == [t[..k]] + SplitWs(u);
      assert ([t[..k]] + SplitWs(u))[1..] == SplitWs(u);
      SplitWsOfTrimmed(u);
    }
  }

  /** `s.replace(c, '')` with a string pattern: only the first occurrence goes. */
  function RemoveFirst(s: string, c: char): (r: string)
    ensures |r| <= |s|
  {
    if s == [] then []
    else if s[0] == c then s[1..]
    else [s[0]] + RemoveFirst(s[1..], c)
  }

  /** Without `c` the string is unchanged; otherwise exactly its first `c` is cut out. */
  lemma {:induction false} RemoveFirstSpec(s: string, c: char)
    ensures c !in s ==> RemoveFirst(s, c) == s
    ensures c in s ==> var i := IndexOf(s, c); RemoveFirst(s, c) == s[..i] + s[i + 1..]
  {
    if s != [] && s[0] != c {
      RemoveFirstSpec(s[1..], c);
      if c in s {
        assert c in s[1..];
        var i := IndexOf(s[1..], c);
        assert s[..i + 1] == [s[0]] + s[1..][..i];
        assert s[i + 2..] == s[1..][i + 1..];
      } else {
        assert s == [s[0]] + s[1..];
      }
    }
  }

  /** The first index of `c` in `s`. */
  function IndexOf(s: string, c: char): (i: nat)
    requires c in s
    ensures i < |s| && s[i] == c && c !in s[..i]
  {
    if s[0] == c then 0 else 1 + IndexOf(s[1..], c)
  }

  /** `s.replace(/c/g, '')`: every occurrence goes, everything else stays in order. */
  function RemoveAll(s: string, c: char): (r: string)
    ensures c !in r
    ensures |r| == |s| - Count(s, c)
    ensures c !in s ==> r == s
    ensures Seqs.IsSubsequence(r, s)
    ensures forall x :: x != c ==> multiset(r)[x] == multiset(s)[x]
  {
    if s == [] then []
    else
      var rest := RemoveAll(s[1..], c);
      assert s == [s[0]] + s[1..];
      if s[0] == c then rest
      else
        var r := [s[0]] + rest;
        assert r[0] == s[0] && r[1..] == rest;
        r
  }

  /** `replace(/c/g, '')` is `filter(x => x !== c)` over the characters. */
  lemma RemoveAllIsFilter(s: string, c: char)
    ensures RemoveAll(s, c) == Seqs.Filter(s, x => x != c)
  {
    var r := RemoveAll(s, c);
    forall x ensures multiset(r)[x] == if x != c then multiset(s)[x] else 0 {
      if x == c {
        assert x !in r;
      }
    }
    Seqs.FilterUnique(r, s, x => x != c);
  }

  /** Removing characters keeps no others. */
  lemma {:induction false} RemoveAllKeeps(s: string, c: char, x: char)
    ensures x in RemoveAll(s, c) ==> x in s
  {
    if s != [] {
      RemoveAllKeeps(s[1..], c, x);
    }
  }

  /** With at most one occurrence, removing the first and removing all agree. */
  lemma {:induction false} RemoveFirstIsAll(s: string, c: char)
    requires Count(s, c) <= 1
    ensures RemoveFirst(s, c) == RemoveAll(s, c)
  {
    if s != [] {
      if s[0] == c {
        CountZero(s[1..], c);
      } else {
        RemoveFirstIsAll(s[1..], c);
      }
    }
  }

  lemma {:induction false} CountZero(s: string, c: char)
    requires Count(s, c) == 0
    ensures c !in s
  {
    if s != [] {
      CountZero(s[1..], c);
    }
  }

  function DigitChar(d: nat): char
    requires d < 10
  {
    ('0' as int + d) as char
  }

  /** The decimal rendering of `n` (`${n}` in a template literal). */
  function NatToString(n: nat): (r: string)
    ensures |r| >= 1
    ensures forall i :: 0 <= i < |r| ==> '0' <= r[i] <= '9'
  {
    if n < 10 then [DigitChar(n)] else NatToString(n / 10) + [DigitChar(n % 10)]
  }

  /** The number a string of decimal digits denotes. */
  function DigitsValue(s: string): nat
    requires forall i :: 0 <= i < |s| ==> '0' <= s[i] <= '9'
  {
    if s == [] then 0 else 10 * DigitsValue(s[..|s| - 1]) + (s[|s| - 1] as int - '0' as int)
  }

  /** Reading back the decimal rendering gives the number. */
  lemma {:induction false} NatToStringRoundTrip(n: nat)
    ensures DigitsValue(NatToString(n)) == n
  {
    if n >= 10 {
      var r := NatToString(n);
      assert r[..|r| - 1] == NatToString(n / 10);
      NatToStringRoundTrip(n / 10);
    }
  }

  /** The decimal rendering of an integer, with a leading `-` when negative. */
  function IntToString(i: int): (r: string)
    ensures |r| >= 1
    ensures (r[0] == '-') <==> i < 0
    ensures forall k :: 0 <= k < |r| ==> r[k] == '-' || '0' <= r[k] <= '9'
  {
    if i < 0 then "-" + NatToString(-i) else NatToString(i)
  }

  /** Removing the first occurrence keeps no other characters. */
  lemma {:induction false} RemoveFirstKeeps(s: string, c: char, x: char)
    ensures x in RemoveFirst(s, c) ==> x in s
  {
    if s != [] && s[0] != c {
      RemoveFirstKeeps(s[1..], c, x);
    }
  }

  /** A character of a joined string comes from one of the parts or from the separator. */
  lemma {:induction false} JoinKeeps(parts: seq<string>, sep: string, x: char)
    requires x !in sep
    requires forall i :: 0 <= i < |parts| ==> x !in parts[i]
    ensures x !in Join(parts, sep)
  {
    if |parts| > 1 {
      JoinKeeps(parts[1..], sep, x);
    }
  }

  /** Lower-casing turns no character into a line break. */
  lemma ToLowerKeepsBreak(s: string)
    requires '\n' !in s
    ensures '\n' !in ToLower(s)
  {
    var r := ToLower(s);
    forall i | 0 <= i < |r| ensures r[i] != '\n' {
      assert s[i] != '\n';
    }
  }

  /**
   * The default `sort()` order on strings: lexicographic by character code, a prefix before
   * any longer string.
   */
  predicate StringLe(a: string, b: string) {
    a == [] || (b != [] && (a[0] < b[0] || (a[0] == b[0] && StringLe(a[1..], b[1..]))))
  }

  lemma {:induction false} StringLeTotal(a: string, b: string)
    ensures StringLe(a, b) || StringLe(b, a)
  {
    if a != [] && b != [] && a[0] == b[0] {
      StringLeTotal(a[1..], b[1..]);
    }
  }

  lemma {:induction false} StringLeTransitive(a: string, b: string, c: string)
    requires StringLe(a, b) && StringLe(b, c)
    ensures StringLe(a, c)
  {
    if a != [] && a[0] == b[0] && b[0] == c[0] {
      StringLeTransitive(a[1..], b[1..], c[1..]);
    }
  }

  /** Only equal strings are ordered both ways, so a sorted list of distinct strings is strictly increasing. */
  lemma {:induction false} StringLeAntisymmetric(a: string, b: string)
    requires StringLe(a, b) && StringLe(b, a)
    ensures a == b
  {
    if a != [] {
      StringLeAntisymmetric(a[1..], b[1..]);
      assert a == [a[0]] + a[1..];
      assert b == [b[0]] + b[1..];
    }
  }
}

=== FILE: templates.dfy ===
/**
 * The template picker: the category buttons, the templates a category shows, the details
 * toggle and the structure preview. The templates themselves are static data, taken as a
 * parameter here.
 */
module AcademicTemplates {
  import Seqs
  import Wrappers

  datatype Template = Template(
    id: string, name: string, description: string, icon: string, category: string,
    structure: string, prompts: seq<string>)

  const All: string := "all"

  /** `t.map(t => t.category)`. */
  function CategoriesOf(ts: seq<Template>): (cs: seq<string>)
    ensures |cs| == |ts| && forall i :: 0 <= i < |ts| ==> cs[i] == ts[i].category
  {
    if ts == [] then [] else [ts[0].category] + CategoriesOf(ts[1..])
  }

  /** `['all', ...new Set(categories)]`. */
  function Categories(ts: seq<Template>): seq<string> {
    [All] + Seqs.Distinct(CategoriesOf(ts))
  }

  /**
   * The list starts with `all`, then names each template category once, in the order the
   * categories first appear among the templates, and nothing else.
   */
  lemma CategoriesSpec(ts: seq<Template>)
    ensures var cs := Categories(ts);
      && cs[0] == All
      && Seqs.NoDuplicates(cs[1..])
      && (forall c :: c in cs[1..] <==> exists i :: 0 <= i < |ts| && ts[i].category == c)
      && (forall i, j :: 1 <= i < j < |cs| ==>
            Seqs.FirstIndex(CategoriesOf(ts), cs[i]) < Seqs.FirstIndex(CategoriesOf(ts), cs[j]))
  {
    var cs := Categories(ts);
    var d := Seqs.Distinct(CategoriesOf(ts));
    assert cs[1..] == d;
    Seqs.DistinctFirstAppearance(CategoriesOf(ts));
    forall c | c in d ensures exists i :: 0 <= i < |ts| && ts[i].category == c {
      var i :| 0 <= i < |CategoriesOf(ts)| && CategoriesOf(ts)[i] == c;
    }
    forall i, j | 1 <= i < j < |cs|
      ensures Seqs.FirstIndex(CategoriesOf(ts), cs[i]) < Seqs.FirstIndex(CategoriesOf(ts), cs[j])
    {
      assert cs[i] == d[i - 1] && cs[j] == d[j - 1];
    }
  }

  /** The templates a category button shows: all of them for `all`, else that category's. */
  function Shown(ts: seq<Template>, selected: string): (r: seq<Template>)
    ensures selected == All ==> r == ts
  {
    if selected == All then ts else Seqs.Filter(ts, (t: Template) => t.category == selected)
  }

  /**
   * Any other category shows the templates of that category in their order, each as often as
   * the list holds it, and no other; a category from the list never shows an empty page.
   */
  lemma ShownSpec(ts: seq<Template>, selected: string)
    requires selected != All
    ensures Seqs.IsSubsequence(Shown(ts, selected), ts)
    ensures forall t :: multiset(Shown(ts, selected))[t] == if t.category == selected then multiset(ts)[t] else 0
    ensures forall t :: t in Shown(ts, selected) <==> t in ts && t.category == selected
    ensures multiset(Shown(ts, selected)) <= multiset(ts)
    ensures selected in Categories(ts) ==> Shown(ts, selected) != []
  {
    var p := (t: Template) => t.category == selected;
    Seqs.FilterSpec(ts, p);
    Seqs.FilterExact(ts, p);
    if selected in Categories(ts) {
      ShownOfListed(ts, selected);
    }
  }

  /** A category from the list shows at least the template it came from. */
  lemma ShownOfListed(ts: seq<Template>, selected: string)
    requires selected != All && selected in Categories(ts)
    ensures Shown(ts, selected) != []
  {
    CategoriesSpec(ts);
    assert selected in Categories(ts)[1..];
    var i :| 0 <= i < |ts| && ts[i].category == selected;
    Seqs.FilterSpec(ts, (t: Template) => t.category == selected);
    assert ts[i] in Shown(ts, selected);
  }

  /** The details toggle: the open template's id, if any. */
  function ToggleDetails(expanded: Wrappers.Option<string>, id: string): (r: Wrappers.Option<string>)
    ensures r == Wrappers.Some(id) <==> expanded != Wrappers.Some(id)
    ensures r.Some? ==> r.value == id
  {
    if expanded == Wrappers.Some(id) then Wrappers.None else Wrappers.Some(id)
  }

  /** Clicking the same template twice gives back the state before, when at most that one was open. */
  lemma ToggleDetailsTwice(expanded: Wrappers.Option<string>, id: string)
    requires expanded.None? || expanded.value == id
    ensures ToggleDetails(ToggleDetails(expanded, id), id) == expanded
  {
  }

  const PreviewLength: nat := 300

  /** The structure preview: its first 300 characters, then `...`. */
  function Preview(structure: string): (r: string)
    ensures |r| == (if |structure| < PreviewLength then |structure| else PreviewLength) + 3
    ensures r[..|r| - 3] == structure[..|r| - 3] && r[|r| - 3..] == "..."
  {
    (if |structure| < PreviewLength then structure else structure[..PreviewLength]) + "..."
  }
}

=== FILE: text_stats.dfy ===
/**
 * Text statistics shown in the editor and on paper cards: the tag-stripping word and character
 * count of the editor's HTML, and an abstract's word count and reading time.
 */
module TextStats {
  import opened Strings

  // ---------------------------------------------------------------------------------------
  // Tag stripping: `html.replace(/<[^>]*>/g, '')`

  /**
   * Scans left to right: a `<` with a `>` somewhere after it starts a tag, which runs to the
   * first such `>` and is dropped; any other character is kept.
   */
  function StripTags(s: string): (r: string)
    ensures |r| <= |s|
    decreases |s|
  {
    if s == [] then []
    else if s[0] == '<' && '>' in s then StripTags(s[IndexOf(s, '>') + 1..])
    else [s[0]] + StripTags(s[1..])
  }

  /** No `<` in `s` is followed, anywhere later, by a `>`: no tag is left to match. */
  predicate NoTag(s: string) {
    forall i, j :: 0 <= i < j < |s| && s[i] == '<' ==> s[j] != '>'
  }

  /** Stripping only removes characters. */
  lemma {:induction false} StripTagsKeeps(s: string, c: char)
    ensures c in StripTags(s) ==> c in s
    decreases |s|
  {
    if s != [] {
      if s[0] == '<' && '>' in s {
        StripTagsKeeps(s[IndexOf(s, '>') + 1..], c);
      } else {
        StripTagsKeeps(s[1..], c);
      }
    }
  }

  /** After stripping no tag is left; a `<` that survives has no `>` after it. */
  lemma {:induction false} StripTagsLeavesNoTag(s: string)
    ensures NoTag(StripTags(s))
    decreases |s|
  {
    if s != [] {
      if s[0] == '<' && '>' in s {
        StripTagsLeavesNoTag(s[IndexOf(s, '>') + 1..]);
      } else {
        var rest := StripTags(s[1..]);
        StripTagsLeavesNoTag(s[1..]);
        var r := StripTags(s);
        assert r == [s[0]] + rest;
        if s[0] == '<' {
          StripTagsKeeps(s[1..], '>');
          assert '>' !in s[1..];
        }
        forall i, j | 0 <= i < j < |r| && r[i] == '<' ensures r[j] != '>' {
          assert r[j] == rest[j - 1];
          if i > 0 {
            assert r[i] == rest[i - 1];
          } else {
            assert rest[j - 1] in rest;
          }
        }
      }
    }
  }

  /** Text without tags passes through unchanged. */
  lemma {:induction false} StripTagsOfNoTag(s: string)
    requires NoTag(s)
    ensures StripTags(s) == s
    decreases |s|
  {
    if s != [] {
      if s[0] == '<' {
        assert '>' !in s;
      }
      assert NoTag(s[1..]) by {
        forall i, j | 0 <= i < j < |s[1..]| && s[1..][i] == '<' ensures s[1..][j] != '>' {
          assert s[i + 1] == '<';
        }
      }
      StripTagsOfNoTag(s[1..]);
      assert s == [s[0]] + s[1..];
    }
  }

  /** Stripping twice strips nothing more; input without `<` is left as it is. */
  lemma StripTagsIdempotent(s: string)
    ensures StripTags(StripTags(s)) == StripTags(s)
    ensures '<' !in s ==> StripTags(s) == s
  {
    StripTagsLeavesNoTag(s);
    StripTagsOfNoTag(StripTags(s));
    if '<' !in s {
      assert NoTag(s);
      StripTagsOfNoTag(s);
    }
  }

  // ---------------------------------------------------------------------------------------
  // `updateCounts`

  datatype Counts = Counts(wordCount: nat, characterCount: nat)

  /** The stripped, trimmed text the counts are taken from. */
  function PlainText(html: string): (t: string)
    ensures |t| <= |html|
  {
    Trim(StripTags(html))
  }

  /**
   * Words: the pieces of `split(/\s+/)` of the plain text, none for empty text; characters:
   * the plain text's length.
   */
  function UpdateCounts(html: string): (c: Counts)
    ensures c.characterCount == |PlainText(html)| <= |html|
    ensures PlainText(html) == [] ==> c.wordCount == 0
    ensures PlainText(html) != [] ==> c.wordCount == |SplitWs(PlainText(html))|
  {
    var plain := PlainText(html);
    Counts(if plain != [] then |SplitWs(plain)| else 0, |plain|)
  }

  /**
   * The word count is the number of words of the tag-free text, at least one when any
   * non-space character is left; the character count drops only tags and surrounding space.
   */
  lemma UpdateCountsSpec(html: string)
    ensures UpdateCounts(html).wordCount == WordCount(StripTags(html))
    ensures PlainText(html) != [] ==> UpdateCounts(html).wordCount >= 1
    ensures '<' !in html ==> UpdateCounts(html).characterCount == |Trim(html)|
  {
    var plain := PlainText(html);
    WordCountOfTrim(StripTags(html));
    TrimSpec(StripTags(html));
    if plain != [] {
      SplitWsOfTrimmed(plain);
    } else {
      assert SplitWs(plain) == [[]];
    }
    StripTagsIdempotent(html);
  }

  // ---------------------------------------------------------------------------------------
  // Paper statistics

  const WordsPerMinute: nat := 200

  /** `Math.ceil(words / 200)`. */
  function ReadingMinutes(words: nat): (m: nat)
    ensures m * WordsPerMinute >= words
    ensures m == 0 || (m - 1) * WordsPerMinute < words
  {
    (words + WordsPerMinute - 1) / WordsPerMinute
  }

  /** `getReadingTime`: the abstract's word count over 200 words a minute, rounded up. */
  function ReadingTime(text: string): (m: nat)
    ensures m == 0 <==> WordCount(text) == 0
    ensures m * WordsPerMinute >= WordCount(text) && (m == 0 || (m - 1) * WordsPerMinute < WordCount(text))
  {
    ReadingMinutesSpec(WordCount(text), WordCount(text));
    ReadingMinutes(WordCount(text))
  }

  /** No words take no time; up to 200 words take one minute; more words never take less. */
  lemma ReadingMinutesSpec(w1: nat, w2: nat)
    ensures ReadingMinutes(w1) == 0 <==> w1 == 0
    ensures 1 <= w1 <= WordsPerMinute ==> ReadingMinutes(w1) == 1
    ensures w1 <= w2 ==> ReadingMinutes(w1) <= ReadingMinutes(w2)
  {
  }

  /** Leading and trailing white space change neither the word count nor the reading time. */
  lemma ReadingTimeOfTrim(text: string)
    ensures WordCount(Trim(text)) == WordCount(text)
    ensures ReadingTime(Trim(text)) == ReadingTime(text)
  {
    WordCountOfTrim(text);
  }
}

=== FILE: wrappers.dfy ===
/** The optional value used wherever the source has `null`, `undefined` or a missing field. */
module Wrappers {

  datatype Option<+T> = None | Some(value: T) {

    /** The value, or `default` when there is none (JavaScript's `x ?? default`). */
    function GetOr(default: T): T {
      match this
      case Some(v) => v
      case None => default
    }
  }
}
